=== FILE: README.md ===
# Map Wizard V1, modelled in Dafny

Map Wizard V1 is a web application that walks a course author through a fixed
sequence of steps (course context, outcomes, evidence, learners, materials,
modules, practice, review). Answers are stored append-only. Gated steps are judged
against a rubric before the session may move on. This project models the parts of
the application that decide things, and proves what they guarantee:

- **Submit engine** (`Submit`, `SubmitProps`): the submit route as one transition
  from a database state to a response and a new database state, run in the
  handler's order:
  1. authentication, validation and the ownership check;
  2. appending the answers;
  3. the configuration lookup;
  4. gate-mode normalisation and the rubric lookup;
  5. clearing the step's feedback;
  6. the judge call, if any;
  7. one feedback row;
  8. the session pointer update.

  The judge is an oracle parameter.
- **Published configuration and seed** (`WizardConfig`, `Seed`): version 1 of the
  wizard definition with its structural invariants, and the seed that upserts it
  and its six rubrics.
- **Session creation** (`SessionCreate`), the **upload-URL route** (`Upload`), the
  **magic-link request** (`AuthRequest`) and the **authentication bypass
  policy** (`AuthServer`, `AuthVerify`).
- **Client derivations** (`WizardView`, `Draft`, `Markdown`, `Demo`):
  - the wizard page's "latest answer per question" and "latest feedback";
  - the step shown and its Prev/Next targets;
  - draft initialisation and `setAnswer`;
  - the missing-required check;
  - the `mdToPlain` rendering;
  - the demo page's clamped index.

Supporting modules:
- `Text`: JavaScript `trim` and ASCII case mapping.
- `Numeral`: integer printing in template literals, and its reading back.
- `Json`: opaque JSON values.
- `Recency`: a stable newest-first sort and "latest row per key".
- `JsObject`: property lookup on a plain object, including `Object.prototype` names.
- `Store`: the persisted rows.
- `Uri`: `encodeURIComponent`.

Foreign pieces are parameters of the functions that use them:
- the clock;
- the random token and its hash;
- the session-cookie check;
- the email validator;
- ids generated by the database;
- the judge's outcome.

## Model

| member | source | states |
|---|---|---|
| Submit.ParseAnswer | app/api/submit/route.ts:15-18 | an answer is accepted exactly when it is an object with a non-empty string `questionId`, which it keeps |
| Submit.ParseAnswers | app/api/submit/route.ts:13-20 | the array is accepted exactly when every element is, one parsed answer per element |
| Submit.ParseSubmit | app/api/submit/route.ts:10-21 | accepted exactly for an object with non-empty string `sessionId` and `stepId` whose `answers` is absent or an array of valid answers; the request carries those two strings and, element by element, the parsed answers (none when `answers` is absent) |
| Submit.FindStepIndex | app/api/submit/route.ts:89 | the index of the first step with the id, or -1 exactly when no step has it |
| Submit.Lookup | app/api/submit/route.ts:121 | a lookup finds a value exactly when the map holds the question |
| Submit.CollectFirstSpec | app/api/submit/route.ts:121-126 | the fill loop keeps question ids distinct and gives each question the value of its first visited row |
| Submit.HasQuestionCons | app/api/submit/route.ts:123 | a map holds a question exactly when its head or its tail does |
| Submit.LookupAppend | app/api/submit/route.ts:123-125 | setting a new question keeps ids distinct and changes only that question's lookup |
| Submit.LatestByQuestionSpec | app/api/submit/route.ts:121-135 | the judge map holds each question once, exactly the questions with a row, each with its first row's value |
| Submit.ClearFeedback | app/api/submit/route.ts:104 | the rows left are exactly the old rows of other (session, step) pairs |
| Submit.CountForNone | app/api/submit/route.ts:104 | a log with no row of the pair counts none for it |
| Submit.CountForAppend | app/api/submit/route.ts:151-160 | counting a pair's rows distributes over appending logs |
| Submit.Post | app/api/submit/route.ts:41-201 | given the authenticated id: 401 exactly without a user, 400 exactly for a bad body, 404 exactly for a session the user does not own, and those write nothing; users, configurations, rubrics and tokens are not written; answers only grow at the end |
| Submit.Route | app/api/submit/route.ts:39-43 | authentication runs first: without the bypass the users table is untouched and 401 is answered exactly without a cookie user; with it the bypass user exists afterwards, created with the fresh id when missing; the early answers write nothing else; configurations, rubrics and tokens are never written |
| Submit.Admitted | app/api/submit/route.ts:66-201 | past the ownership check, the answer log becomes the old log plus the new rows, and nothing but sessions, answers and feedback changes |
| SubmitProps.AnswersAppended | app/api/submit/route.ts:66-76 | each submitted answer becomes one new row after the old ones, whether or not the configuration is found; an empty list writes nothing |
| SubmitProps.MissingConfigKeepsAnswers | app/api/submit/route.ts:78-86 | a missing configuration answers 500 with the answers already written and nothing else changed |
| SubmitProps.JudgeConsultedIff | app/api/submit/route.ts:113 | the judge is called exactly when the gate is soft or hard and a rubric row exists; otherwise the evaluation is the default pass |
| SubmitProps.JudgeFailureSynthesised | app/api/submit/route.ts:138-147 | a throwing judge yields a failing evaluation with one global message and no question results |
| SubmitProps.JudgeGetsLatestAnswers | app/api/submit/route.ts:114-137 | the judge receives each question of the step once, exactly those with a row (new rows included), each with its latest value, which is the latest row for the session, step and question in the whole answer log |
| SubmitProps.JudgeMapOfRows | app/api/submit/route.ts:115-126 | the map built from the newest-first rows gives each question its latest row's value |
| SubmitProps.JudgeAnswersOrderFree | app/api/submit/route.ts:115-119 | when the step's rows for a question carry distinct timestamps, any newest-first order the database returns gives the judge that question's latest value; rows of other questions may share a timestamp |
| SubmitProps.SubmissionKeepsStampsDistinct | app/api/submit/route.ts:66-76 | a submission answering each question at most once, later than every stored row, keeps each question's timestamps distinct, although its own rows all carry the same one |
| SubmitProps.OneFeedbackRow | app/api/submit/route.ts:103-104 | afterwards the step has exactly one feedback row, whose verdict and payload come from the evaluation; other pairs' feedback is kept, and every other row afterwards is an old row of another pair |
| SubmitProps.AdvancementCases | app/api/submit/route.ts:162-200 | an advanceable step completes the session at the last index keeping the submitted id, or moves to the next step's id; a blocked step points at the submitted step; an unconfigured step changes nothing |
| SubmitProps.GatedFailureStays | app/api/submit/route.ts:166-179 | a failing judged submission of a gated step with a rubric consults the judge, returns its evaluation, and stays on the submitted step with the status unchanged |
| SubmitProps.PassMovesOn | app/api/submit/route.ts:166-176 | a passing judged submission of a found step other than the last moves to the next configured step's id, keeping the status |
| SubmitProps.SeededGating | prisma/seed.ts:89-114 | on the seeded database, step j of version 1 is found at index j of eight with its gate mode, and a rubric exists exactly when it is gated |
| SubmitProps.LastStepCompletesFromAnywhere | app/api/submit/route.ts:166-173 | submitting the review step completes the session whatever step and status it had |
| SubmitProps.CompletedSessionMovedBack | app/api/submit/route.ts:177-179 | a complete session is still accepted, and a failing hard-gated submission points it back while it stays complete |
| SubmitProps.SoftGateBlocks | app/api/submit/route.ts:166 | a soft gate with a rubric blocks a failing submission just as a hard gate does |
| SubmitProps.PassAdvancesToNextStep | app/api/submit/route.ts:174-176 | a passing submission of a non-last step moves to the next step of version 1 |
| Recency.Insert | components/WizardApp.tsx:51 | inserting keeps the sequence newest-first and adds exactly one element |
| Recency.SortDesc | components/WizardApp.tsx:48-51 | the sort is newest-first and a permutation of its input |
| Recency.FirstWithKey | app/api/submit/route.ts:122-125 | the first row with the key, none exactly when no row has it |
| Recency.LatestIndex | components/WizardApp.tsx:53-57 | the latest position for the key lies within the sequence |
| Recency.LatestIndexSpec | components/WizardApp.tsx:53-57 | the latest position has the key, is at least as new as every row with the key, and strictly newer than earlier ones |
| Recency.FirstAfterInsertOther | components/WizardApp.tsx:51 | inserting a row with another key does not change the first row of a key |
| Recency.FirstAfterInsertSame | components/WizardApp.tsx:51 | an inserted keyed row becomes the first keyed row when it is at least as new as the old first one, or there was none |
| Recency.FirstIsNewestForKey | app/api/submit/route.ts:117 | in a newest-first sequence, no keyed row is newer than the head |
| Recency.FirstOfSortIsLatest | components/WizardApp.tsx:48-57 | the first keyed row of the sort is the latest keyed row |
| Recency.FirstOfAnyOrderIsLatest | app/api/submit/route.ts:115-126 | when the rows with the key carry distinct timestamps, any newest-first permutation's first keyed row is the latest |
| Recency.FirstIndex | app/api/submit/route.ts:122-125 | the position of the first keyed row, with no keyed row before it |
| Recency.FirstPrecedesKeyed | app/api/submit/route.ts:122-125 | the first keyed row comes no later than any keyed row |
| Recency.KeepKey | components/WizardApp.tsx:48-49 | the filter keeps exactly the rows with the key |
| Recency.KeepKeyAppend | components/WizardApp.tsx:48-49 | filtering a concatenation filters each part, so the kept rows are the rows with the key, in input order, each as often as in the input |
| Recency.KeepKeySingleton | components/WizardApp.tsx:48-49 | a single row is kept exactly when it has the key |
| Recency.LatestOfFilter | app/api/submit/route.ts:114-116 | the latest row for one key among the rows a filter on another key keeps is the latest row having both keys in the unfiltered input |
| Recency.LatestOfKeepKey | components/WizardApp.tsx:48-49 | filtering by the key does not change the latest keyed row |
| WizardConfig.GateModeName | lib/wizard/config.ts:55-58 | each gate reads back as its own mode name |
| WizardConfig.V1StepIds | lib/wizard/config.ts:79-373 | version 1 has the eight step ids in order, pairwise distinct, starting on the session's first step |
| WizardConfig.V1Gates | lib/wizard/config.ts:84-373 | every gated step names a non-empty rubric id; the last step is ungated and asks nothing |
| WizardConfig.V1WellFormed | lib/wizard/config.ts:79-373 | version 1 satisfies every structural invariant: distinct ids, ordered repeat bounds, distinct options, text-only matrix columns, resolvable matrix rows |
| WizardConfig.V1Step0 | lib/wizard/config.ts:84-135 | the context step is well formed |
| WizardConfig.V1Step1 | lib/wizard/config.ts:137-178 | the outcomes step is well formed |
| WizardConfig.V1Step2 | lib/wizard/config.ts:180-220 | the evidence step is well formed |
| WizardConfig.V1EvidenceSource | lib/wizard/config.ts:201 | the evidence matrix's row source names the outcomes repeat group of an earlier step, whose fields include the label field |
| WizardConfig.V1Step4 | lib/wizard/config.ts:252-323 | the materials step is well formed |
| Seed.StepToJson | prisma/seed.ts:96 | a stored step keeps its id and its gate mode name |
| Seed.ConfigToJson | prisma/seed.ts:96 | the stored configuration lists every step, in order |
| Seed.SeedDb | prisma/seed.ts:89-114 | seeding writes the version 1 configuration under its key and leaves users, sessions, answers and other configurations alone |
| Seed.SeedRubricsOverlay | prisma/seed.ts:107-114 | the rubric upserts overlay the table's rows on the existing ones |
| Seed.SeedIdempotent | prisma/seed.ts:89-114 | seeding twice is seeding once |
| Seed.SeedMatchesConfig | prisma/seed.ts:4-5 | the seed's wizard id and version are the configuration's |
| Seed.RubricsSelfConsistent | prisma/seed.ts:12-87 | each rubric applies to its own step, step ids are distinct, and every score range has min ≤ pass_min ≤ max |
| Seed.EntryMatches | prisma/seed.ts:12-87 | table entry i names gated step i + 1 of version 1 and its rubric id |
| Seed.RubricsMatchGatedSteps | prisma/seed.ts:12-87 | every table entry names a gated step of version 1 |
| Seed.GatedStepsHaveRubrics | prisma/seed.ts:12-87 | every gated step of version 1 has a table entry |
| Seed.RubricKeyInjective | prisma/seed.ts:108 | distinct step ids give distinct rubric keys |
| Seed.SeedRubricsSource | prisma/seed.ts:107-114 | every rubric row afterwards was there before or was written by an upsert |
| Seed.SeedRubricsWritten | prisma/seed.ts:107-114 | each table row is stored under its key |
| Seed.SeedRubricsKeep | prisma/seed.ts:107-114 | rows under other keys are kept |
| Seed.SeededRubricLookup | prisma/seed.ts:107-114 | after seeding, the submit handler finds a rubric exactly for the table's steps |
| Store.UpsertUser | lib/authServer.ts:40-45 | the email maps to the returned id; an existing user is kept, a new one gets the fresh id |
| SessionCreate.PositiveInt | lib/validators.ts:13 | accepted exactly for a number with no fractional part above zero, which it returns |
| SessionCreate.ParseCreate | lib/validators.ts:11-14 | accepted exactly for an object with a non-empty string `wizardId` and a positive integer `version`; the request carries exactly those two values |
| SessionCreate.Post | app/api/session/route.ts:9-34 | 401 exactly without a cookie user, 400 exactly for a bad body, neither writes; otherwise one in-progress session on the first step, owned by the user |
| SessionCreate.StartsOnFirstStep | app/api/session/route.ts:29 | the initial step id is the first step of version 1 |
| SessionCreate.CreatedSessionOwned | app/api/session/route.ts:23-31 | the creator owns the new session and every existing session is unchanged |
| SessionCreate.SeedKeepsSessions | prisma/seed.ts:89-114 | seeding commutes with a change to the sessions table |
| SessionCreate.CreateThenSubmitFirstStep | app/api/session/route.ts:23-33 | a new session of version 1 submitted on its first step moves to the outcomes step without the judge |
| AuthServer.Normalize | lib/authServer.ts:6-8 | a missing value reads as ""; the result is trimmed and has no capitals |
| AuthServer.ChecksExclusive | lib/authServer.ts:10-18 | no value is both explicitly false and truthy |
| AuthServer.BypassEnabled | lib/authServer.ts:26-31 | an unset variable enables the bypass; a set one enables it exactly when it normalises to 1, true, yes or on |
| AuthServer.NormalizeIgnoresPadding | lib/authServer.ts:7 | surrounding whitespace does not change the normalised value |
| AuthServer.NormalizeIgnoresCase | lib/authServer.ts:7 | values equal up to case normalise alike |
| AuthServer.BypassIgnoresCaseAndPadding | lib/authServer.ts:26-31 | the bypass reading ignores case and padding |
| AuthServer.GetAuthedUserId | lib/authServer.ts:37-53 | under the bypass, the upserted bypass user's id; otherwise the cookie's user id with nothing written |
| AuthServer.BypassUserStable | lib/authServer.ts:38-46 | under the bypass a second call returns the same id and writes nothing |
| AuthVerify.SameAsServerPolicy | app/api/auth/verify/route.ts:6-16 | the verify route's copy of the policy agrees with the shared one on every value |
| AuthVerify.Post | app/api/auth/verify/route.ts:18-29 | a bypass answer exactly when the bypass is on, else 501 |
| AuthVerify.Get | app/api/auth/verify/route.ts:32-37 | a bypass answer exactly when the bypass is on, else 405 |
| AuthRequest.BypassReadings | app/api/auth/request/route.ts:10-13 | a set variable is read alike by this route and the shared policy; an unset one is off here and on there |
| AuthRequest.StripTrailingSlash | app/api/auth/request/route.ts:33 | one trailing slash is removed, nothing else |
| AuthRequest.AppUrl | app/api/auth/request/route.ts:33-37 | the base URL without its trailing slash, missing exactly when unset, empty or a lone slash |
| AuthRequest.LinkCarriesToken | app/api/auth/request/route.ts:55 | the link is the base, the verify path and `?token=`, followed by the encoded token with no separator characters |
| AuthRequest.ParseEmail | lib/validators.ts:3-5 | accepted exactly for an object whose `email` is a string of at most 320 characters that the validator accepts; the result is that string |
| AuthRequest.Post | app/api/auth/request/route.ts:15-66 | bypass, 400 and 500 exactly in their cases, writing nothing; sessions, answers and feedback are never written |
| AuthRequest.IssuedLink | app/api/auth/request/route.ts:39-65 | a valid request upserts the lower-cased user, stores one token hash expiring 15 minutes later, and sends or returns the link |
| AuthRequest.EmailCaseInsensitive | app/api/auth/request/route.ts:31 | emails equal up to case reach the same user |
| Uri.Utf8 | app/api/auth/request/route.ts:55 | one to four bytes, one exactly for ASCII |
| Uri.HexDigit | app/api/auth/request/route.ts:55 | a hexadecimal digit is unreserved |
| Uri.Percent | app/api/auth/request/route.ts:55 | an escape is '%' and two unreserved digits |
| Uri.PercentAll | app/api/auth/request/route.ts:55 | three characters per byte, each '%' or unreserved |
| Uri.EncodeChar | app/api/auth/request/route.ts:55 | an unreserved character is kept; any other starts an escape |
| Uri.EncodeUriComponent | app/api/auth/request/route.ts:55 | the output is no shorter and holds only '%' and unreserved characters |
| Uri.EncodeUnreservedIdentity | app/api/auth/request/route.ts:47-55 | a string of unreserved characters, such as a hex token, is unchanged |
| Uri.HexRoundTrip | app/api/auth/request/route.ts:55 | a digit's value reads back |
| Uri.DecodeEncodeAscii | app/api/auth/request/route.ts:55 | percent-decoding undoes the encoding of ASCII text |
| Uri.DecodeEncodedChar | app/api/auth/request/route.ts:55 | one encoded ASCII character decodes back and decoding resumes after it |
| Uri.DecodeUnreserved | app/api/auth/request/route.ts:55 | an unreserved character decodes as itself |
| Uri.EscapeOfAscii | app/api/auth/request/route.ts:55 | a reserved ASCII character is a single escape |
| Uri.DecodeEscape | app/api/auth/request/route.ts:55 | an escape of a byte below 0x80 decodes to that character |
| Upload.Replace | app/api/upload/url/route.ts:33 | the replacement is never longer than its input |
| Upload.ReplaceRuns | app/api/upload/url/route.ts:33 | the replacement is never longer than its input |
| Upload.ReplaceAllowed | app/api/upload/url/route.ts:33 | the result holds only word characters, '.', '-', '(', ')' and space |
| Upload.ReplaceRunsAllowed | app/api/upload/url/route.ts:33 | the same, from the start of the name |
| Upload.SafeName | app/api/upload/url/route.ts:33 | at most 120 characters, all allowed, a prefix of the replaced name |
| Upload.ReplaceIdentity | app/api/upload/url/route.ts:33 | an allowed name is unchanged by the replacement |
| Upload.ReplaceRunsIdentity | app/api/upload/url/route.ts:33 | the same, from the start of the name |
| Upload.SafeNameIdentity | app/api/upload/url/route.ts:33 | an allowed name of at most 120 characters is its own safe name |
| Upload.ReplaceAppend | app/api/upload/url/route.ts:33 | replacement works piece by piece, carrying whether a run is open |
| Upload.ReplaceOfRun | app/api/upload/url/route.ts:33 | a run of disallowed characters gives one '_', or nothing when a run is already open |
| Upload.ReplaceRunsSplit | app/api/upload/url/route.ts:33 | a maximal run of disallowed characters between allowed ones becomes exactly one '_' |
| Upload.ObjectKeyLayout | app/api/upload/url/route.ts:34 | the key is the prefix and path segments, then the time, '_' and the safe name |
| Upload.ParseUpload | lib/validators.ts:27-33 | accepted exactly for an object whose five string fields meet their length bounds; the request carries exactly those five strings |
| Upload.Post | app/api/upload/url/route.ts:10-43 | 401, 400 and 404 exactly in their cases; otherwise a presigned key for the safe name with the request's content type |
| Text.TrimStart | lib/authServer.ts:7 | the result is a suffix of the input after a whitespace-only prefix, and starts with no whitespace |
| Text.TrimEnd | lib/authServer.ts:7 | the result is a prefix of the input before a whitespace-only suffix, and ends with no whitespace |
| Text.Trim | lib/authServer.ts:7 | the result is trimmed and no longer than the input |
| Text.TrimCutsWhitespace | lib/authServer.ts:7 | trim removes only whitespace from each end |
| Text.TrimCutsSlice | lib/authServer.ts:7 | trim returns a slice of its input |
| Text.TrimCutsTail | lib/authServer.ts:7 | what trim cuts from the end is whitespace |
| Text.TrimStartOfWhitespace | lib/authServer.ts:7 | all-whitespace text trims to "" |
| Text.TrimStartAfterWhitespace | lib/authServer.ts:7 | leading whitespace does not change the start trim |
| Text.TrimEndBeforeWhitespace | lib/authServer.ts:7 | trailing whitespace does not change the end trim |
| Text.AllWhitespaceCons | lib/authServer.ts:7 | whitespace followed by whitespace is whitespace |
| Text.TrimStartAppend | lib/authServer.ts:7 | trimming the start skips a leading whitespace piece |
| Text.TrimIgnoresPadding | lib/authServer.ts:7 | trim ignores surrounding whitespace |
| Text.ToLower | lib/authServer.ts:7 | lower-casing keeps the length and maps each character on its own |
| Text.ToUpper | lib/authServer.ts:7 | upper-casing keeps the length and maps each character on its own |
| Text.LowerOfUpper | lib/authServer.ts:7 | lower-casing after upper-casing is lower-casing |
| Text.TrimOfUpper | lib/authServer.ts:7 | trim commutes with upper-casing |
| Text.TrimStartOfUpper | lib/authServer.ts:7 | the start trim commutes with upper-casing |
| Text.TrimEndOfUpper | lib/authServer.ts:7 | the end trim commutes with upper-casing |
| Text.TrimOfLower | lib/authServer.ts:7 | trim commutes with lower-casing |
| Text.TrimStartOfLower | lib/authServer.ts:7 | the start trim commutes with lower-casing |
| Text.TrimEndOfLower | lib/authServer.ts:7 | the end trim commutes with lower-casing |
| Text.LowerKeepsTrimmed | lib/authServer.ts:7 | lower-casing trimmed text leaves it trimmed |
| Text.LowerIdempotent | lib/authServer.ts:7 | lower-casing twice is lower-casing once |
| Numeral.NatToString | app/api/upload/url/route.ts:34 | decimal digits, at least one, with a leading zero only for 0; NatToStringValue reads them back as the number |
| Numeral.IntToString | app/api/upload/url/route.ts:34 | a non-empty numeral that starts with '-' exactly for a negative number; IntToStringValue gives its value |
| Numeral.NatToStringValue | app/api/upload/url/route.ts:34 | the digits printed for a natural number denote that number |
| Numeral.IntToStringValue | app/api/upload/url/route.ts:34 | the text printed for an integer is its decimal numeral without a leading zero, behind a '-' exactly for a negative number |
| Numeral.IntToStringInjective | prisma/seed.ts:92 | distinct integers print differently, as the version part of a configuration key `${wizardId}:${version}` |
| Text.TrimKeepsAvoids | components/WizardApp.tsx:42 | trimming introduces no character |
| Json.StringField | app/api/submit/route.ts:11-12 | accepted exactly for a string field of at least the minimum length, which it returns |
| Json.BoundedStringField | lib/validators.ts:31-32 | accepted exactly for a string field within both length bounds, which it returns |
| JsObject.Get | components/WizardApp.tsx:56 | an own key reads its value; a missing prototype name reads as inherited; any other missing key is undefined |
| Markdown.StripMarks | components/WizardApp.tsx:40 | the result is no longer and holds no '*', '_' or '`'; StripMarksChar and StripMarksAppend say which characters go |
| Markdown.StripMarksChar | components/WizardApp.tsx:40 | a mark character is deleted and any other character kept |
| Markdown.StripMarksAroundWord | components/WizardApp.tsx:40 | `**w**` and `_w_` render as the mark-free word `w` |
| Markdown.StripMarksIdentity | components/WizardApp.tsx:40 | text without marks is unchanged |
| Markdown.StripMarksAppend | components/WizardApp.tsx:40 | mark removal works piece by piece |
| Markdown.LinkMiddle | components/WizardApp.tsx:41 | the lazy text group stops at a "](" |
| Markdown.LinkClose | components/WizardApp.tsx:41 | the lazy target group stops at a ')' |
| Markdown.LinkAt | components/WizardApp.tsx:41 | a match at the start fits within the input |
| Markdown.ReplaceLinks | components/WizardApp.tsx:41 | the replacement is no longer than its input |
| Markdown.ReplaceLinksFromInput | components/WizardApp.tsx:41 | every output character occurs in the input |
| Markdown.ReplaceLinksAvoids | components/WizardApp.tsx:41 | characters absent from the input are absent from the output |
| Markdown.LinkAtOf | components/WizardApp.tsx:41 | the match is the first "](" after the '[' and the first ')' after it |
| Markdown.ReplaceLinksAtMatch | components/WizardApp.tsx:41 | at a match, the output is the link text and the scan resumes after the ')' |
| Markdown.LinkBecomesText | components/WizardApp.tsx:41 | a link without ']' in its text, ')' in its target or line breaks becomes its text |
| Markdown.LinkMiddleAt | components/WizardApp.tsx:41 | the text group ends at the first "](" |
| Markdown.LinkCloseAt | components/WizardApp.tsx:41 | the target group ends at the first ')' |
| Markdown.ReplaceLinksIdentity | components/WizardApp.tsx:41 | text without '[' is unchanged |
| Markdown.MdToPlain | components/WizardApp.tsx:37-43 | undefined and "" give ""; the result is trimmed and has no marks |
| Markdown.PlainTextOnlyTrimmed | app/demo/page.tsx:8-14 | text with no marks and no link is only trimmed |
| Markdown.LinkRendersAsText | app/demo/page.tsx:8-14 | a lone link renders as its trimmed text |
| Draft.MissingSpec | components/WizardApp.tsx:157-173 | no more labels than questions |
| Draft.MissingSpecAppend | components/WizardApp.tsx:160-171 | labels come out in question order |
| Draft.MissingListsReported | components/WizardApp.tsx:161-170 | every required question with an empty value is listed |
| Draft.MissingOnlyReported | components/WizardApp.tsx:161-170 | only required questions with an empty value are listed |
| Draft.MissingRequired | app/demo/page.tsx:58-73 | the loop computes exactly the reference list |
| Draft.SetAnswer | components/WizardApp.tsx:144-153 | the step's draft holds the new value and the step is added to the drafts |
| Draft.SetAnswerFrame | components/WizardApp.tsx:146-152 | every other step's draft and every other question are unchanged |
| Draft.AnsweredNotReported | components/WizardApp.tsx:163-170 | a question answered non-emptily is no longer reported and others are unaffected |
| WizardView.AsWrittenDropsProtoKeys | components/WizardApp.tsx:53-57 | as written, a question named like an `Object.prototype` member never gets its saved value |
| WizardView.AsWrittenLosesToString | components/WizardApp.tsx:45-59 | one saved answer to a question "toString" is dropped as written and kept when corrected |
| WizardView.CollectSpec | components/WizardApp.tsx:53-57 | the corrected loop keeps what it has and adds each other non-empty id's first value |
| WizardView.LatestAnswersMeaning | components/WizardApp.tsx:45-59 | no value for the empty id; otherwise a value exactly when the step has a row for the question, the latest one's, which is also the latest of all rows for that step and question |
| WizardView.LatestAnswersFromLatest | components/WizardApp.tsx:45-59 | the corrected loop keeps, for a non-empty id, the value of the latest row of the step |
| WizardView.StepHasRow | components/WizardApp.tsx:48-49 | a latest row exists exactly when some row of the step answers the question |
| WizardView.CollectAgreesOffProto | components/WizardApp.tsx:56 | off prototype names the written and corrected loops agree |
| WizardView.CollectAgreesOffProtoSplit | components/WizardApp.tsx:56 | they still agree after the written loop skips a prototype name |
| WizardView.AsWrittenAgreesOffProto | components/WizardApp.tsx:45-59 | the page as written is right for every id that is not a prototype name |
| WizardView.StepRowsOfOneSession | components/WizardApp.tsx:48-49 | on one session's rows, the page's step filter is the handler's |
| WizardView.CorrectedAgreesWithJudge | components/WizardApp.tsx:45-59 | when the step's rows for a question carry distinct timestamps, the corrected lookup yields a value for it exactly when the judge receives it, and the same value |
| WizardView.ClientAgreesWithJudge | components/WizardApp.tsx:45-59 | under the same hypothesis, the page as written agrees with the judge on every id that is not an `Object.prototype` name; for such a name the page shows nothing while the judge receives it exactly when the step has a row for it |
| WizardView.AsWrittenAgainstJudge | components/WizardApp.tsx:53-57 | any list that agrees with the corrected lookup agrees with the page as written off prototype names, and holds a prototype name exactly when the step has a row for it |
| WizardView.LatestFeedbackMeaning | components/WizardApp.tsx:61-67 | no payload exactly when the step has no feedback; otherwise the latest row's payload |
| WizardView.FindIndex | components/WizardApp.tsx:128 | the first position of the id, or -1 exactly when it is absent |
| WizardView.StepIndex | components/WizardApp.tsx:125-130 | the position of a present non-empty active id, otherwise 0 |
| WizardView.PrevNextMoveByOne | components/WizardApp.tsx:433-446 | with distinct ids, Prev moves one back and Next one forward, each stopping at its end, where its button is disabled |
| WizardView.IndexOfDistinct | components/WizardApp.tsx:267 | clicking step j shows step j |
| WizardView.InitDraftIdempotent | components/WizardApp.tsx:136-142 | initialising again changes nothing, and other steps' drafts are untouched |
| WizardView.InitDraftShowsSaved | components/WizardApp.tsx:136-142 | a step opened for the first time gets a draft; for a non-empty id that is not an `Object.prototype` name it holds a value exactly when the step has a saved row for the question, and then the latest one's, which is also the latest of all rows for that step and question; a prototype name gets no value |
| WizardView.SetAnswer | components/WizardApp.tsx:144-155 | no step means no change; otherwise the draft the page reads for the step takes the value for the question, and every other step's draft is as it was |
| Demo.SafeIndex | app/demo/page.tsx:24-25 | 0 for no steps, else the index clamped into range |
| Demo.MovesStayInRange | app/demo/page.tsx:95 | every sequence of clicks and Prev/Next keeps the index in range, so the clamp never acts |
| Demo.PrevNextAtEnds | app/demo/page.tsx:253-263 | Prev and Next are disabled exactly at their ends and move by one otherwise |
| Demo.CurrentStep | app/demo/page.tsx:24-27 | the step at the index when it is in range, the first step below the range and the last step above it |
| Demo.SetAnswer | app/demo/page.tsx:43-53 | the index and the shown step are unchanged; the draft the page reads for the shown step takes the value for the question, and every other step's draft is as it was |
| Demo.MissingRequired | app/demo/page.tsx:58-73 | the reference list of the current step's draft |

## Left out

- The judge: the language-model evaluator and its prompt are foreign. The judge's outcome is a parameter. Its arguments are returned as a call record. The rubric JSON is passed through unread.
- The session-cookie signature check, random tokens and SHA-256: these are foreign, and their results are parameters.
- The S3 presigning: foreign. The model returns the key and the content type the route hands over.
- Email sending and the email-format validator: foreign. The validator is a parameter.
- Logging and `console.log`: they have no effect on the modelled state.
- The wizard-config and `/me` routes, the session-read route and the page components' rendering: they hold no decision logic beyond what is modelled.
- Concurrency: each handler is one atomic transition. Two interleaved submissions are not modelled.
- Session timestamps and `updatedAt`: nothing in the core reads them.
- Upload.Post: the clock reading `Date.now()` is a parameter.
- AuthRequest.IssuedLink: the expiry is the clock parameter plus 15 minutes.
- Text.ToLower and Text.ToUpper: they model ASCII letters only. JavaScript maps every Unicode letter.
- Text.Trim: strings are sequences of code points, not UTF-16 units.
- Json.StringField: lengths are counted in code points, not UTF-16 units.
- Json.BoundedStringField: both bounds count code points, not the UTF-16 units zod counts, so a string with characters outside the Basic Multilingual Plane can pass the upper bound here (email at most 320, filename and contentType at most 200) and fail it in the source.
- SessionCreate.PositiveInt: JSON numbers are modelled as reals, without the floating-point range or `NaN`.
- The database's order among rows with equal `createdAt` is unspecified. SubmitProps.JudgeAnswersOrderFree states the order-free result for a question whose rows carry distinct timestamps; two rows of the same question saved at the same millisecond are left to the stable-sort representative.
- Submit.Post: authentication is a parameter. The bypass user upsert that `getAuthedUserId` performs happens before it, and Submit.Route composes the two.
- Submit.ParseAnswer: a missing `value` is taken as JSON null. zod leaves it undefined, and what the database then stores is not part of this model.
- Submit.Post: among rows with equal `createdAt` it uses a stable newest-first sort, which is one representative of the orders the database may return, not its promise.
- Submit.FindStepIndex: a stored step whose `id` is not a string reads as a step with no id, which no submitted step id matches.
- WizardView.StepIndex: step ids are taken from a configuration with string ids, as a sequence of strings.
- Draft.StepAnswers: a step-level draft lookup sees own keys only. Drafts are keyed by the configuration's step ids, none of which is an `Object.prototype` name. WizardView.InitDraft alone uses the prototype-aware lookup that `prev[stepId]` performs.
- Markdown.LinkRendersAsText: it needs the link's text and target to hold no line break, because the regular expression's `.` does not match a line terminator.
- Markdown.ReplaceLinks: only the `[text](url)` pattern with the lazy groups of the source is modelled, not general Markdown.

## Findings

| source | as written | input that shows it | evidently intended | confidence | as-written member | corrected member |
|---|---|---|---|---|---|---|
| components/WizardApp.tsx:56 | `if (out[qid] === undefined)` on a plain `{}`: a question id that names an `Object.prototype` member (`toString`, `constructor`, `__proto__`, …) already reads as defined, so its saved answer is never put in the draft | one saved answer `{stepId: "s1_outcomes", questionId: "toString", value: "x"}` | record the latest value of every question id (an own-key test) | not executed | WizardView.AsWrittenLosesToString | WizardView.LatestAnswersMeaning |

=== FILE: auth_request.dfy ===
/**
 * The magic-link request route. The exits come in a fixed order: the global
 * bypass, body validation, the application URL, and only then the user upsert,
 * the token row, and either the dev-bypass link or the e-mail. The random token,
 * its hash, the e-mail address check and the clock are foreign and arrive as
 * parameters; the mail actually sent is returned.
 */
module AuthRequest {

  import opened Wrappers
  import Json
  import Text
  import opened Store
  import AuthServer
  import Uri

  /** `isTruthyEnv`: true only for "1", "true", "yes" or "on" after trim and lower-case;
      an unset variable is false. */
  predicate IsTruthyEnv(v: Option<string>) {
    var s := AuthServer.Normalize(v);
    s == "1" || s == "true" || s == "yes" || s == "on"
  }

  /** This route and the shared policy agree on every SET value of `AUTH_BYPASS`, but
      an UNSET one switches the shared bypass on and this route's bypass off. */
  lemma BypassReadings(v: Option<string>)
    ensures v.Some? ==> (IsTruthyEnv(v) <==> AuthServer.BypassEnabled(v))
    ensures v.None? ==> !IsTruthyEnv(v) && AuthServer.BypassEnabled(v)
  {
  }

  /** How long a magic link stays valid: 15 minutes, in milliseconds. */
  const TokenLifetimeMs: int := 15 * 60 * 1000

  /** `replace(/\/$/, "")`: one trailing slash is removed. */
  function StripTrailingSlash(u: string): (r: string)
    ensures |u| > 0 && u[|u| - 1] == '/' ==> r + "/" == u
    ensures !(|u| > 0 && u[|u| - 1] == '/') ==> r == u
  {
    if |u| > 0 && u[|u| - 1] == '/' then u[..|u| - 1] else u
  }

  /** The configured application URL without its trailing slash, or None when it is
      unset or nothing is left. */
  function AppUrl(v: Option<string>): (r: Option<string>)
    ensures r.Some? ==> v.Some? && r.value != "" && r.value == StripTrailingSlash(v.value)
    ensures r.None? ==> v.None? || v.value == "" || v.value == "/"
  {
    match v
    case None => None
    case Some(u) => if StripTrailingSlash(u) == "" then None else Some(StripTrailingSlash(u))
  }

  /** The link mailed (or returned) to the user. */
  function VerifyLink(appUrl: string, rawToken: string): string {
    appUrl + "/auth/verify?token=" + Uri.EncodeUriComponent(rawToken)
  }

  /** The token is the link's only query value: everything after "?token=" is the
      encoded token, which holds no '&', '#' or '='. */
  lemma LinkCarriesToken(appUrl: string, rawToken: string)
    ensures var link := VerifyLink(appUrl, rawToken);
            var prefix := appUrl + "/auth/verify?token=";
            && link[..|prefix|] == prefix
            && link[|prefix|..] == Uri.EncodeUriComponent(rawToken)
            && forall k :: |prefix| <= k < |link| ==> link[k] != '&' && link[k] != '#' && link[k] != '='
  {
    var link := VerifyLink(appUrl, rawToken);
    var prefix := appUrl + "/auth/verify?token=";
    var enc := Uri.EncodeUriComponent(rawToken);
    assert link == prefix + enc;
    forall k | |prefix| <= k < |link| ensures link[k] != '&' && link[k] != '#' && link[k] != '=' {
      assert link[k] == enc[k - |prefix|];
    }
  }

  /** The body schema: an object whose `email` is a string of at most 320 characters
      that the address check accepts. */
  function ParseEmail(body: Option<Json.Value>, isEmail: string -> bool): (r: Option<string>)
    ensures r.Some? <==>
              && body.Some? && body.value.Obj?
              && Json.BoundedStringField(body.value.fields, "email", 0, 320).Some?
              && isEmail(body.value.fields["email"].s)
    ensures r.Some? ==> r.value == body.value.fields["email"].s
    ensures r.Some? ==> |r.value| <= 320 && isEmail(r.value)
  {
    match body
    case Some(Obj(f)) =>
      (match Json.BoundedStringField(f, "email", 0, 320)
       case Some(e) => if isEmail(e) then Some(e) else None
       case None => None)
    case _ => None
  }

  datatype RequestEnv = RequestEnv(authBypass: Option<string>, appUrl: Option<string>, devBypass: Option<string>)

  datatype RequestResponse =
    | Bypassed
    | InvalidRequest
    | AppUrlMissing
    | LinkReturned(link: string, expiresAt: int)
    | EmailSent

  function HttpStatus(r: RequestResponse): int {
    match r
    case InvalidRequest => 400
    case AppUrlMissing => 500
    case _ => 200
  }

  datatype Mail = Mail(to: string, link: string)

  datatype RequestOutcome = RequestOutcome(response: RequestResponse, db: Db, mail: Option<Mail>)

  /** The route's POST handler. */
  function Post(env: RequestEnv, body: Option<Json.Value>, isEmail: string -> bool,
                freshUserId: string, rawToken: string, hash: string -> string, now: int, db: Db): (o: RequestOutcome)
    ensures o.response == Bypassed <==> IsTruthyEnv(env.authBypass)
    ensures o.response == InvalidRequest <==> !IsTruthyEnv(env.authBypass) && ParseEmail(body, isEmail).None?
    ensures o.response == AppUrlMissing <==>
              !IsTruthyEnv(env.authBypass) && ParseEmail(body, isEmail).Some? && AppUrl(env.appUrl).None?
    ensures o.response.Bypassed? || o.response.InvalidRequest? || o.response.AppUrlMissing? ==> o.db == db && o.mail.None?
    ensures o.db.sessions == db.sessions && o.db.answers == db.answers && o.db.feedback == db.feedback
            && o.db.configs == db.configs && o.db.rubrics == db.rubrics
  {
    var email := ParseEmail(body, isEmail);
    var appUrl := AppUrl(env.appUrl);
    if IsTruthyEnv(env.authBypass) then RequestOutcome(Bypassed, db, None)
    else if email.None? then RequestOutcome(InvalidRequest, db, None)
    else if appUrl.None? then RequestOutcome(AppUrlMissing, db, None)
    else
      var e := Text.ToLower(email.value);
      var (userId, users) := UpsertUser(db.users, e, freshUserId);
      var expiresAt := now + TokenLifetimeMs;
      var db' := db.(users := users, tokens := db.tokens + [TokenRow(userId, hash(rawToken), expiresAt)]);
      var link := VerifyLink(appUrl.value, rawToken);
      if IsTruthyEnv(env.devBypass) then RequestOutcome(LinkReturned(link, expiresAt), db', None)
      else RequestOutcome(EmailSent, db', Some(Mail(e, link)))
  }

  /** A request that gets through writes the user under the LOWER-CASED address, adds
      one token row for that user holding the token's hash and expiring exactly 15
      minutes from now, and then either returns the link (dev bypass on, no mail) or
      mails it to that address (no link returned). */
  lemma IssuedLink(env: RequestEnv, body: Option<Json.Value>, isEmail: string -> bool,
                   freshUserId: string, rawToken: string, hash: string -> string, now: int, db: Db)
    requires !IsTruthyEnv(env.authBypass)
    requires ParseEmail(body, isEmail).Some? && AppUrl(env.appUrl).Some?
    ensures var o := Post(env, body, isEmail, freshUserId, rawToken, hash, now, db);
            var email := Text.ToLower(ParseEmail(body, isEmail).value);
            var link := VerifyLink(AppUrl(env.appUrl).value, rawToken);
            && email in o.db.users
            && (email in db.users ==> o.db.users == db.users)
            && o.db.tokens == db.tokens + [TokenRow(o.db.users[email], hash(rawToken), now + 15 * 60 * 1000)]
            && (IsTruthyEnv(env.devBypass) ==> o.response == LinkReturned(link, now + 15 * 60 * 1000) && o.mail.None?)
            && (!IsTruthyEnv(env.devBypass) ==> o.response == EmailSent && o.mail == Some(Mail(email, link)))
  {
    var email := Text.ToLower(ParseEmail(body, isEmail).value);
    var (userId, users) := UpsertUser(db.users, email, freshUserId);
    var db' := db.(users := users, tokens := db.tokens + [TokenRow(userId, hash(rawToken), now + TokenLifetimeMs)]);
    var link := VerifyLink(AppUrl(env.appUrl).value, rawToken);
    var o := Post(env, body, isEmail, freshUserId, rawToken, hash, now, db);
    if IsTruthyEnv(env.devBypass) {
      assert o == RequestOutcome(LinkReturned(link, now + TokenLifetimeMs), db', None);
    } else {
      assert o == RequestOutcome(EmailSent, db', Some(Mail(email, link)));
    }
  }

  /** Addresses differing only in ASCII case reach the same user. */
  lemma EmailCaseInsensitive(users: map<string, string>, a: string, b: string, f1: string, f2: string)
    requires Text.ToLower(a) == Text.ToLower(b)
    ensures UpsertUser(users, Text.ToLower(a), f1).1 == UpsertUser(UpsertUser(users, Text.ToLower(a), f1).1, Text.ToLower(b), f2).1
    ensures UpsertUser(users, Text.ToLower(a), f1).0 == UpsertUser(UpsertUser(users, Text.ToLower(a), f1).1, Text.ToLower(b), f2).0
  {
  }
}

=== FILE: auth_server.dfy ===
/**
 * The server-side authentication policy: the tri-state `AUTH_BYPASS` switch and
 * `getAuthedUserId`. Environment variables are parameters (None when unset); the
 * signed-cookie check is a foreign computation whose outcome, the cookie's user id
 * or none, is a parameter too.
 */
module AuthServer {

  import opened Wrappers
  import Text
  import Store

  /** `(v ?? "").trim().toLowerCase()`. */
  function Normalize(v: Option<string>): (r: string)
    ensures v.None? ==> r == ""
    ensures Text.Trimmed(r)
    ensures forall k :: 0 <= k < |r| ==> !('A' <= r[k] <= 'Z')
  {
    var t := Text.Trim(v.GetOr(""));
    Text.LowerKeepsTrimmed(t);
    Text.ToLower(t)
  }

  /** The spellings that switch the bypass off. */
  predicate IsExplicitlyFalse(v: Option<string>) {
    var s := Normalize(v);
    s == "0" || s == "false" || s == "no" || s == "off"
  }

  /** The spellings that switch the bypass on. */
  predicate IsTruthy(v: Option<string>) {
    var s := Normalize(v);
    s == "1" || s == "true" || s == "yes" || s == "on"
  }

  /** No value is both an "on" and an "off" spelling. */
  lemma ChecksExclusive(v: Option<string>)
    ensures !(IsTruthy(v) && IsExplicitlyFalse(v))
  {
  }

  /** The bypass policy: on when unset; when set, on exactly for a truthy spelling,
      so every other value (an explicit "off" spelling, "", anything else) is off. */
  function BypassEnabled(raw: Option<string>): (r: bool)
    ensures raw.None? ==> r
    ensures raw.Some? ==> (r <==> Normalize(raw) in {"1", "true", "yes", "on"})
    ensures raw.Some? && IsExplicitlyFalse(raw) ==> !r
  {
    if raw.None? then true
    else if IsExplicitlyFalse(raw) then false
    else IsTruthy(raw)
  }

  /** Surrounding whitespace does not change the normalised value. */
  lemma NormalizeIgnoresPadding(p: string, s: string, q: string)
    requires Text.AllWhitespace(p) && Text.AllWhitespace(q)
    ensures Normalize(Some(p + s + q)) == Normalize(Some(s))
  {
    Text.TrimIgnoresPadding(p, s, q);
  }

  /** Two spellings that agree up to ASCII case normalise alike. */
  lemma NormalizeIgnoresCase(s: string, t: string)
    requires Text.ToLower(s) == Text.ToLower(t)
    ensures Normalize(Some(s)) == Normalize(Some(t))
  {
    Text.TrimOfLower(s);
    Text.TrimOfLower(t);
  }

  /** Padded and upper-cased spellings of a value decide the bypass as the value does. */
  lemma BypassIgnoresCaseAndPadding(p: string, s: string, q: string)
    requires Text.AllWhitespace(p) && Text.AllWhitespace(q)
    ensures BypassEnabled(Some(p + Text.ToUpper(s) + q)) == BypassEnabled(Some(s))
  {
    NormalizeIgnoresPadding(p, Text.ToUpper(s), q);
    Text.LowerOfUpper(s);
    NormalizeIgnoresCase(Text.ToUpper(s), s);
  }

  /** The address the bypass signs in as: `AUTH_BYPASS_EMAIL` when set and non-empty,
      else "dev@local.test", lower-cased. */
  function BypassEmail(configured: Option<string>): (r: string)
    ensures configured.Some? && configured.value != "" ==> r == Text.ToLower(configured.value)
    ensures configured.None? || configured.value == "" ==> r == "dev@local.test"
  {
    Text.ToLower(if configured.Some? && configured.value != "" then configured.value else "dev@local.test")
  }

  /** `getAuthedUserId`: with the bypass on, the id of the bypass user, created on
      first use; otherwise the user id of a valid session cookie, if any. */
  function GetAuthedUserId(authBypass: Option<string>, bypassEmail: Option<string>, cookieUserId: Option<string>,
                           users: map<string, string>, freshId: string): (r: (Option<string>, map<string, string>))
    ensures BypassEnabled(authBypass) ==>
              var e := BypassEmail(bypassEmail);
              && e in r.1 && r.0 == Some(r.1[e])
              && (e in users ==> r.1 == users)
              && (e !in users ==> r.1 == users[e := freshId])
    ensures !BypassEnabled(authBypass) ==> r == (cookieUserId, users)
  {
    if BypassEnabled(authBypass) then
      var (id, users') := Store.UpsertUser(users, BypassEmail(bypassEmail), freshId);
      (Some(id), users')
    else (cookieUserId, users)
  }

  /** Under the bypass, every request is the same user: a second call returns the
      id the first one did and writes nothing. */
  lemma BypassUserStable(authBypass: Option<string>, bypassEmail: Option<string>, c1: Option<string>, c2: Option<string>,
                         users: map<string, string>, f1: string, f2: string)
    requires BypassEnabled(authBypass)
    ensures var first := GetAuthedUserId(authBypass, bypassEmail, c1, users, f1);
            GetAuthedUserId(authBypass, bypassEmail, c2, first.1, f2) == first
  {
  }
}

=== FILE: auth_verify.dfy ===
/**
 * The magic-link verify route, which currently only reports the bypass. It carries
 * its own copy of the bypass policy.
 */
module AuthVerify {

  import opened Wrappers
  import AuthServer

  /** The route's own copy of the bypass decision, written inline. */
  function BypassEnabled(v: Option<string>): bool {
    if v.None? then true
    else
      var s := AuthServer.Normalize(v);
      if s == "0" || s == "false" || s == "no" || s == "off" then false
      else s == "1" || s == "true" || s == "yes" || s == "on"
  }

  /** The copy decides every value as the shared policy does. */
  lemma SameAsServerPolicy(v: Option<string>)
    ensures BypassEnabled(v) == AuthServer.BypassEnabled(v)
  {
  }

  datatype VerifyResponse = BypassOk | VerifyDisabled | MethodNotAllowed

  function HttpStatus(r: VerifyResponse): int {
    match r
    case BypassOk => 200
    case VerifyDisabled => 501
    case MethodNotAllowed => 405
  }

  /** POST: `{ ok: true, bypass: true }` exactly when the bypass is on, else 501. */
  function Post(authBypass: Option<string>): (r: VerifyResponse)
    ensures r == BypassOk <==> AuthServer.BypassEnabled(authBypass)
    ensures r != BypassOk ==> HttpStatus(r) == 501
  {
    SameAsServerPolicy(authBypass);
    if BypassEnabled(authBypass) then BypassOk else VerifyDisabled
  }

  /** GET: the same success when the bypass is on, else 405. */
  function Get(authBypass: Option<string>): (r: VerifyResponse)
    ensures r == BypassOk <==> AuthServer.BypassEnabled(authBypass)
    ensures r != BypassOk ==> HttpStatus(r) == 405
  {
    SameAsServerPolicy(authBypass);
    if BypassEnabled(authBypass) then BypassOk else MethodNotAllowed
  }
}

=== FILE: demo.dfy ===
/**
 * The demo page: the same wizard without login or database, its step index kept
 * in memory. The index is clamped before use, and Prev/Next move it by one.
 */
module Demo {

  import Json
  import Draft
  import WizardConfig

  /** `safeIndex`: 0 for no steps, else the index clamped into [0, len - 1]. */
  function SafeIndex(len: nat, i: int): (r: nat)
    ensures len == 0 ==> r == 0
    ensures len > 0 ==> r < len
    ensures len > 0 && 0 <= i < len ==> r == i
    ensures len > 0 && i < 0 ==> r == 0
    ensures len > 0 && i >= len ==> r == len - 1
  {
    if len == 0 then 0
    else
      var lo := if i < 0 then 0 else i;
      if lo < len - 1 then lo else len - 1
  }

  /** The buttons' enabled states, read off the raw index. */
  predicate CanPrev(i: int) { i > 0 }
  predicate CanNext(len: nat, i: int) { i < len - 1 }

  /** The moves the page makes on the index: Prev, Next, or a click on step `k` of
      the step list. */
  datatype Move = Prev | Next | Pick(k: nat)

  /** One move, as the handlers compute it: `max(0, i - 1)`, `min(len - 1, i + 1)`, or
      the clicked position. */
  function Step(len: nat, i: int, m: Move): int {
    match m
    case Prev => if i - 1 < 0 then 0 else i - 1
    case Next => if len - 1 < i + 1 then len - 1 else i + 1
    case Pick(k) => k
  }

  /** A click on the step list offers only the positions of the list. */
  predicate ValidMove(len: nat, m: Move) {
    m.Pick? ==> m.k < len
  }

  function Run(len: nat, i: int, moves: seq<Move>): int
    decreases |moves|
  {
    if |moves| == 0 then i else Run(len, Step(len, i, moves[0]), moves[1..])
  }

  /** From the starting index 0, every sequence of moves keeps the index in
      [0, len - 1], whether or not a button was disabled, so the clamp never has to
      act on a page with steps. */
  lemma {:induction false} MovesStayInRange(len: nat, i: int, moves: seq<Move>)
    requires len > 0 && 0 <= i < len
    requires forall k :: 0 <= k < |moves| ==> ValidMove(len, moves[k])
    ensures 0 <= Run(len, i, moves) < len
    ensures SafeIndex(len, Run(len, i, moves)) == Run(len, i, moves)
    decreases |moves|
  {
    if |moves| > 0 {
      assert ValidMove(len, moves[0]);
      forall k | 0 <= k < |moves[1..]| ensures ValidMove(len, moves[1..][k]) {
        assert moves[1..][k] == moves[k + 1];
      }
      MovesStayInRange(len, Step(len, i, moves[0]), moves[1..]);
    }
  }

  /** Prev is disabled exactly at the first step and Next exactly at the last; where
      enabled each moves by one, and where disabled it would not move at all. */
  lemma PrevNextAtEnds(len: nat, i: int)
    requires len > 0 && 0 <= i < len
    ensures !CanPrev(i) <==> i == 0
    ensures !CanNext(len, i) <==> i == len - 1
    ensures CanPrev(i) ==> Step(len, i, Prev) == i - 1
    ensures CanNext(len, i) ==> Step(len, i, Next) == i + 1
    ensures !CanPrev(i) ==> Step(len, i, Prev) == i
    ensures !CanNext(len, i) ==> Step(len, i, Next) == i
  {
  }

  /** The page's state: the raw index and the answers by step id. */
  datatype DemoState = DemoState(stepIndex: int, answersByStep: Draft.Drafts)

  /** The step the page shows for the published configuration. */
  function CurrentStep(st: DemoState): (r: WizardConfig.WizardStep)
    ensures r in WizardConfig.WizardConfigV1.steps
    ensures 0 <= st.stepIndex < |WizardConfig.WizardConfigV1.steps| ==> r == WizardConfig.WizardConfigV1.steps[st.stepIndex]
    ensures st.stepIndex < 0 ==> r == WizardConfig.WizardConfigV1.steps[0]
    ensures st.stepIndex >= |WizardConfig.WizardConfigV1.steps| ==>
              r == WizardConfig.WizardConfigV1.steps[|WizardConfig.WizardConfigV1.steps| - 1]
  {
    var steps := WizardConfig.WizardConfigV1.steps;
    steps[SafeIndex(|steps|, st.stepIndex)]
  }

  /** The demo's `setAnswer`: the current step's answer to the question is replaced. */
  function SetAnswer(st: DemoState, questionId: string, value: Json.Value): (r: DemoState)
    ensures r.stepIndex == st.stepIndex
    ensures r.answersByStep == Draft.SetAnswer(st.answersByStep, CurrentStep(st).id, questionId, value)
    ensures CurrentStep(r) == CurrentStep(st)
    ensures Draft.StepAnswers(r.answersByStep, CurrentStep(st).id)
              == Draft.StepAnswers(st.answersByStep, CurrentStep(st).id)[questionId := value]
    ensures forall s :: s != CurrentStep(st).id ==>
              Draft.StepAnswers(r.answersByStep, s) == Draft.StepAnswers(st.answersByStep, s)
  {
    st.(answersByStep := Draft.SetAnswer(st.answersByStep, CurrentStep(st).id, questionId, value))
  }

  /** The "missing required fields" list of the current step. */
  method MissingRequired(st: DemoState) returns (missing: seq<string>)
    ensures missing == Draft.MissingSpec(CurrentStep(st).questions, Draft.StepAnswers(st.answersByStep, CurrentStep(st).id))
  {
    var step := CurrentStep(st);
    missing := Draft.MissingRequired(step.questions, Draft.StepAnswers(st.answersByStep, step.id));
  }
}

=== FILE: draft.dfy ===
/**
 * The answer drafts both wizard pages keep in memory, keyed by step id and then by
 * question id, and the "missing required fields" check run on a step's draft.
 */
module Draft {

  import Json
  import Text
  import opened JsObject
  import WizardConfig

  /** A step's answers, by question id. */
  type Answers = map<string, Json.Value>

  /** Every step's answers, by step id. */
  type Drafts = map<string, Answers>

  /** The emptiness test of `missingRequired`: undefined, null, a string that trims
      to "", or an empty array. An inherited member is a function or an object, so
      it is never empty. */
  predicate IsEmpty(v: Prop<Json.Value>) {
    match v
    case Undefined => true
    case Inherited => false
    case Own(Null) => true
    case Own(Str(s)) => Text.Trim(s) == ""
    case Own(Arr(items)) => |items| == 0
    case Own(_) => false
  }

  /** Whether question `q` is reported: it is required and its draft value is empty. */
  predicate Reported(q: WizardConfig.Question, answers: Answers) {
    q.required && IsEmpty(Get(answers, q.id))
  }

  /** The labels `missingRequired` lists, as a reference definition over the
      questions in order. */
  function MissingSpec(qs: seq<WizardConfig.Question>, answers: Answers): (r: seq<string>)
    ensures |r| <= |qs|
  {
    if |qs| == 0 then []
    else (if Reported(qs[0], answers) then [qs[0].labelText] else []) + MissingSpec(qs[1..], answers)
  }

  /** The list for consecutive questions is the list for the first part followed by
      the list for the second: labels come out in question order. */
  lemma {:induction false} MissingSpecAppend(a: seq<WizardConfig.Question>, b: seq<WizardConfig.Question>, answers: Answers)
    ensures MissingSpec(a + b, answers) == MissingSpec(a, answers) + MissingSpec(b, answers)
  {
    if |a| == 0 {
      assert a + b == b;
    } else {
      assert (a + b)[0] == a[0];
      assert (a + b)[1..] == a[1..] + b;
      MissingSpecAppend(a[1..], b, answers);
      var h := if Reported(a[0], answers) then [a[0].labelText] else [];
      assert h + (MissingSpec(a[1..], answers) + MissingSpec(b, answers))
          == (h + MissingSpec(a[1..], answers)) + MissingSpec(b, answers);
    }
  }

  /** Every reported question's label is listed. */
  lemma {:induction false} MissingListsReported(qs: seq<WizardConfig.Question>, answers: Answers, k: nat)
    requires k < |qs| && Reported(qs[k], answers)
    ensures qs[k].labelText in MissingSpec(qs, answers)
  {
    if k > 0 {
      MissingListsReported(qs[1..], answers, k - 1);
    }
  }

  /** Only reported questions are listed: each label listed belongs to a required
      question whose draft value is empty, so an optional question never shows. */
  lemma {:induction false} MissingOnlyReported(qs: seq<WizardConfig.Question>, answers: Answers, x: string)
    requires x in MissingSpec(qs, answers)
    ensures exists k :: 0 <= k < |qs| && qs[k].labelText == x && Reported(qs[k], answers)
  {
    var h := if Reported(qs[0], answers) then [qs[0].labelText] else [];
    if x in h {
      assert qs[0].labelText == x && Reported(qs[0], answers);
    } else {
      MissingOnlyReported(qs[1..], answers, x);
      var k :| 0 <= k < |qs[1..]| && qs[1..][k].labelText == x && Reported(qs[1..][k], answers);
      assert qs[k + 1] == qs[1..][k];
    }
  }

  /** `missingRequired`: the labels of the required questions whose draft value is
      empty, in question order. */
  method MissingRequired(qs: seq<WizardConfig.Question>, answers: Answers) returns (missing: seq<string>)
    ensures missing == MissingSpec(qs, answers)
  {
    missing := [];
    var i := 0;
    while i < |qs|
      invariant 0 <= i <= |qs|
      invariant missing == MissingSpec(qs[..i], answers)
    {
      var q := qs[i];
      MissingSpecAppend(qs[..i], [q], answers);
      assert qs[..i + 1] == qs[..i] + [q];
      if q.required && IsEmpty(Get(answers, q.id)) {
        missing := missing + [q.labelText];
      }
      i := i + 1;
    }
    assert qs[..|qs|] == qs;
  }

  /** `setAnswer`: the step's draft (empty when there is none yet) with the question's
      value replaced. */
  function SetAnswer(drafts: Drafts, stepId: string, questionId: string, value: Json.Value): (r: Drafts)
    ensures stepId in r && questionId in r[stepId] && r[stepId][questionId] == value
    ensures r.Keys == drafts.Keys + {stepId}
  {
    var prev := if stepId in drafts then drafts[stepId] else map[];
    drafts[stepId := prev[questionId := value]]
  }

  /** `setAnswer` touches one entry: every other step's draft and every other question
      of the step are as they were. */
  lemma SetAnswerFrame(drafts: Drafts, stepId: string, questionId: string, value: Json.Value, s: string, q: string)
    requires s != stepId || q != questionId
    ensures var r := SetAnswer(drafts, stepId, questionId, value);
            && (s != stepId ==> (s in r <==> s in drafts) && (s in r ==> r[s] == drafts[s]))
            && (s == stepId ==>
                  (q in r[s] <==> s in drafts && q in drafts[s]) && (q in r[s] ==> r[s][q] == drafts[s][q]))
  {
  }

  /** The step's answers the check reads: the step's draft, or none yet. */
  function StepAnswers(drafts: Drafts, stepId: string): Answers {
    if stepId in drafts then drafts[stepId] else map[]
  }

  /** After answering a question with a non-empty value, that question is no longer
      reported, and what is reported for the other questions does not change. */
  lemma AnsweredNotReported(drafts: Drafts, stepId: string, q: WizardConfig.Question, value: Json.Value,
                            other: WizardConfig.Question)
    requires !IsEmpty(Own(value))
    ensures var a := StepAnswers(SetAnswer(drafts, stepId, q.id, value), stepId);
            && !Reported(q, a)
            && (other.id != q.id ==> (Reported(other, a) <==> Reported(other, StepAnswers(drafts, stepId))))
  {
  }
}

=== FILE: js_object.dfy ===
/**
 * Property lookup on a plain JavaScript object literal (`{}` and its spreads). A
 * key the object does not own still finds something when it names a member of
 * `Object.prototype`; every other missing key reads as `undefined`.
 */
module JsObject {

  /** The names `Object.prototype` provides, which `{}[k]` finds without owning them. */
  const ProtoKeys: set<string> := {
    "constructor", "__defineGetter__", "__defineSetter__", "hasOwnProperty",
    "__lookupGetter__", "__lookupSetter__", "isPrototypeOf", "propertyIsEnumerable",
    "toString", "valueOf", "__proto__", "toLocaleString"
  }

  /** Every prototype name is a non-empty key. */
  lemma ProtoKeysNonEmpty(k: string)
    requires k in ProtoKeys
    ensures k != ""
  {
  }

  /** The result of `obj[k]`: undefined, an inherited member (a function, or the
      prototype itself for `__proto__`, never undefined and always truthy), or the
      object's own value. */
  datatype Prop<T> = Undefined | Inherited | Own(value: T)

  function Get<T>(obj: map<string, T>, k: string): (r: Prop<T>)
    ensures r.Own? <==> k in obj
    ensures r.Own? ==> r.value == obj[k]
    ensures r.Inherited? <==> k !in obj && k in ProtoKeys
  {
    if k in obj then Own(obj[k]) else if k in ProtoKeys then Inherited else Undefined
  }
}

=== FILE: json.dfy ===
/**
 * A parsed JSON value: request bodies and the opaque answer payloads the
 * engine stores and passes on without looking inside. Numbers are exact reals
 * (floating-point rounding is not modelled); an object is a map because
 * `JSON.parse` keeps the last of repeated keys.
 */
module Json {

  import opened Wrappers

  datatype Value =
    | Null
    | Bool(b: bool)
    | Num(n: real)
    | Str(s: string)
    | Arr(items: seq<Value>)
    | Obj(fields: map<string, Value>)

  /** The string field `name` of an object, provided it is present, is a string and
      has at least `min` characters (zod's `z.string().min(min)`). */
  function StringField(fields: map<string, Value>, name: string, min: nat): (r: Option<string>)
    ensures r.Some? <==> name in fields && fields[name].Str? && |fields[name].s| >= min
    ensures r.Some? ==> r.value == fields[name].s
  {
    if name in fields && fields[name].Str? && |fields[name].s| >= min then Some(fields[name].s) else None
  }

  /** As StringField, with an upper bound `max` on the length as well. */
  function BoundedStringField(fields: map<string, Value>, name: string, min: nat, max: nat): (r: Option<string>)
    ensures r.Some? <==> name in fields && fields[name].Str? && min <= |fields[name].s| <= max
    ensures r.Some? ==> r.value == fields[name].s
  {
    match StringField(fields, name, min)
    case Some(s) => if |s| <= max then Some(s) else None
    case None => None
  }
}

=== FILE: markdown.dfy ===
/**
 * `mdToPlain`, the plain-text rendering of a step's introduction, defined alike on
 * the wizard page and the demo page: emphasis and code marks are dropped, each
 * link `[text](url)` becomes its text, and the result is trimmed.
 */
module Markdown {

  import opened Wrappers
  import Text

  /** The characters `replace(/[*_`]/g, "")` removes. */
  const Marks: set<char> := {'*', '_', '`'}

  /** `replace(/[*_`]/g, "")`. */
  function StripMarks(s: string): (r: string)
    ensures |r| <= |s|
    ensures Text.Avoids(r, Marks)
  {
    if |s| == 0 then ""
    else if s[0] in Marks then StripMarks(s[1..])
    else
      var rest := StripMarks(s[1..]);
      assert forall k :: 0 < k < |[s[0]] + rest| ==> ([s[0]] + rest)[k] == rest[k - 1];
      [s[0]] + rest
  }

  /** Text without marks is left as it is. */
  lemma {:induction false} StripMarksIdentity(s: string)
    requires Text.Avoids(s, Marks)
    ensures StripMarks(s) == s
  {
    if |s| > 0 {
      assert Text.Avoids(s[1..], Marks) by {
        forall k | 0 <= k < |s[1..]| ensures s[1..][k] !in Marks { assert s[1..][k] == s[k + 1]; }
      }
      StripMarksIdentity(s[1..]);
      assert s == [s[0]] + s[1..];
    }
  }

  /** On one character: a mark is deleted and any other character kept. With
      StripMarksAppend this fixes the result of every input. */
  lemma StripMarksChar(c: char)
    ensures c in Marks ==> StripMarks([c]) == ""
    ensures c !in Marks ==> StripMarks([c]) == [c]
  {
    assert [c][1..] == "";
  }

  /** Emphasis around a word is removed: `**bold**` and `_it_` render as the word. */
  lemma StripMarksAroundWord(w: string)
    requires Text.Avoids(w, Marks)
    ensures StripMarks("**" + w + "**") == w
    ensures StripMarks("_" + w + "_") == w
  {
    StripMarksIdentity(w);
    StripMarksAppend("**", w);
    StripMarksAppend("**" + w, "**");
    StripMarksAppend("_", w);
    StripMarksAppend("_" + w, "_");
  }

  /** Removing marks works piece by piece. */
  lemma {:induction false} StripMarksAppend(a: string, b: string)
    ensures StripMarks(a + b) == StripMarks(a) + StripMarks(b)
  {
    if |a| == 0 {
      assert a + b == b;
    } else {
      assert (a + b)[0] == a[0];
      assert (a + b)[1..] == a[1..] + b;
      StripMarksAppend(a[1..], b);
      if a[0] !in Marks {
        assert [a[0]] + (StripMarks(a[1..]) + StripMarks(b)) == ([a[0]] + StripMarks(a[1..])) + StripMarks(b);
      }
    }
  }

  /** Where the lazy `(.*?)\]\(` stops: the position of the first "](" in `s`, provided
      no line terminator comes before it (the regular-expression `.` matches none). */
  function LinkMiddle(s: string): (r: Option<nat>)
    ensures r.Some? ==> r.value + 1 < |s| && s[r.value] == ']' && s[r.value + 1] == '('
  {
    if |s| < 2 || Text.IsLineTerminator(s[0]) then None
    else if s[0] == ']' && s[1] == '(' then Some(0)
    else match LinkMiddle(s[1..])
      case None => None
      case Some(i) => Some(i + 1)
  }

  /** Where the lazy `(.*?)\)` stops: the position of the first ')' in `s`, provided
      no line terminator comes before it. */
  function LinkClose(s: string): (r: Option<nat>)
    ensures r.Some? ==> r.value < |s| && s[r.value] == ')'
  {
    if |s| == 0 || Text.IsLineTerminator(s[0]) then None
    else if s[0] == ')' then Some(0)
    else match LinkClose(s[1..])
      case None => None
      case Some(j) => Some(j + 1)
  }

  /** A link match: the lengths of its text and of its target. */
  datatype LinkMatch = LinkMatch(textLen: nat, targetLen: nat)

  function LinkAt(s: string): (r: Option<LinkMatch>)
    ensures r.Some? ==> r.value.textLen + 4 + r.value.targetLen <= |s|
  {
    if |s| == 0 || s[0] != '[' then None
    else match LinkMiddle(s[1..])
      case None => None
      case Some(i) =>
        match LinkClose(s[i + 3..])
        case None => None
        case Some(j) => Some(LinkMatch(i, j))
  }

  /** `replace(/\[(.*?)\]\((.*?)\)/g, "$1")`. At a '[' the match takes the text up to
      the first "](" and the target up to the next ')'; no later "](" can succeed
      where the first one failed, since a later one has no ')' before the line end
      either. Where no match starts, the character is kept and the scan moves on. */
  function ReplaceLinks(s: string): (r: string)
    ensures |r| <= |s|
    decreases |s|
  {
    if |s| == 0 then "" else ScanEmit(s) + ReplaceLinks(s[ScanSkip(s)..])
  }

  /** How far one step of the scan advances: past the whole match, or one character. */
  function ScanSkip(s: string): (n: nat)
    requires |s| > 0
    ensures 1 <= n <= |s|
  {
    var m := LinkAt(s);
    if m.Some? then m.value.textLen + 4 + m.value.targetLen else 1
  }

  /** What one step of the scan emits: the link text, or the character itself. */
  function ScanEmit(s: string): (r: string)
    requires |s| > 0
    ensures |r| <= ScanSkip(s)
  {
    var m := LinkAt(s);
    if m.Some? then s[1..m.value.textLen + 1] else [s[0]]
  }

  lemma InSuffix(s: string, a: nat, x: char)
    requires a <= |s| && x in s[a..]
    ensures x in s
  {
    var t :| 0 <= t < |s[a..]| && s[a..][t] == x;
    assert s[a + t] == x;
  }

  lemma InSlice(s: string, a: nat, b: nat, x: char)
    requires a <= b <= |s| && x in s[a..b]
    ensures x in s
  {
    var t :| 0 <= t < |s[a..b]| && s[a..b][t] == x;
    assert s[a + t] == x;
  }

  /** What one step of the scan emits comes from the input. */
  lemma ScanEmitFromInput(s: string)
    requires |s| > 0
    ensures forall c :: c in ScanEmit(s) ==> c in s
  {
    var m := LinkAt(s);
    if m.Some? {
      forall c | c in ScanEmit(s) ensures c in s {
        InSlice(s, 1, m.value.textLen + 1, c);
      }
    }
  }

  /** Every character of the output comes from the input. */
  lemma {:induction false} ReplaceLinksFromInput(s: string)
    ensures forall c :: c in ReplaceLinks(s) ==> c in s
    decreases |s|
  {
    if |s| > 0 {
      var n := ScanSkip(s);
      var head := ScanEmit(s);
      var tail := s[n..];
      ReplaceLinksFromInput(tail);
      ReplaceLinksUnfold(s);
      ScanEmitFromInput(s);
      assert ReplaceLinks(s) == head + ReplaceLinks(tail);
      forall c | c in ReplaceLinks(s) ensures c in s {
        if c !in head {
          InSuffix(s, n, c);
        }
      }
    }
  }

  /** Characters absent from the input are absent from the output. */
  lemma ReplaceLinksAvoids(s: string, banned: set<char>)
    requires Text.Avoids(s, banned)
    ensures Text.Avoids(ReplaceLinks(s), banned)
  {
    ReplaceLinksFromInput(s);
    var r := ReplaceLinks(s);
    forall k | 0 <= k < |r| ensures r[k] !in banned {
      assert r[k] in r;
      var m :| 0 <= m < |s| && s[m] == r[k];
    }
  }

  /** A link whose text holds no ']' and whose target holds no ')', neither holding a
      line break, becomes its text; the scan resumes right after the link. */
  lemma LinkBecomesText(t: string, u: string, rest: string)
    requires forall k :: 0 <= k < |t| ==> t[k] != ']' && !Text.IsLineTerminator(t[k])
    requires forall k :: 0 <= k < |u| ==> u[k] != ')' && !Text.IsLineTerminator(u[k])
    ensures ReplaceLinks("[" + t + "](" + u + ")" + rest) == t + ReplaceLinks(rest)
  {
    LinkAssoc(t, u, rest);
    var v := u + (")" + rest);
    var s := "[" + (t + ("](" + v));
    LinkPieces(t, u, rest);
    LinkMiddleAt(t, v);
    LinkCloseAt(u, rest);
    LinkAtOf(s, |t|, |u|);
    ReplaceLinksAtMatch(s, |t|, |u|);
  }

  /** The match `LinkAt` finds is the first "](" after the '[' and the first ')'
      after that. */
  lemma LinkAtOf(s: string, i: nat, j: nat)
    requires |s| > 0 && s[0] == '['
    requires LinkMiddle(s[1..]) == Some(i)
    requires LinkClose(s[i + 3..]) == Some(j)
    ensures LinkAt(s) == Some(LinkMatch(i, j))
  {
  }

  /** Where a link match starts, the output is the link text and the scan resumes
      after the closing parenthesis. */
  lemma ReplaceLinksAtMatch(s: string, i: nat, j: nat)
    requires LinkAt(s) == Some(LinkMatch(i, j))
    ensures ReplaceLinks(s) == s[1..i + 1] + ReplaceLinks(s[i + 4 + j..])
  {
    ScanAtMatch(s, i, j);
    ReplaceLinksUnfold(s);
    var rest := s[ScanSkip(s)..];
    assert rest == s[i + 4 + j..];
  }

  /** One step of the scan at a match emits the link text and skips past the ')'. */
  lemma ScanAtMatch(s: string, i: nat, j: nat)
    requires LinkAt(s) == Some(LinkMatch(i, j))
    ensures |s| > 0 && ScanEmit(s) == s[1..i + 1] && ScanSkip(s) == i + 4 + j
  {
  }

  lemma ReplaceLinksUnfold(s: string)
    requires |s| > 0
    ensures ReplaceLinks(s) == ScanEmit(s) + ReplaceLinks(s[ScanSkip(s)..])
  {
  }

  /** Where no link match starts, the first character is copied and the scan moves on. */
  lemma ReplaceLinksNoMatch(s: string)
    requires |s| > 0 && LinkAt(s).None?
    ensures ReplaceLinks(s) == [s[0]] + ReplaceLinks(s[1..])
  {
    assert ScanEmit(s) == [s[0]] && ScanSkip(s) == 1;
    ReplaceLinksUnfold(s);
    var rest := s[ScanSkip(s)..];
    assert rest == s[1..];
  }

  lemma LinkAssoc(t: string, u: string, rest: string)
    ensures "[" + t + "](" + u + ")" + rest == "[" + (t + ("](" + (u + (")" + rest))))
  {
  }

  lemma DropFront<T>(x: seq<T>, y: seq<T>)
    ensures (x + y)[|x|..] == y
  {
  }

  /** Where the pieces of a link sit in it. */
  lemma LinkPieces(t: string, u: string, rest: string)
    ensures var v := u + (")" + rest);
            var s := "[" + (t + ("](" + v));
            && s[0] == '['
            && s[1..] == t + ("](" + v)
            && s[|t| + 3..] == v
            && s[1..|t| + 1] == t
            && s[|t| + 4 + |u|..] == rest
  {
    var r := ")" + rest;
    var v := u + r;
    var w := "](" + v;
    var m := t + w;
    var s := "[" + m;
    DropFront("[", m);
    DropFront(t, w);
    DropFront("](", v);
    DropFront(u, r);
    DropFront(")", rest);
    assert s[|t| + 3..] == m[|t|..][2..];
    assert s[|t| + 4 + |u|..] == v[|u|..][1..];
    assert s[1..|t| + 1] == m[..|t|];
  }

  lemma {:induction false} LinkMiddleAt(t: string, v: string)
    requires forall k :: 0 <= k < |t| ==> t[k] != ']' && !Text.IsLineTerminator(t[k])
    ensures LinkMiddle(t + ("](" + v)) == Some(|t|)
  {
    if |t| > 0 {
      assert (t + ("](" + v))[1..] == t[1..] + ("](" + v);
      LinkMiddleAt(t[1..], v);
    } else {
      assert t + ("](" + v) == "](" + v;
    }
  }

  lemma {:induction false} LinkCloseAt(u: string, w: string)
    requires forall k :: 0 <= k < |u| ==> u[k] != ')' && !Text.IsLineTerminator(u[k])
    ensures LinkClose(u + (")" + w)) == Some(|u|)
  {
    if |u| > 0 {
      assert (u + (")" + w))[1..] == u[1..] + (")" + w);
      LinkCloseAt(u[1..], w);
    } else {
      assert u + (")" + w) == ")" + w;
    }
  }

  /** Text without '[' holds no link and is left as it is. */
  lemma {:induction false} ReplaceLinksIdentity(s: string)
    requires forall k :: 0 <= k < |s| ==> s[k] != '['
    ensures ReplaceLinks(s) == s
  {
    if |s| > 0 {
      ReplaceLinksIdentity(s[1..]);
      assert s == [s[0]] + s[1..];
    }
  }

  /** `mdToPlain`: undefined and the empty string give ""; anything else loses its
      marks, has its links replaced by their text, and is trimmed. */
  function MdToPlain(md: Option<string>): (r: string)
    ensures md.None? || md.value == "" ==> r == ""
    ensures Text.Trimmed(r)
    ensures Text.Avoids(r, Marks)
  {
    if md.None? || md.value == "" then ""
    else
      var s := StripMarks(md.value);
      ReplaceLinksAvoids(s, Marks);
      Text.TrimKeepsAvoids(ReplaceLinks(s), Marks);
      Text.Trim(ReplaceLinks(s))
  }

  /** Introduction text with no link and no marks is only trimmed. */
  lemma PlainTextOnlyTrimmed(s: string)
    requires Text.Avoids(s, Marks)
    requires forall k :: 0 <= k < |s| ==> s[k] != '['
    ensures MdToPlain(Some(s)) == Text.Trim(s)
  {
    StripMarksIdentity(s);
    ReplaceLinksIdentity(s);
  }

  /** A lone link whose text and target hold no marks, no ']' in the text, no ')' in
      the target and no line break renders as its (trimmed) text. */
  lemma LinkRendersAsText(t: string, u: string)
    requires Text.Avoids(t, Marks + {']'}) && Text.Avoids(u, Marks + {')'})
    requires forall k :: 0 <= k < |t| ==> !Text.IsLineTerminator(t[k])
    requires forall k :: 0 <= k < |u| ==> !Text.IsLineTerminator(u[k])
    ensures MdToPlain(Some("[" + t + "](" + u + ")")) == Text.Trim(t)
  {
    var md := "[" + t + "](" + u + ")";
    assert Text.Avoids(md, Marks) by {
      forall k | 0 <= k < |md| ensures md[k] !in Marks {
        if 1 <= k < |t| + 1 { assert md[k] == t[k - 1]; }
        else if |t| + 3 <= k < |t| + 3 + |u| { assert md[k] == u[k - |t| - 3]; }
      }
    }
    StripMarksIdentity(md);
    LinkBecomesText(t, u, "");
    assert md + "" == md;
    assert ReplaceLinks("") == "";
    assert t + "" == t;
  }
}

=== FILE: numeral.dfy ===
/**
 * The decimal rendering of an integer inside a JavaScript template literal, as
 * the configuration keys and upload object keys use it, and its reading back.
 */
module Numeral {

  function DigitChar(d: nat): char
    requires d < 10
  {
    "0123456789"[d]
  }

  predicate AllDigits(s: string) {
    forall k :: 0 <= k < |s| ==> '0' <= s[k] <= '9'
  }

  /** The number a string of decimal digits denotes, most significant digit first. */
  function DecimalValue(s: string): nat
    requires AllDigits(s)
  {
    if |s| == 0 then 0 else 10 * DecimalValue(s[..|s| - 1]) + (s[|s| - 1] as int - '0' as int)
  }

  /** Decimal digits of `n`, most significant first, without leading zeros. */
  function NatToString(n: nat): (r: string)
    ensures |r| > 0 && AllDigits(r)
    ensures r[0] == '0' <==> n == 0
    decreases n
  {
    if n < 10 then [DigitChar(n)] else NatToString(n / 10) + [DigitChar(n % 10)]
  }

  lemma DigitCharValue(d: nat)
    requires d < 10
    ensures DigitChar(d) as int - '0' as int == d
  {
    assert "0123456789"[0] == '0' && "0123456789"[1] == '1' && "0123456789"[2] == '2'
        && "0123456789"[3] == '3' && "0123456789"[4] == '4' && "0123456789"[5] == '5'
        && "0123456789"[6] == '6' && "0123456789"[7] == '7' && "0123456789"[8] == '8'
        && "0123456789"[9] == '9';
  }

  /** The numeral printed for `n` reads back as `n`. */
  lemma {:induction false} NatToStringValue(n: nat)
    ensures DecimalValue(NatToString(n)) == n
    decreases n
  {
    var r := NatToString(n);
    if n < 10 {
      DigitCharValue(n);
    } else {
      NatToStringValue(n / 10);
      DigitCharValue(n % 10);
      assert r[..|r| - 1] == NatToString(n / 10);
    }
  }

  /** The decimal text JavaScript produces for an integer in a template literal. */
  function IntToString(n: int): (r: string)
    ensures |r| > 0
    ensures (r[0] == '-') <==> n < 0
  {
    if n < 0 then "-" + NatToString(-n) else NatToString(n)
  }

  /** The text printed for `n` is its decimal numeral, behind a '-' exactly when `n`
      is negative, with no leading zero; so distinct integers print differently. */
  lemma IntToStringValue(n: int)
    ensures var r := IntToString(n);
            && (n >= 0 ==> AllDigits(r) && DecimalValue(r) == n && (r[0] == '0' ==> |r| == 1))
            && (n < 0 ==> |r| >= 2 && AllDigits(r[1..]) && DecimalValue(r[1..]) == -n && r[1] != '0')
  {
    if n >= 0 {
      NatToStringValue(n);
    } else {
      NegativeToStringValue(n);
    }
  }

  lemma NegativeToStringValue(n: int)
    requires n < 0
    ensures var r := IntToString(n);
            |r| >= 2 && AllDigits(r[1..]) && DecimalValue(r[1..]) == -n && r[1] != '0'
  {
    NatToStringValue(-n);
    SignedValue(NatToString(-n), -n);
  }

  /** A '-' before a numeral without leading zero: the digits after the sign carry its value. */
  lemma SignedValue(d: string, m: nat)
    requires |d| > 0 && AllDigits(d) && DecimalValue(d) == m && d[0] != '0'
    ensures var r := "-" + d;
            |r| >= 2 && AllDigits(r[1..]) && DecimalValue(r[1..]) == m && r[1] != '0'
  {
    assert ("-" + d)[1..] == d;
  }

  lemma IntToStringInjective(a: int, b: int)
    requires IntToString(a) == IntToString(b)
    ensures a == b
  {
    IntToStringValue(a);
    IntToStringValue(b);
  }
}

=== FILE: recency.dfy ===
/**
 * "Latest row wins" over append-only logs. Both the server and the client order
 * rows by creation time, newest first, and keep the first row seen per key; this
 * module gives that ordering (a stable sort, as `Array.prototype.sort` is) and the
 * order-free meaning of its result: the earliest-listed row of maximal timestamp.
 */
module Recency {

  import opened Wrappers

  /** Newest first: timestamps never increase along the sequence. */
  predicate SortedDesc<T>(s: seq<T>, at: T -> int) {
    forall i, j :: 0 <= i < j < |s| ==> at(s[i]) >= at(s[j])
  }

  /** The rows with key `k` carry pairwise distinct timestamps; rows with other keys
      may share a timestamp, as the rows of one submission do. */
  predicate DistinctStampsFor<T, K(==)>(s: seq<T>, at: T -> int, key: T -> K, k: K) {
    forall i, j :: 0 <= i < j < |s| && key(s[i]) == k && key(s[j]) == k ==> at(s[i]) != at(s[j])
  }

  /** Places `x` before the first element that is not newer than it, so `x` goes
      ahead of every element with the same timestamp. */
  function Insert<T>(x: T, s: seq<T>, at: T -> int): (r: seq<T>)
    requires SortedDesc(s, at)
    ensures SortedDesc(r, at)
    ensures multiset(r) == multiset(s) + multiset{x}
    ensures |r| == |s| + 1
  {
    if |s| == 0 || at(x) >= at(s[0]) then [x] + s
    else
      var rest := Insert(x, s[1..], at);
      InsertStep(x, s, rest, at);
      [s[0]] + rest
  }

  /** The recursive case of Insert: putting the head of `s` back in front of `x`
      inserted into the tail keeps the order and the elements. */
  lemma InsertStep<T>(x: T, s: seq<T>, rest: seq<T>, at: T -> int)
    requires |s| > 0 && SortedDesc(s, at) && at(x) < at(s[0])
    requires SortedDesc(rest, at) && multiset(rest) == multiset(s[1..]) + multiset{x}
    ensures SortedDesc([s[0]] + rest, at)
    ensures multiset([s[0]] + rest) == multiset(s) + multiset{x}
  {
    assert multiset(s) == multiset{s[0]} + multiset(s[1..]) by {
      assert s == [s[0]] + s[1..];
    }
    forall k | 0 <= k < |rest| ensures at(rest[k]) <= at(s[0]) {
      assert rest[k] in multiset(rest);
      assert rest[k] == x || rest[k] in multiset(s[1..]);
    }
  }

  /** Stable sort by timestamp, newest first: the sort the client performs with the
      comparator `b.createdAt - a.createdAt`, and the order the database returns for
      `orderBy: { createdAt: "desc" }` when it breaks ties by insertion order. */
  function SortDesc<T>(s: seq<T>, at: T -> int): (r: seq<T>)
    ensures SortedDesc(r, at)
    ensures multiset(r) == multiset(s)
    ensures |r| == |s|
  {
    if |s| == 0 then []
    else
      assert s == [s[0]] + s[1..];
      Insert(s[0], SortDesc(s[1..], at), at)
  }

  /** The first element of `s` whose key is `k`. */
  function FirstWithKey<T, K(==)>(s: seq<T>, key: T -> K, k: K): (r: Option<T>)
    ensures r.None? <==> forall i :: 0 <= i < |s| ==> key(s[i]) != k
    ensures r.Some? ==> r.value in s && key(r.value) == k
  {
    if |s| == 0 then None
    else if key(s[0]) == k then Some(s[0])
    else FirstWithKey(s[1..], key, k)
  }

  /** The position of the row the "latest wins" rule selects for key `k`: among the
      rows with that key, one of greatest timestamp, the earliest listed among ties. */
  function LatestIndex<T, K(==)>(s: seq<T>, at: T -> int, key: T -> K, k: K): (r: Option<nat>)
    ensures r.Some? ==> r.value < |s|
  {
    if |s| == 0 then None
    else
      var rest := LatestIndex(s[1..], at, key, k);
      if key(s[0]) != k then (if rest.None? then None else Some(rest.value + 1))
      else if rest.None? || at(s[0]) >= at(s[1..][rest.value]) then Some(0)
      else Some(rest.value + 1)
  }

  /** The row at LatestIndex. */
  function Latest<T, K(==)>(s: seq<T>, at: T -> int, key: T -> K, k: K): Option<T>
  {
    match LatestIndex(s, at, key, k)
    case None => None
    case Some(i) => Some(s[i])
  }

  /** What LatestIndex selects: nothing exactly when no row has the key; otherwise a
      row with the key whose timestamp no row with the key exceeds, and which every
      earlier row with the key is strictly older than. */
  lemma {:induction false} LatestIndexSpec<T, K>(s: seq<T>, at: T -> int, key: T -> K, k: K)
    ensures LatestIndex(s, at, key, k).None? <==> forall i :: 0 <= i < |s| ==> key(s[i]) != k
    ensures LatestIndex(s, at, key, k).Some? ==>
              var m := LatestIndex(s, at, key, k).value;
              && key(s[m]) == k
              && (forall j :: 0 <= j < |s| && key(s[j]) == k ==> at(s[j]) <= at(s[m]))
              && (forall j :: 0 <= j < m && key(s[j]) == k ==> at(s[j]) < at(s[m]))
  {
    if |s| > 0 {
      LatestIndexSpec(s[1..], at, key, k);
      var rest := LatestIndex(s[1..], at, key, k);
      if rest.Some? {
        forall j | 0 < j < |s| ensures s[j] == s[1..][j - 1] { }
      } else {
        forall j | 0 < j < |s| ensures key(s[j]) != k { assert s[j] == s[1..][j - 1]; }
      }
    }
  }

  /** Inserting a row with another key does not change which row comes first for `k`. */
  lemma {:induction false} FirstAfterInsertOther<T, K>(x: T, s: seq<T>, at: T -> int, key: T -> K, k: K)
    requires SortedDesc(s, at)
    requires key(x) != k
    ensures FirstWithKey(Insert(x, s, at), key, k) == FirstWithKey(s, key, k)
  {
    if |s| == 0 || at(x) >= at(s[0]) {
      assert ([x] + s)[1..] == s;
    } else {
      assert ([s[0]] + Insert(x, s[1..], at))[1..] == Insert(x, s[1..], at);
      FirstAfterInsertOther(x, s[1..], at, key, k);
    }
  }

  /** Inserting a row with key `k` into a newest-first sequence makes it the first for
      `k` exactly when it is at least as new as the previous first row for `k`. */
  lemma {:induction false} FirstAfterInsertSame<T, K>(x: T, s: seq<T>, at: T -> int, key: T -> K, k: K)
    requires SortedDesc(s, at)
    requires key(x) == k
    ensures var f := FirstWithKey(s, key, k);
            FirstWithKey(Insert(x, s, at), key, k)
              == (if f.None? || at(x) >= at(f.value) then Some(x) else f)
  {
    var f := FirstWithKey(s, key, k);
    if |s| == 0 {
    } else if at(x) >= at(s[0]) {
      if f.Some? {
        FirstIsNewestForKey(s, at, key, k);
      }
    } else {
      assert ([s[0]] + Insert(x, s[1..], at))[1..] == Insert(x, s[1..], at);
      if key(s[0]) != k {
        FirstAfterInsertSame(x, s[1..], at, key, k);
      }
    }
  }

  /** In a newest-first sequence no row is newer than its first element. */
  lemma FirstIsNewestForKey<T, K>(s: seq<T>, at: T -> int, key: T -> K, k: K)
    requires SortedDesc(s, at)
    requires |s| > 0
    ensures FirstWithKey(s, key, k).Some? ==> at(FirstWithKey(s, key, k).value) <= at(s[0])
  {
    var f := FirstWithKey(s, key, k);
    if f.Some? {
      var i :| 0 <= i < |s| && s[i] == f.value;
    }
  }

  /** The stable newest-first sort followed by "first row per key" selects exactly
      the row the order-free "latest wins" rule selects. */
  lemma {:induction false} FirstOfSortIsLatest<T, K>(s: seq<T>, at: T -> int, key: T -> K, k: K)
    ensures FirstWithKey(SortDesc(s, at), key, k) == Latest(s, at, key, k)
  {
    if |s| > 0 {
      FirstOfSortIsLatest(s[1..], at, key, k);
      var sorted := SortDesc(s[1..], at);
      assert SortDesc(s, at) == Insert(s[0], sorted, at);
      if key(s[0]) != k {
        FirstAfterInsertOther(s[0], sorted, at, key, k);
      } else {
        FirstAfterInsertSame(s[0], sorted, at, key, k);
      }
    }
  }

  /** When the rows with key `k` carry distinct timestamps, EVERY newest-first
      ordering of the rows (whatever order the database picks for ties) yields the
      same first row for `k`: the one the "latest wins" rule selects. */
  lemma FirstOfAnyOrderIsLatest<T, K>(rows: seq<T>, s: seq<T>, at: T -> int, key: T -> K, k: K)
    requires SortedDesc(rows, at)
    requires multiset(rows) == multiset(s)
    requires DistinctStampsFor(s, at, key, k)
    ensures FirstWithKey(rows, key, k) == Latest(s, at, key, k)
  {
    LatestIndexSpec(s, at, key, k);
    var f := FirstWithKey(rows, key, k);
    if f.None? {
      forall i | 0 <= i < |s| ensures key(s[i]) != k {
        assert s[i] in multiset(rows);
      }
    } else {
      var y := f.value;
      assert y in multiset(s);
      var iy :| 0 <= iy < |s| && s[iy] == y;
      var m := LatestIndex(s, at, key, k).value;
      assert s[m] in multiset(rows);
      var jm :| 0 <= jm < |rows| && rows[jm] == s[m];
      FirstPrecedesKeyed(rows, key, k, jm);
      var jy := FirstIndex(rows, key, k);
      assert at(y) >= at(s[m]);
      assert at(y) <= at(s[m]);
      assert iy == m;
    }
  }

  /** The position of FirstWithKey, when there is one. */
  function FirstIndex<T, K(==)>(s: seq<T>, key: T -> K, k: K): (r: nat)
    requires FirstWithKey(s, key, k).Some?
    ensures r < |s| && s[r] == FirstWithKey(s, key, k).value
    ensures forall j :: 0 <= j < r ==> key(s[j]) != k
  {
    if key(s[0]) == k then 0 else FirstIndex(s[1..], key, k) + 1
  }

  /** Every row with key `k` is listed no earlier than the first one. */
  lemma FirstPrecedesKeyed<T, K>(rows: seq<T>, key: T -> K, k: K, j: nat)
    requires j < |rows| && key(rows[j]) == k
    ensures FirstWithKey(rows, key, k).Some?
    ensures FirstIndex(rows, key, k) <= j
  {
  }

  /** The elements of `s` whose key is `k`, in their original order. */
  function KeepKey<T, K(==)>(s: seq<T>, key: T -> K, k: K): (r: seq<T>)
    ensures |r| <= |s|
    ensures forall i :: 0 <= i < |r| ==> key(r[i]) == k
    ensures forall i :: 0 <= i < |r| ==> r[i] in s
    ensures forall i :: 0 <= i < |s| && key(s[i]) == k ==> s[i] in r
  {
    if |s| == 0 then []
    else if key(s[0]) == k then [s[0]] + KeepKey(s[1..], key, k)
    else KeepKey(s[1..], key, k)
  }

  /** Filtering distributes over concatenation, so the kept rows keep their input
      order and each occurs as often as in the input. */
  lemma {:induction false} KeepKeyAppend<T, K>(a: seq<T>, b: seq<T>, key: T -> K, k: K)
    ensures KeepKey(a + b, key, k) == KeepKey(a, key, k) + KeepKey(b, key, k)
  {
    if |a| == 0 {
      assert a + b == b;
    } else {
      assert (a + b)[1..] == a[1..] + b;
      KeepKeyAppend(a[1..], b, key, k);
      if key(a[0]) == k {
        assert [a[0]] + (KeepKey(a[1..], key, k) + KeepKey(b, key, k))
            == ([a[0]] + KeepKey(a[1..], key, k)) + KeepKey(b, key, k);
      }
    }
  }

  /** A single row is kept exactly when it has the key. */
  lemma KeepKeySingleton<T, K>(x: T, key: T -> K, k: K)
    ensures KeepKey([x], key, k) == if key(x) == k then [x] else []
  {
    assert [x][1..] == [];
  }

  /** The latest row of `[x] + t`, in terms of the latest row of `t`: `x` wins when it
      has the key and no keyed row of `t` is newer. */
  lemma LatestCons<T, K>(x: T, t: seq<T>, at: T -> int, key: T -> K, k: K)
    ensures var rest := Latest(t, at, key, k);
            Latest([x] + t, at, key, k)
              == if key(x) != k then rest
                 else if rest.None? || at(x) >= at(rest.value) then Some(x)
                 else rest
  {
    assert ([x] + t)[1..] == t;
  }

  /** Taking the latest row for `k` among the rows that a filter on another key keeps is
      taking the latest row that has both keys in the unfiltered input: the same row
      wins, including among equal timestamps. `both` is any key that names exactly the
      rows with filter key `f` and key `k`. */
  lemma {:induction false} LatestOfFilter<T, J, K, L>(s: seq<T>, at: T -> int, fkey: T -> J, f: J,
                                                     key: T -> K, k: K, both: T -> L, b: L)
    requires forall x :: both(x) == b <==> fkey(x) == f && key(x) == k
    ensures Latest(KeepKey(s, fkey, f), at, key, k) == Latest(s, at, both, b)
  {
    if |s| > 0 {
      var x := s[0];
      var t := s[1..];
      assert s == [x] + t;
      LatestOfFilter(t, at, fkey, f, key, k, both, b);
      LatestCons(x, t, at, both, b);
      if fkey(x) == f {
        LatestCons(x, KeepKey(t, fkey, f), at, key, k);
      }
    }
  }

  /** Keeping only the rows with key `k` does not change the latest row for `k`. */
  lemma {:induction false} LatestOfKeepKey<T, K>(s: seq<T>, at: T -> int, key: T -> K, k: K)
    ensures Latest(KeepKey(s, key, k), at, key, k) == Latest(s, at, key, k)
  {
    if |s| > 0 {
      var x := s[0];
      var t := s[1..];
      assert s == [x] + t;
      LatestOfKeepKey(t, at, key, k);
      LatestCons(x, t, at, key, k);
      if key(x) == k {
        LatestCons(x, KeepKey(t, key, k), at, key, k);
      }
    }
  }
}

=== FILE: seed.dfy ===
/**
 * The database seed: the stored form of wizard configuration version 1, and the
 * rubric table for its gated steps, written with keyed upserts. Gating at submit
 * time depends on the two agreeing; those agreements are proved here.
 */
module Seed {

  import opened Wrappers
  import opened Store
  import WizardConfig
  import Submit

  const SeedWizardId: string := "course_map_v1"
  const SeedVersion: int := 1

  /** One entry of the seed's rubric table. */
  datatype SeedRubric = SeedRubric(stepId: string, json: RubricJson)

  const Rubrics: seq<SeedRubric> := [
    SeedRubric("s1_outcomes", RubricJson(
      "r_outcomes_v1", "s1_outcomes", true,
      ["measurable_verb", "single_performance", "learner_centered", "assessable"],
      map["clarity" := ScoreRange(1, 5, 4), "measurability" := ScoreRange(1, 5, 4)],
      ["scope_risk", "prereq_risk"],
      Some(["understand", "learn", "be familiar with", "know", "appreciate"]))),
    SeedRubric("s2_evidence", RubricJson(
      "r_evidence_v1", "s2_evidence", true,
      ["evidence_present_per_outcome", "alignment_to_verb", "feasible"],
      map["alignment" := ScoreRange(1, 5, 4)],
      ["grading_burden_risk", "accessibility_risk"],
      None)),
    SeedRubric("s3_learners", RubricJson(
      "r_learners_v1", "s3_learners", false, [], map[], ["missing_prereqs"], None)),
    SeedRubric("s4_materials", RubricJson(
      "r_materials_v1", "s4_materials", false, [], map[],
      ["licensing_risk", "accessibility_risk", "currency_risk"], None)),
    SeedRubric("s5_modules", RubricJson(
      "r_modules_v1", "s5_modules", true,
      ["covers_all_outcomes", "non_duplicate_modules", "coherent_sequence"],
      map["coherence" := ScoreRange(1, 5, 4)],
      ["scope_risk"],
      None)),
    SeedRubric("s6_practice", RubricJson(
      "r_practice_v1", "s6_practice", false, [], map[], ["insufficient_practice"], None))
  ]

  /** A configuration step as stored: its id and its gate's mode string. */
  function StepToJson(s: WizardConfig.WizardStep): (r: StepJson)
    ensures r.id == Some(s.id)
    ensures r.gateMode == Some("soft") <==> s.gate.SoftGate?
    ensures r.gateMode == Some("hard") <==> s.gate.HardGate?
  {
    StepJson(Some(s.id), Some(WizardConfig.GateModeName(s.gate)))
  }

  /** A configuration as stored: the steps, in order. */
  function ConfigToJson(cfg: WizardConfig.WizardConfig): (r: ConfigJson)
    ensures r.steps.Some? && |r.steps.value| == |cfg.steps|
    ensures forall i :: 0 <= i < |cfg.steps| ==> r.steps.value[i] == StepToJson(cfg.steps[i])
  {
    ConfigJson(Some(seq(|cfg.steps|, i requires 0 <= i < |cfg.steps| => StepToJson(cfg.steps[i]))))
  }

  /** The rubric row the seed writes for one table entry. */
  function RubricRow(r: SeedRubric): RubricRecord {
    RubricRecord(RubricKey(SeedWizardId, SeedVersion, r.stepId), SeedWizardId, SeedVersion, r.stepId, r.json)
  }

  /** The rubric upserts, in table order: each writes the whole row under its key,
      whether it creates the row or updates it. */
  function SeedRubrics(m: map<string, RubricRecord>, rows: seq<SeedRubric>): map<string, RubricRecord>
    decreases |rows|
  {
    if |rows| == 0 then m
    else SeedRubrics(m[RubricKey(SeedWizardId, SeedVersion, rows[0].stepId) := RubricRow(rows[0])], rows[1..])
  }

  /** The whole seed: the configuration upsert, then the rubric upserts. */
  function SeedDb(db: Db): (r: Db)
    ensures r.users == db.users && r.sessions == db.sessions && r.answers == db.answers
            && r.feedback == db.feedback && r.tokens == db.tokens
    ensures ConfigKey(SeedWizardId, SeedVersion) in r.configs
    ensures r.configs[ConfigKey(SeedWizardId, SeedVersion)].json == ConfigToJson(WizardConfig.WizardConfigV1)
    ensures forall k :: k in db.configs && k != ConfigKey(SeedWizardId, SeedVersion) ==>
              k in r.configs && r.configs[k] == db.configs[k]
  {
    var key := ConfigKey(SeedWizardId, SeedVersion);
    db.(configs := db.configs[key := ConfigRecord(key, SeedWizardId, SeedVersion, ConfigToJson(WizardConfig.WizardConfigV1))],
        rubrics := SeedRubrics(db.rubrics, Rubrics))
  }

  /** The rubric upserts overwrite the table's keys and leave every other row alone. */
  lemma {:induction false} SeedRubricsOverlay(m: map<string, RubricRecord>, rows: seq<SeedRubric>)
    ensures SeedRubrics(m, rows) == m + SeedRubrics(map[], rows)
    decreases |rows|
  {
    if |rows| > 0 {
      var k := RubricKey(SeedWizardId, SeedVersion, rows[0].stepId);
      var v := RubricRow(rows[0]);
      SeedRubricsOverlay(m[k := v], rows[1..]);
      SeedRubricsOverlay(map[][k := v], rows[1..]);
      assert m[k := v] == m + map[k := v];
    }
  }

  /** Running the seed twice leaves the same rows as running it once. */
  lemma SeedIdempotent(db: Db)
    ensures SeedDb(SeedDb(db)) == SeedDb(db)
  {
    SeedRubricsOverlay(db.rubrics, Rubrics);
    SeedRubricsOverlay(SeedDb(db).rubrics, Rubrics);
  }

  /** The wizard id and version the seed writes are those of configuration version 1. */
  lemma SeedMatchesConfig()
    ensures SeedWizardId == WizardConfig.WizardConfigV1.wizardId
    ensures SeedVersion == WizardConfig.WizardConfigV1.version
  {
  }

  /** Each table entry's step id is the rubric's own `applies_to_step`, and the step
      ids are pairwise distinct, so a (wizard, version, step) lookup finds at most one. */
  lemma RubricsSelfConsistent()
    ensures forall i :: 0 <= i < |Rubrics| ==> Rubrics[i].stepId == Rubrics[i].json.appliesToStep
    ensures forall i, j :: 0 <= i < j < |Rubrics| ==> Rubrics[i].stepId != Rubrics[j].stepId
    ensures forall i, name :: 0 <= i < |Rubrics| && name in Rubrics[i].json.scores ==>
              var sc := Rubrics[i].json.scores[name];
              sc.min <= sc.passMin <= sc.max
  {
  }

  /** The entry names step `j` of configuration version 1, which is gated, names the
      entry's rubric id, and is hard exactly when the entry says `hard_gate`. */
  predicate EntryMatchesStep(r: SeedRubric, j: int) {
    var steps := WizardConfig.WizardConfigV1.steps;
    && 0 <= j < |steps|
    && steps[j].id == r.stepId
    && !steps[j].gate.NoGate?
    && WizardConfig.RubricIdOf(steps[j].gate) == Some(r.json.id)
    && (r.json.hardGate <==> steps[j].gate.HardGate?)
  }

  lemma EntryMatches(i: nat)
    requires i < |Rubrics|
    ensures EntryMatchesStep(Rubrics[i], i + 1)
  {
    var steps := WizardConfig.WizardConfigV1.steps;
    if i == 0 { assert steps[1] == WizardConfig.StepS1Outcomes; }
    else if i == 1 { assert steps[2] == WizardConfig.StepS2Evidence; }
    else if i == 2 { assert steps[3] == WizardConfig.StepS3Learners; }
    else if i == 3 { assert steps[4] == WizardConfig.StepS4Materials; }
    else if i == 4 { assert steps[5] == WizardConfig.StepS5Modules; }
    else { assert steps[6] == WizardConfig.StepS6Practice; }
  }

  /** The rubric table covers only gated steps of configuration version 1, each with
      the rubric id its gate names and the hardness its gate has: entry `i` belongs to
      step `i + 1`. */
  lemma RubricsMatchGatedSteps()
    ensures forall i :: 0 <= i < |Rubrics| ==> EntryMatchesStep(Rubrics[i], i + 1)
  {
    forall i | 0 <= i < |Rubrics| ensures EntryMatchesStep(Rubrics[i], i + 1) {
      EntryMatches(i);
    }
  }

  /** Conversely, every gated step of configuration version 1 has a table entry. */
  lemma GatedStepsHaveRubrics()
    ensures forall s :: s in WizardConfig.WizardConfigV1.steps && !s.gate.NoGate? ==>
              exists i :: 0 <= i < |Rubrics| && Rubrics[i].stepId == s.id
  {
    assert Rubrics[0].stepId == "s1_outcomes";
    assert Rubrics[1].stepId == "s2_evidence";
    assert Rubrics[2].stepId == "s3_learners";
    assert Rubrics[3].stepId == "s4_materials";
    assert Rubrics[4].stepId == "s5_modules";
    assert Rubrics[5].stepId == "s6_practice";
  }

  /** Rubric keys of one wizard version differ exactly when their step ids do. */
  lemma RubricKeyInjective(a: string, b: string)
    ensures RubricKey(SeedWizardId, SeedVersion, a) == RubricKey(SeedWizardId, SeedVersion, b) ==> a == b
  {
    var p := ConfigKey(SeedWizardId, SeedVersion) + ":";
    assert (p + a)[|p|..] == a;
    assert (p + b)[|p|..] == b;
  }

  /** Every row after the rubric upserts was there before or was written by one of them. */
  lemma {:induction false} SeedRubricsSource(m: map<string, RubricRecord>, rows: seq<SeedRubric>, k: string)
    requires k in SeedRubrics(m, rows)
    ensures (k in m && SeedRubrics(m, rows)[k] == m[k])
            || exists i :: 0 <= i < |rows| && SeedRubrics(m, rows)[k] == RubricRow(rows[i])
    decreases |rows|
  {
    if |rows| > 0 {
      var key := RubricKey(SeedWizardId, SeedVersion, rows[0].stepId);
      SeedRubricsSource(m[key := RubricRow(rows[0])], rows[1..], k);
      var r := SeedRubrics(m, rows);
      if k !in m[key := RubricRow(rows[0])] || r[k] != m[key := RubricRow(rows[0])][k] {
        var i :| 0 <= i < |rows[1..]| && r[k] == RubricRow(rows[1..][i]);
        assert rows[1..][i] == rows[i + 1];
      } else if k == key {
        assert r[k] == RubricRow(rows[0]);
      }
    }
  }

  /** After the rubric upserts, each entry's key holds a row for that entry's step. */
  lemma {:induction false} SeedRubricsWritten(m: map<string, RubricRecord>, rows: seq<SeedRubric>, i: nat)
    requires i < |rows|
    ensures RubricKey(SeedWizardId, SeedVersion, rows[i].stepId) in SeedRubrics(m, rows)
    ensures SeedRubrics(m, rows)[RubricKey(SeedWizardId, SeedVersion, rows[i].stepId)]
              .(json := rows[i].json) == RubricRow(rows[i])
    decreases |rows|
  {
    var key := RubricKey(SeedWizardId, SeedVersion, rows[i].stepId);
    var m' := m[RubricKey(SeedWizardId, SeedVersion, rows[0].stepId) := RubricRow(rows[0])];
    if i > 0 {
      SeedRubricsWritten(m', rows[1..], i - 1);
      assert rows[1..][i - 1] == rows[i];
    } else {
      SeedRubricsKeep(m', rows[1..], key);
      var r := SeedRubrics(m, rows)[key];
      if r != m'[key] {
        var j :| 0 <= j < |rows[1..]| && r == RubricRow(rows[1..][j]);
        RubricKeyInjective(rows[0].stepId, rows[1..][j].stepId);
      }
    }
  }

  /** A key present before the upserts stays present, holding its old row or one the
      upserts wrote under that key. */
  lemma {:induction false} SeedRubricsKeep(m: map<string, RubricRecord>, rows: seq<SeedRubric>, k: string)
    requires k in m
    ensures k in SeedRubrics(m, rows)
    ensures SeedRubrics(m, rows)[k] == m[k]
            || exists j :: 0 <= j < |rows| && SeedRubrics(m, rows)[k] == RubricRow(rows[j])
                           && k == RubricKey(SeedWizardId, SeedVersion, rows[j].stepId)
    decreases |rows|
  {
    if |rows| > 0 {
      var key := RubricKey(SeedWizardId, SeedVersion, rows[0].stepId);
      var m' := m[key := RubricRow(rows[0])];
      SeedRubricsKeep(m', rows[1..], k);
      var r := SeedRubrics(m, rows)[k];
      if r != m'[k] {
        var j :| 0 <= j < |rows[1..]| && r == RubricRow(rows[1..][j])
                 && k == RubricKey(SeedWizardId, SeedVersion, rows[1..][j].stepId);
        assert rows[1..][j] == rows[j + 1];
      } else if k == key {
        assert r == RubricRow(rows[0]);
      }
    }
  }

  /** No stored rubric belongs to the seeded wizard version. */
  predicate NoSeededRubrics(m: map<string, RubricRecord>) {
    forall k :: k in m ==> !(m[k].wizardId == SeedWizardId && m[k].version == SeedVersion)
  }

  /** On a database holding no rubric of the seeded wizard version, the seed makes the
      submit handler's rubric lookup succeed exactly for the table's steps. */
  lemma SeededRubricLookup(db: Db, stepId: string)
    requires NoSeededRubrics(db.rubrics)
    ensures Submit.HasRubric(SeedDb(db).rubrics, SeedWizardId, SeedVersion, stepId) <==>
              exists i :: 0 <= i < |Rubrics| && Rubrics[i].stepId == stepId
  {
    var r := SeedDb(db).rubrics;
    if Submit.HasRubric(r, SeedWizardId, SeedVersion, stepId) {
      var k :| k in r && r[k].wizardId == SeedWizardId && r[k].version == SeedVersion && r[k].stepId == stepId;
      SeedRubricsSource(db.rubrics, Rubrics, k);
      var i :| 0 <= i < |Rubrics| && r[k] == RubricRow(Rubrics[i]);
    }
    if exists i :: 0 <= i < |Rubrics| && Rubrics[i].stepId == stepId {
      var i :| 0 <= i < |Rubrics| && Rubrics[i].stepId == stepId;
      SeedRubricsWritten(db.rubrics, Rubrics, i);
      var k := RubricKey(SeedWizardId, SeedVersion, stepId);
      assert k in r && r[k].wizardId == SeedWizardId && r[k].version == SeedVersion && r[k].stepId == stepId;
    }
  }
}

=== FILE: session_create.dfy ===
/**
 * The session-creation route: a signed-in user starts a run of a wizard version.
 * The session cookie check is foreign; its outcome, the cookie's user id or none,
 * is a parameter, and so is the id the database generates for the new row.
 */
module SessionCreate {

  import opened Wrappers
  import Json
  import opened Store
  import WizardConfig
  import Submit
  import SubmitProps
  import Seed

  /** The body schema: `wizardId` a non-empty string, `version` a positive integer. */
  datatype CreateRequest = CreateRequest(wizardId: string, version: int)

  /** `z.number().int().positive()`: a number with no fractional part, above zero. */
  function PositiveInt(v: Json.Value): (r: Option<int>)
    ensures r.Some? <==> v.Num? && v.n == v.n.Floor as real && v.n > 0.0
    ensures r.Some? ==> r.value > 0 && r.value as real == v.n
  {
    if v.Num? && v.n == v.n.Floor as real && v.n > 0.0 then Some(v.n.Floor) else None
  }

  function ParseCreate(body: Option<Json.Value>): (r: Option<CreateRequest>)
    ensures r.Some? ==> |r.value.wizardId| >= 1 && r.value.version >= 1
    ensures r.Some? <==>
              && body.Some? && body.value.Obj?
              && Json.StringField(body.value.fields, "wizardId", 1).Some?
              && "version" in body.value.fields && PositiveInt(body.value.fields["version"]).Some?
    ensures r.Some? ==>
              && r.value.wizardId == body.value.fields["wizardId"].s
              && r.value.version as real == body.value.fields["version"].n
  {
    match body
    case Some(Obj(f)) =>
      var w := Json.StringField(f, "wizardId", 1);
      var v := if "version" in f then PositiveInt(f["version"]) else None;
      if w.Some? && v.Some? then Some(CreateRequest(w.value, v.value)) else None
    case _ => None
  }

  /** The step every new session starts on. */
  const InitialStepId: string := "s0_context"

  datatype CreateResponse = Unauthorized | InvalidRequest | Created(sessionId: string)

  function HttpStatus(r: CreateResponse): int {
    match r
    case Unauthorized => 401
    case InvalidRequest => 400
    case Created(_) => 200
  }

  datatype CreateOutcome = CreateOutcome(response: CreateResponse, db: Db)

  /** The route's POST handler. Whether the wizard version has a stored configuration
      is not checked. */
  function Post(cookieUserId: Option<string>, body: Option<Json.Value>, freshId: string, db: Db): (o: CreateOutcome)
    requires freshId !in db.sessions
    ensures o.response == Unauthorized <==> cookieUserId.None?
    ensures o.response == InvalidRequest <==> cookieUserId.Some? && ParseCreate(body).None?
    ensures !o.response.Created? ==> o.db == db
    ensures o.response.Created? ==>
              var req := ParseCreate(body).value;
              && o.response.sessionId == freshId
              && o.db == db.(sessions := db.sessions[freshId :=
                   SessionRec(freshId, cookieUserId.value, req.wizardId, req.version, InitialStepId, InProgress)])
  {
    match cookieUserId
    case None => CreateOutcome(Unauthorized, db)
    case Some(uid) =>
      match ParseCreate(body)
      case None => CreateOutcome(InvalidRequest, db)
      case Some(req) =>
        var s := SessionRec(freshId, uid, req.wizardId, req.version, InitialStepId, InProgress);
        CreateOutcome(Created(freshId), db.(sessions := db.sessions[freshId := s]))
  }

  /** A new session starts on the first step of the published configuration. */
  lemma StartsOnFirstStep()
    ensures InitialStepId == WizardConfig.FirstStepId
    ensures InitialStepId == WizardConfig.WizardConfigV1.steps[0].id
  {
    WizardConfig.V1StepIds();
  }

  /** The creator owns the new session, and every session that existed before is
      still there, unchanged. */
  lemma CreatedSessionOwned(cookieUserId: Option<string>, body: Option<Json.Value>, freshId: string, db: Db)
    requires freshId !in db.sessions
    requires Post(cookieUserId, body, freshId, db).response.Created?
    ensures var o := Post(cookieUserId, body, freshId, db);
            && Submit.OwnsSession(o.db.sessions, freshId, cookieUserId.value)
            && o.db.sessions[freshId].stepId == InitialStepId
            && o.db.sessions[freshId].status == InProgress
            && (forall k :: k in db.sessions ==> k in o.db.sessions && o.db.sessions[k] == db.sessions[k])
            && o.db.sessions.Keys == db.sessions.Keys + {freshId}
  {
  }

  /** Seeding writes only configurations and rubrics, so it commutes with a change
      to the sessions table. */
  lemma SeedKeepsSessions(db: Db, sessions: map<string, SessionRec>)
    ensures Seed.SeedDb(db).(sessions := sessions) == Seed.SeedDb(db.(sessions := sessions))
  {
  }

  /** A run of version 1 created on the seeded database and then submitted on its
      ungated first step moves to the second step, still in progress, without
      consulting the judge. */
  lemma CreateThenSubmitFirstStep(userId: string, createBody: Option<Json.Value>, freshId: string,
                                  submitBody: Option<Json.Value>, judge: Submit.JudgeOutcome, now: int, db: Db)
    requires freshId !in db.sessions
    requires Seed.NoSeededRubrics(db.rubrics)
    requires userId != ""
    requires ParseCreate(createBody) == Some(CreateRequest(Seed.SeedWizardId, Seed.SeedVersion))
    requires Submit.ParseSubmit(submitBody).Some?
    requires Submit.ParseSubmit(submitBody).value.sessionId == freshId
    requires Submit.ParseSubmit(submitBody).value.stepId == InitialStepId
    ensures var created := Post(Some(userId), createBody, freshId, Seed.SeedDb(db));
            var o := Submit.Post(Some(userId), submitBody, judge, now, created.db);
            && created.response == Created(freshId)
            && o.judgeCall.None?
            && o.response == Submit.Submitted(Submit.DefaultEvaluation, "s1_outcomes", InProgress)
  {
    var created := Post(Some(userId), createBody, freshId, Seed.SeedDb(db));
    var db1 := db.(sessions := created.db.sessions);
    SeedKeepsSessions(db, created.db.sessions);
    assert created.db == Seed.SeedDb(db1);
    assert Seed.NoSeededRubrics(db1.rubrics);
    assert SubmitProps.SeededSession(db1, freshId);
    StartsOnFirstStep();
    SubmitProps.SeededGating(db1, 0);
    SubmitProps.AdvancementCases(Some(userId), submitBody, judge, now, Seed.SeedDb(db1));
    SubmitProps.JudgeConsultedIff(Some(userId), submitBody, judge, now, Seed.SeedDb(db1));
    WizardConfig.V1StepIds();
  }
}

=== FILE: store.dfy ===
/**
 * The persisted state the route handlers read and write: users, sessions, the
 * append-only answer log, the feedback log, the stored wizard configurations and
 * rubrics, and magic-link tokens. Tables become maps keyed by their unique key or
 * sequences in insertion order; timestamps are integers (milliseconds).
 */
module Store {

  import opened Wrappers
  import Json
  import Numeral

  datatype Status = InProgress | Complete

  /** The status strings stored in the session row. */
  function StatusName(s: Status): string {
    match s
    case InProgress => "in_progress"
    case Complete => "complete"
  }

  /** A wizard run. `stepId` is the step the session points at. */
  datatype SessionRec = SessionRec(id: string, userId: string, wizardId: string, version: int, stepId: string, status: Status)

  /** One submitted value for one question of one step of one session. */
  datatype AnswerRow = AnswerRow(sessionId: string, stepId: string, questionId: string, value: Json.Value, createdAt: int)

  datatype QuestionResult = QuestionResult(
    questionId: string, pass: bool, failedChecks: seq<string>, feedback: seq<string>, suggestedRevision: Option<string>)

  /** The judge's verdict on a step, as stored in a feedback row's payload. */
  datatype Evaluation = Evaluation(stepPass: bool, globalFeedback: seq<string>, questionResults: seq<QuestionResult>)

  datatype Verdict = Pass | Fail

  datatype FeedbackRow = FeedbackRow(
    sessionId: string, stepId: string, questionId: Option<string>, verdict: Verdict, payload: Evaluation, createdAt: int)

  /** A step of a stored configuration, as the submit handler reads it: the `id` and
      the `gate.mode` value, each absent when the JSON lacks it or holds a non-string. */
  datatype StepJson = StepJson(id: Option<string>, gateMode: Option<string>)

  /** A stored configuration's JSON; `steps` is None when it is not an array. */
  datatype ConfigJson = ConfigJson(steps: Option<seq<StepJson>>)

  datatype ConfigRecord = ConfigRecord(id: string, wizardId: string, version: int, json: ConfigJson)

  datatype ScoreRange = ScoreRange(min: int, max: int, passMin: int)

  /** The rubric blob the seed stores for a gated step. */
  datatype RubricJson = RubricJson(
    id: string, appliesToStep: string, hardGate: bool, requiredChecks: seq<string>,
    scores: map<string, ScoreRange>, flags: seq<string>, bannedVerbs: Option<seq<string>>)

  datatype RubricRecord = RubricRecord(id: string, wizardId: string, version: int, stepId: string, json: RubricJson)

  datatype TokenRow = TokenRow(userId: string, tokenHash: string, expiresAt: int)

  /** The whole database. `users` maps an e-mail address to the user's id. */
  datatype Db = Db(
    users: map<string, string>,
    sessions: map<string, SessionRec>,
    answers: seq<AnswerRow>,
    feedback: seq<FeedbackRow>,
    configs: map<string, ConfigRecord>,
    rubrics: map<string, RubricRecord>,
    tokens: seq<TokenRow>)

  /** The id of a stored wizard configuration: `${wizardId}:${version}`. */
  function ConfigKey(wizardId: string, version: int): string {
    wizardId + ":" + Numeral.IntToString(version)
  }

  /** The id of a stored rubric: `${wizardId}:${version}:${stepId}`. */
  function RubricKey(wizardId: string, version: int, stepId: string): (r: string)
    ensures r == ConfigKey(wizardId, version) + ":" + stepId
  {
    wizardId + ":" + Numeral.IntToString(version) + ":" + stepId
  }

  /** `prisma.user.upsert({ where: { email }, update: {}, create: { email } })`: the
      existing user's id, or a new user with the id the database generates. */
  function UpsertUser(users: map<string, string>, email: string, freshId: string): (r: (string, map<string, string>))
    ensures email in r.1 && r.1[email] == r.0
    ensures email in users ==> r == (users[email], users)
    ensures email !in users ==> r.0 == freshId && r.1 == users[email := freshId]
  {
    if email in users then (users[email], users) else (freshId, users[email := freshId])
  }

  function AnswerAt(a: AnswerRow): int { a.createdAt }
  function AnswerQuestion(a: AnswerRow): string { a.questionId }
  function AnswerStep(a: AnswerRow): string { a.stepId }
  function AnswerSlot(a: AnswerRow): (string, string) { (a.sessionId, a.stepId) }
  /** The step and question a row answers. */
  function AnswerStepQuestion(a: AnswerRow): (string, string) { (a.stepId, a.questionId) }
  /** The session, step and question a row answers. */
  function AnswerSlotQuestion(a: AnswerRow): ((string, string), string) { (AnswerSlot(a), a.questionId) }

  function FeedbackAt(f: FeedbackRow): int { f.createdAt }
  function FeedbackStep(f: FeedbackRow): string { f.stepId }
  function FeedbackSlot(f: FeedbackRow): (string, string) { (f.sessionId, f.stepId) }
}

=== FILE: submit.dfy ===
/**
 * The step-submission and gating engine: the POST handler of the submit route as
 * one transition from a database state to a response and a new database state.
 *
 * The order of effects is the handler's: authentication, body validation and the
 * ownership check come first and write nothing; then the submitted answers are
 * appended; then the stored configuration is looked up (its absence answers 500
 * with the answers already written); then the gate mode is normalised, the
 * rubric looked up, the step's prior feedback deleted, the judge consulted when
 * the gate and the rubric call for it, one feedback row inserted, and the session
 * pointer moved.
 *
 * The judge is an oracle: its outcome for this call is a parameter, and the call
 * the handler would make is returned so that what it receives can be stated.
 */
module Submit {

  import opened Wrappers
  import Json
  import opened Store
  import Recency
  import AuthServer

  // ---------------------------------------------------------------- request

  datatype SubmitAnswer = SubmitAnswer(questionId: string, value: Json.Value)

  datatype SubmitRequest = SubmitRequest(sessionId: string, stepId: string, answers: seq<SubmitAnswer>)

  /** One element of `answers`: an object with a non-empty string `questionId`.
      `value` accepts anything; a missing one is taken as JSON null. */
  function ParseAnswer(v: Json.Value): (r: Option<SubmitAnswer>)
    ensures r.Some? <==> v.Obj? && Json.StringField(v.fields, "questionId", 1).Some?
    ensures r.Some? ==> r.value.questionId == v.fields["questionId"].s && |r.value.questionId| >= 1
  {
    match v
    case Obj(f) =>
      (match Json.StringField(f, "questionId", 1)
       case Some(q) => Some(SubmitAnswer(q, if "value" in f then f["value"] else Json.Null))
       case None => None)
    case _ => None
  }

  function ParseAnswers(items: seq<Json.Value>): (r: Option<seq<SubmitAnswer>>)
    ensures r.Some? <==> forall i :: 0 <= i < |items| ==> ParseAnswer(items[i]).Some?
    ensures r.Some? ==> |r.value| == |items|
                        && forall i :: 0 <= i < |items| ==> ParseAnswer(items[i]) == Some(r.value[i])
  {
    if |items| == 0 then Some([])
    else
      match (ParseAnswer(items[0]), ParseAnswers(items[1..]))
      case (Some(a), Some(rest)) =>
        assert forall i :: 1 <= i < |items| ==> items[i] == items[1..][i - 1];
        Some([a] + rest)
      case _ =>
        assert forall i :: 1 <= i < |items| ==> items[i] == items[1..][i - 1];
        None
  }

  /** The `answers` field is valid: absent (it defaults to the empty array), or an
      array every element of which is a valid answer. */
  predicate AnswersAccepted(f: map<string, Json.Value>) {
    "answers" !in f
    || (f["answers"].Arr? && forall i :: 0 <= i < |f["answers"].items| ==> ParseAnswer(f["answers"].items[i]).Some?)
  }

  /** The handler's schema: `sessionId` and `stepId` non-empty strings, `answers` an
      array of answers, defaulting to the empty array when absent. A body that is not
      JSON (`None`), or not an object, is invalid. */
  function ParseSubmit(body: Option<Json.Value>): (r: Option<SubmitRequest>)
    ensures r.Some? <==>
              && body.Some? && body.value.Obj?
              && Json.StringField(body.value.fields, "sessionId", 1).Some?
              && Json.StringField(body.value.fields, "stepId", 1).Some?
              && AnswersAccepted(body.value.fields)
    ensures r.Some? ==>
              && r.value.sessionId == body.value.fields["sessionId"].s
              && r.value.stepId == body.value.fields["stepId"].s
              && ("answers" !in body.value.fields ==> r.value.answers == [])
              && ("answers" in body.value.fields ==>
                    var items := body.value.fields["answers"].items;
                    && |r.value.answers| == |items|
                    && forall i :: 0 <= i < |items| ==> ParseAnswer(items[i]) == Some(r.value.answers[i]))
    ensures r.Some? ==> |r.value.sessionId| >= 1 && |r.value.stepId| >= 1
    ensures r.Some? ==> forall a :: a in r.value.answers ==> |a.questionId| >= 1
  {
    match body
    case Some(Obj(f)) =>
      var sid := Json.StringField(f, "sessionId", 1);
      var step := Json.StringField(f, "stepId", 1);
      var answers :=
        if "answers" !in f then Some([])
        else if f["answers"].Arr? then ParseAnswers(f["answers"].items)
        else None;
      if sid.Some? && step.Some? && answers.Some? then
        assert forall a :: a in answers.value ==> |a.questionId| >= 1 by {
          if "answers" in f {
            forall a | a in answers.value ensures |a.questionId| >= 1 {
              var i :| 0 <= i < |answers.value| && answers.value[i] == a;
              assert ParseAnswer(f["answers"].items[i]) == Some(a);
            }
          }
        }
        Some(SubmitRequest(sid.value, step.value, answers.value))
      else None
    case _ => None
  }

  // ---------------------------------------------------------------- configuration and gate

  datatype GateMode = GateNone | GateSoft | GateHard

  /** The configuration's steps; a `steps` value that is not an array reads as none. */
  function StepsOf(cfg: ConfigJson): seq<StepJson> {
    cfg.steps.GetOr([])
  }

  /** `steps.findIndex((s) => s?.id === stepId)`: the first step with that id, or -1. */
  function FindStepIndex(steps: seq<StepJson>, stepId: string): (r: int)
    ensures -1 <= r < |steps|
    ensures r >= 0 ==> steps[r].id == Some(stepId) && forall k :: 0 <= k < r ==> steps[k].id != Some(stepId)
    ensures r == -1 <==> forall k :: 0 <= k < |steps| ==> steps[k].id != Some(stepId)
  {
    if |steps| == 0 then -1
    else if steps[0].id == Some(stepId) then 0
    else
      var rest := FindStepIndex(steps[1..], stepId);
      assert forall k :: 1 <= k < |steps| ==> steps[k] == steps[1..][k - 1];
      if rest == -1 then -1 else rest + 1
  }

  /** Gate-mode normalisation: "soft" and "hard" are kept, anything else (another
      string, no mode, no step with that id) is `none`. */
  function GateModeAt(steps: seq<StepJson>, idx: int): (g: GateMode)
    requires -1 <= idx < |steps|
    ensures g == GateSoft <==> idx >= 0 && steps[idx].gateMode == Some("soft")
    ensures g == GateHard <==> idx >= 0 && steps[idx].gateMode == Some("hard")
  {
    if idx < 0 then GateNone
    else match steps[idx].gateMode
      case Some(m) => if m == "soft" then GateSoft else if m == "hard" then GateHard else GateNone
      case None => GateNone
  }

  /** A rubric row for (wizardId, version, stepId) exists: `prisma.rubric.findFirst`. */
  predicate HasRubric(rubrics: map<string, RubricRecord>, wizardId: string, version: int, stepId: string) {
    exists id :: id in rubrics && rubrics[id].wizardId == wizardId
                 && rubrics[id].version == version && rubrics[id].stepId == stepId
  }

  // ---------------------------------------------------------------- evaluation

  /** The judge's outcome for the call the handler makes: an evaluation, or a thrown error. */
  datatype JudgeOutcome = Judged(evaluation: Evaluation) | JudgeFailed

  /** A (questionId, value) entry of the latest-answers map handed to the judge. */
  datatype QA = QA(questionId: string, value: Json.Value)

  /** The arguments of the judge call (the rubric blob itself is passed through unread). */
  datatype JudgeCall = JudgeCall(stepId: string, answers: seq<QA>, wizardId: string, version: int)

  const JudgeFailureMessage: string :=
    "Evaluation failed due to a server error. Check your OPENAI_API_KEY and server logs."

  /** The evaluation used when the judge is not consulted. */
  const DefaultEvaluation: Evaluation := Evaluation(true, [], [])

  /** The evaluation synthesised when the judge throws. */
  const FailedEvaluation: Evaluation := Evaluation(false, [JudgeFailureMessage], [])

  function VerdictFromEval(ev: Evaluation): (v: Verdict)
    ensures v == Pass <==> ev.stepPass
  {
    if ev.stepPass then Pass else Fail
  }

  /** The evaluation the handler ends up with: the default unless the judge is
      consulted, then the judge's own, or the synthesised failure if it threw. */
  function EvaluationFor(consult: bool, judge: JudgeOutcome): (ev: Evaluation)
    ensures !consult ==> ev == DefaultEvaluation
    ensures consult && judge.Judged? ==> ev == judge.evaluation
    ensures consult && judge.JudgeFailed? ==> !ev.stepPass && |ev.globalFeedback| == 1 && ev.questionResults == []
  {
    if !consult then DefaultEvaluation
    else match judge
      case Judged(e) => e
      case JudgeFailed => FailedEvaluation
  }

  // ---------------------------------------------------------------- answers

  /** The rows `createMany` inserts: one per submitted answer, in order, each tagged
      with the session and the submitted step. */
  function NewAnswerRows(sessionId: string, stepId: string, answers: seq<SubmitAnswer>, now: int): (r: seq<AnswerRow>)
    ensures |r| == |answers|
    ensures forall i :: 0 <= i < |r| ==>
              r[i] == AnswerRow(sessionId, stepId, answers[i].questionId, answers[i].value, now)
  {
    seq(|answers|, i requires 0 <= i < |answers| => AnswerRow(sessionId, stepId, answers[i].questionId, answers[i].value, now))
  }

  /** The rows `findMany({ where: { sessionId, stepId } })` selects. */
  function StepAnswers(log: seq<AnswerRow>, sessionId: string, stepId: string): seq<AnswerRow> {
    Recency.KeepKey(log, AnswerSlot, (sessionId, stepId))
  }

  predicate HasQuestion(m: seq<QA>, q: string) {
    exists i :: 0 <= i < |m| && m[i].questionId == q
  }

  /** The value stored under `q` in the latest-answers map. */
  function Lookup(m: seq<QA>, q: string): (r: Option<Json.Value>)
    ensures r.Some? <==> HasQuestion(m, q)
  {
    if |m| == 0 then None
    else if m[0].questionId == q then Some(m[0].value)
    else
      assert forall i :: 1 <= i < |m| ==> m[i] == m[1..][i - 1];
      Lookup(m[1..], q)
  }

  predicate DistinctQuestions(m: seq<QA>) {
    forall i, j :: 0 <= i < j < |m| ==> m[i].questionId != m[j].questionId
  }

  /** The loop that fills `latestByQuestion`: rows are visited in the given order and a
      question's first row wins; entries keep the order in which they were set. */
  function CollectFirst(rows: seq<AnswerRow>, acc: seq<QA>): seq<QA>
    decreases |rows|
  {
    if |rows| == 0 then acc
    else if HasQuestion(acc, rows[0].questionId) then CollectFirst(rows[1..], acc)
    else CollectFirst(rows[1..], acc + [QA(rows[0].questionId, rows[0].value)])
  }

  function LatestByQuestion(rows: seq<AnswerRow>): seq<QA> {
    CollectFirst(rows, [])
  }

  function ValueOf(a: Option<AnswerRow>): Option<Json.Value> {
    match a
    case Some(row) => Some(row.value)
    case None => None
  }

  lemma {:induction false} CollectFirstSpec(rows: seq<AnswerRow>, acc: seq<QA>, q: string)
    requires DistinctQuestions(acc)
    ensures DistinctQuestions(CollectFirst(rows, acc))
    ensures Lookup(CollectFirst(rows, acc), q)
              == if HasQuestion(acc, q) then Lookup(acc, q)
                 else ValueOf(Recency.FirstWithKey(rows, AnswerQuestion, q))
  {
    if |rows| > 0 {
      var x := rows[0];
      if HasQuestion(acc, x.questionId) {
        CollectFirstSpec(rows[1..], acc, q);
      } else {
        var acc' := acc + [QA(x.questionId, x.value)];
        LookupAppend(acc, QA(x.questionId, x.value), q);
        CollectFirstSpec(rows[1..], acc', q);
      }
    }
  }

  /** A non-empty map holds `q` exactly when its head or its tail does. */
  lemma HasQuestionCons(m: seq<QA>, q: string)
    requires |m| > 0
    ensures HasQuestion(m, q) <==> m[0].questionId == q || HasQuestion(m[1..], q)
  {
    if HasQuestion(m[1..], q) {
      var i :| 0 <= i < |m[1..]| && m[1..][i].questionId == q;
      assert m[i + 1].questionId == q;
    }
    if HasQuestion(m, q) {
      var i :| 0 <= i < |m| && m[i].questionId == q;
      if i > 0 {
        assert m[1..][i - 1].questionId == q;
      }
    }
  }

  lemma {:induction false} LookupAppend(m: seq<QA>, e: QA, q: string)
    requires !HasQuestion(m, e.questionId)
    ensures DistinctQuestions(m) ==> DistinctQuestions(m + [e])
    ensures HasQuestion(m + [e], q) <==> HasQuestion(m, q) || e.questionId == q
    ensures Lookup(m + [e], q) == if HasQuestion(m, q) then Lookup(m, q) else if e.questionId == q then Some(e.value) else None
  {
    var me := m + [e];
    if |m| > 0 {
      assert me[1..] == m[1..] + [e];
      HasQuestionCons(m, e.questionId);
      LookupAppend(m[1..], e, q);
      HasQuestionCons(m, q);
      HasQuestionCons(me, q);
    } else {
      assert me == [e];
      HasQuestionCons(me, q);
      assert me[1..] == [];
    }
    if DistinctQuestions(m) {
      forall i, j | 0 <= i < j < |me| ensures me[i].questionId != me[j].questionId {
        if j == |m| {
          assert m[i].questionId != e.questionId;
        }
      }
    }
  }

  /** The judge map holds each question once, holds exactly the questions that have a
      row, and maps each to the value of its first row in visiting order. */
  lemma LatestByQuestionSpec(rows: seq<AnswerRow>, q: string)
    ensures DistinctQuestions(LatestByQuestion(rows))
    ensures HasQuestion(LatestByQuestion(rows), q) <==> exists i :: 0 <= i < |rows| && rows[i].questionId == q
    ensures Lookup(LatestByQuestion(rows), q) == ValueOf(Recency.FirstWithKey(rows, AnswerQuestion, q))
  {
    CollectFirstSpec(rows, [], q);
    var f := Recency.FirstWithKey(rows, AnswerQuestion, q);
    if f.None? {
      assert forall i :: 0 <= i < |rows| ==> AnswerQuestion(rows[i]) != q;
    }
  }

  // ---------------------------------------------------------------- feedback

  /** `feedback.deleteMany({ where: { sessionId, stepId } })`. */
  function ClearFeedback(fb: seq<FeedbackRow>, sessionId: string, stepId: string): (r: seq<FeedbackRow>)
    ensures forall i :: 0 <= i < |r| ==> FeedbackSlot(r[i]) != (sessionId, stepId) && r[i] in fb
    ensures forall i :: 0 <= i < |fb| && FeedbackSlot(fb[i]) != (sessionId, stepId) ==> fb[i] in r
  {
    if |fb| == 0 then []
    else if FeedbackSlot(fb[0]) == (sessionId, stepId) then ClearFeedback(fb[1..], sessionId, stepId)
    else
      var rest := ClearFeedback(fb[1..], sessionId, stepId);
      assert forall i :: 1 <= i < |fb| ==> fb[i] == fb[1..][i - 1];
      [fb[0]] + rest
  }

  /** How many rows of `fb` belong to (sessionId, stepId). */
  function CountFor(fb: seq<FeedbackRow>, sessionId: string, stepId: string): nat {
    if |fb| == 0 then 0
    else (if FeedbackSlot(fb[0]) == (sessionId, stepId) then 1 else 0) + CountFor(fb[1..], sessionId, stepId)
  }

  lemma {:induction false} CountForNone(fb: seq<FeedbackRow>, sessionId: string, stepId: string)
    requires forall i :: 0 <= i < |fb| ==> FeedbackSlot(fb[i]) != (sessionId, stepId)
    ensures CountFor(fb, sessionId, stepId) == 0
  {
    if |fb| > 0 {
      assert forall i :: 0 <= i < |fb[1..]| ==> fb[1..][i] == fb[i + 1];
      CountForNone(fb[1..], sessionId, stepId);
    }
  }

  lemma {:induction false} CountForAppend(a: seq<FeedbackRow>, b: seq<FeedbackRow>, sessionId: string, stepId: string)
    ensures CountFor(a + b, sessionId, stepId) == CountFor(a, sessionId, stepId) + CountFor(b, sessionId, stepId)
  {
    if |a| == 0 {
      assert a + b == b;
    } else {
      assert (a + b)[1..] == a[1..] + b;
      CountForAppend(a[1..], b, sessionId, stepId);
    }
  }

  // ---------------------------------------------------------------- advancement

  /** The handler's `nextStepId` / `nextStatus` pair; None stands for `null`. */
  datatype Advance = Advance(nextStepId: Option<string>, nextStatus: Option<Status>)

  /** The advancement rule: a step that may be advanced completes the session when it
      is the last configured step (keeping the submitted id), moves to the next step's
      id otherwise, and does nothing when the step is not in the configuration; a step
      that may not be advanced keeps the session on the SUBMITTED step id. */
  function Advancement(steps: seq<StepJson>, idx: int, stepId: string, canAdvance: bool): Advance
    requires -1 <= idx < |steps|
  {
    if canAdvance then
      var isLast := if idx >= 0 then idx >= |steps| - 1 else false;
      if isLast then Advance(Some(stepId), Some(Complete))
      else if idx >= 0 then Advance(steps[idx + 1].id, None)
      else Advance(None, None)
    else Advance(Some(stepId), None)
  }

  /** A JavaScript-truthy optional string: present and not empty. */
  predicate Truthy(s: Option<string>) {
    s.Some? && s.value != ""
  }

  /** The `session.update` guarded by `nextStepId || nextStatus`, filling unset fields
      with the values read at the start of the request. */
  function ApplyAdvance(s: SessionRec, adv: Advance): SessionRec {
    if Truthy(adv.nextStepId) || adv.nextStatus.Some? then
      s.(stepId := adv.nextStepId.GetOr(s.stepId), status := adv.nextStatus.GetOr(s.status))
    else s
  }

  // ---------------------------------------------------------------- the transition

  datatype Response =
    | Unauthorized
    | InvalidRequest
    | NotFound
    | ConfigNotFound
    | Submitted(evaluation: Evaluation, stepId: string, status: Status)

  /** The HTTP status of each response. */
  function HttpStatus(r: Response): int {
    match r
    case Unauthorized => 401
    case InvalidRequest => 400
    case NotFound => 404
    case ConfigNotFound => 500
    case Submitted(_, _, _) => 200
  }

  datatype Outcome = Outcome(response: Response, db: Db, judgeCall: Option<JudgeCall>)

  /** The caller is authenticated: `getAuthedUserId()` gave a truthy id. */
  predicate Authenticated(userId: Option<string>) {
    userId.Some? && userId.value != ""
  }

  /** `session.findFirst({ where: { id: sessionId, userId } })` finds a row. */
  predicate OwnsSession(sessions: map<string, SessionRec>, sessionId: string, userId: string) {
    sessionId in sessions && sessions[sessionId].userId == userId
  }

  /** The intermediate values of an admitted submission, exactly as the handler
      computes them. */
  datatype Trace = Trace(
    answers: seq<AnswerRow>, steps: seq<StepJson>, idx: int, gate: GateMode, hasRubric: bool,
    consult: bool, evaluation: Evaluation, canAdvance: bool, advance: Advance)

  function TraceOf(req: SubmitRequest, session: SessionRec, judge: JudgeOutcome, now: int, db: Db): Trace
    requires ConfigKey(session.wizardId, session.version) in db.configs
  {
    var answers := db.answers + NewAnswerRows(req.sessionId, req.stepId, req.answers, now);
    var steps := StepsOf(db.configs[ConfigKey(session.wizardId, session.version)].json);
    var idx := FindStepIndex(steps, req.stepId);
    var gate := GateModeAt(steps, idx);
    var hasRubric := HasRubric(db.rubrics, session.wizardId, session.version, req.stepId);
    var consult := gate != GateNone && hasRubric;
    var ev := EvaluationFor(consult, judge);
    var canAdvance := ev.stepPass || gate == GateNone || !hasRubric;
    Trace(answers, steps, idx, gate, hasRubric, consult, ev, canAdvance,
          Advancement(steps, idx, req.stepId, canAdvance))
  }

  /** The submit route's POST handler. */
  function Post(userId: Option<string>, body: Option<Json.Value>, judge: JudgeOutcome, now: int, db: Db): (o: Outcome)
    ensures o.response.Unauthorized? <==> !Authenticated(userId)
    ensures o.response.InvalidRequest? <==> Authenticated(userId) && ParseSubmit(body).None?
    ensures o.response.NotFound? <==>
              Authenticated(userId) && ParseSubmit(body).Some?
              && !OwnsSession(db.sessions, ParseSubmit(body).value.sessionId, userId.value)
    ensures o.response.Unauthorized? || o.response.InvalidRequest? || o.response.NotFound? ==>
              o.db == db && o.judgeCall.None?
    ensures o.db.users == db.users && o.db.configs == db.configs && o.db.rubrics == db.rubrics
            && o.db.tokens == db.tokens
    ensures |o.db.answers| >= |db.answers| && o.db.answers[..|db.answers|] == db.answers
  {
    if !Authenticated(userId) then Outcome(Unauthorized, db, None)
    else match ParseSubmit(body)
      case None => Outcome(InvalidRequest, db, None)
      case Some(req) =>
        if !OwnsSession(db.sessions, req.sessionId, userId.value) then Outcome(NotFound, db, None)
        else Admitted(req, db.sessions[req.sessionId], judge, now, db)
  }

  /** The whole route, authentication included: `getAuthedUserId` runs first and,
      under the bypass, upserts the bypass user before anything else happens. The
      environment values, the cookie check's outcome and the id the database would
      give a new user are parameters. */
  function Route(authBypass: Option<string>, bypassEmail: Option<string>, cookieUserId: Option<string>,
                 freshUserId: string, body: Option<Json.Value>, judge: JudgeOutcome, now: int, db: Db): (o: Outcome)
    ensures !AuthServer.BypassEnabled(authBypass) ==>
              o.db.users == db.users && (o.response.Unauthorized? <==> !Authenticated(cookieUserId))
    ensures AuthServer.BypassEnabled(authBypass) ==>
              var e := AuthServer.BypassEmail(bypassEmail);
              && e in o.db.users
              && (e in db.users ==> o.db.users == db.users)
              && (e !in db.users ==> o.db.users == db.users[e := freshUserId])
              && (o.response.Unauthorized? <==> o.db.users[e] == "")
    ensures o.response.Unauthorized? || o.response.InvalidRequest? || o.response.NotFound? ==>
              o.db == db.(users := o.db.users) && o.judgeCall.None?
    ensures o.db.configs == db.configs && o.db.rubrics == db.rubrics && o.db.tokens == db.tokens
    ensures |o.db.answers| >= |db.answers| && o.db.answers[..|db.answers|] == db.answers
  {
    var (userId, users) := AuthServer.GetAuthedUserId(authBypass, bypassEmail, cookieUserId, db.users, freshUserId);
    Post(userId, body, judge, now, db.(users := users))
  }

  /** The part of the handler after the ownership check. */
  function Admitted(req: SubmitRequest, session: SessionRec, judge: JudgeOutcome, now: int, db: Db): (o: Outcome)
    ensures o.db.users == db.users && o.db.configs == db.configs && o.db.rubrics == db.rubrics
            && o.db.tokens == db.tokens
    ensures o.db.answers == db.answers + NewAnswerRows(req.sessionId, req.stepId, req.answers, now)
  {
    var answers := db.answers + NewAnswerRows(req.sessionId, req.stepId, req.answers, now);
    if ConfigKey(session.wizardId, session.version) !in db.configs then
      Outcome(ConfigNotFound, db.(answers := answers), None)
    else
      var t := TraceOf(req, session, judge, now, db);
      var call :=
        if t.consult then
          Some(JudgeCall(req.stepId,
                         LatestByQuestion(Recency.SortDesc(StepAnswers(t.answers, req.sessionId, req.stepId), AnswerAt)),
                         session.wizardId, session.version))
        else None;
      var fb := ClearFeedback(db.feedback, req.sessionId, req.stepId)
                + [FeedbackRow(req.sessionId, req.stepId, None, VerdictFromEval(t.evaluation), t.evaluation, now)];
      var updated := ApplyAdvance(session, t.advance);
      Outcome(Submitted(t.evaluation, updated.stepId, updated.status),
              db.(answers := t.answers, feedback := fb, sessions := db.sessions[req.sessionId := updated]),
              call)
  }
}

=== FILE: submit_props.dfy ===
/**
 * What the submit handler guarantees, stated over all inputs, and what it does on
 * the seeded database for the published wizard version.
 */
module SubmitProps {

  import opened Wrappers
  import Json
  import opened Store
  import opened Submit
  import Recency
  import WizardConfig
  import Seed

  /** The request gets past authentication, validation and the ownership check. */
  predicate Admits(userId: Option<string>, body: Option<Json.Value>, db: Db) {
    && Authenticated(userId)
    && ParseSubmit(body).Some?
    && OwnsSession(db.sessions, ParseSubmit(body).value.sessionId, userId.value)
  }

  /** The stored configuration the handler finds for an admitted request. */
  predicate HasConfig(body: Option<Json.Value>, db: Db)
    requires ParseSubmit(body).Some? && ParseSubmit(body).value.sessionId in db.sessions
  {
    var s := db.sessions[ParseSubmit(body).value.sessionId];
    ConfigKey(s.wizardId, s.version) in db.configs
  }

  /** The configured steps of an admitted request's session. */
  function ConfiguredSteps(body: Option<Json.Value>, db: Db): seq<StepJson>
    requires ParseSubmit(body).Some? && ParseSubmit(body).value.sessionId in db.sessions
    requires HasConfig(body, db)
  {
    var s := db.sessions[ParseSubmit(body).value.sessionId];
    StepsOf(db.configs[ConfigKey(s.wizardId, s.version)].json)
  }

  /** Each submitted answer becomes exactly one new row tagged with the session and
      the submitted step, appended after the existing rows, whether or not the
      configuration is then found; an empty list writes nothing. */
  lemma AnswersAppended(userId: Option<string>, body: Option<Json.Value>, judge: JudgeOutcome, now: int, db: Db)
    requires Admits(userId, body, db)
    ensures var o := Post(userId, body, judge, now, db);
            var req := ParseSubmit(body).value;
            && |o.db.answers| == |db.answers| + |req.answers|
            && o.db.answers[..|db.answers|] == db.answers
            && (forall i :: 0 <= i < |req.answers| ==>
                  o.db.answers[|db.answers| + i]
                    == AnswerRow(req.sessionId, req.stepId, req.answers[i].questionId, req.answers[i].value, now))
            && (req.answers == [] ==> o.db.answers == db.answers)
  {
    var req := ParseSubmit(body).value;
    var o := Post(userId, body, judge, now, db);
    var added := NewAnswerRows(req.sessionId, req.stepId, req.answers, now);
    assert o.db.answers == db.answers + added;
    forall i | 0 <= i < |req.answers|
      ensures o.db.answers[|db.answers| + i]
                == AnswerRow(req.sessionId, req.stepId, req.answers[i].questionId, req.answers[i].value, now)
    {
      assert o.db.answers[|db.answers| + i] == added[i];
    }
    if req.answers == [] {
      assert added == [];
    }
  }

  /** A session whose wizard version has no stored configuration gets a 500, yet the
      answers are already written; nothing else changes. */
  lemma MissingConfigKeepsAnswers(userId: Option<string>, body: Option<Json.Value>, judge: JudgeOutcome, now: int, db: Db)
    requires Admits(userId, body, db)
    ensures var o := Post(userId, body, judge, now, db);
            var req := ParseSubmit(body).value;
            && (o.response == ConfigNotFound <==> !HasConfig(body, db))
            && (o.response == ConfigNotFound ==>
                  && HttpStatus(o.response) == 500
                  && o.db == db.(answers := db.answers + NewAnswerRows(req.sessionId, req.stepId, req.answers, now))
                  && o.judgeCall.None?)
  {
  }

  /** The judge is consulted exactly when the step's gate is soft or hard and a rubric
      row exists; otherwise the evaluation is the default pass. */
  lemma JudgeConsultedIff(userId: Option<string>, body: Option<Json.Value>, judge: JudgeOutcome, now: int, db: Db)
    requires Admits(userId, body, db) && HasConfig(body, db)
    ensures var o := Post(userId, body, judge, now, db);
            var req := ParseSubmit(body).value;
            var s := db.sessions[req.sessionId];
            var steps := ConfiguredSteps(body, db);
            var gate := GateModeAt(steps, FindStepIndex(steps, req.stepId));
            var rubric := HasRubric(db.rubrics, s.wizardId, s.version, req.stepId);
            && o.response.Submitted?
            && (o.judgeCall.Some? <==> gate != GateNone && rubric)
            && (o.judgeCall.Some? ==> o.judgeCall.value.stepId == req.stepId
                                      && o.judgeCall.value.wizardId == s.wizardId
                                      && o.judgeCall.value.version == s.version)
            && (o.judgeCall.None? ==> o.response.evaluation == Evaluation(true, [], []))
            && (o.judgeCall.Some? && judge.Judged? ==> o.response.evaluation == judge.evaluation)
  {
  }

  /** A judge that throws yields a failing evaluation with exactly one global message
      and no per-question results. */
  lemma JudgeFailureSynthesised(userId: Option<string>, body: Option<Json.Value>, now: int, db: Db)
    requires Admits(userId, body, db) && HasConfig(body, db)
    ensures var o := Post(userId, body, JudgeFailed, now, db);
            o.judgeCall.Some? ==>
              && !o.response.evaluation.stepPass
              && |o.response.evaluation.globalFeedback| == 1
              && o.response.evaluation.questionResults == []
  {
  }

  /** The judge receives each of the step's questions once, exactly the questions
      that have a row for the step (including the rows just written), each with the
      value of its latest row, the earliest-written one among equal timestamps; that
      is the latest row for the session, step and question in the whole answer log. */
  lemma JudgeGetsLatestAnswers(userId: Option<string>, body: Option<Json.Value>, judge: JudgeOutcome, now: int, db: Db, q: string)
    requires Admits(userId, body, db) && HasConfig(body, db)
    ensures var o := Post(userId, body, judge, now, db);
            var req := ParseSubmit(body).value;
            var rows := StepAnswers(o.db.answers, req.sessionId, req.stepId);
            o.judgeCall.Some? ==>
              && DistinctQuestions(o.judgeCall.value.answers)
              && (HasQuestion(o.judgeCall.value.answers, q) <==>
                    exists i :: 0 <= i < |rows| && rows[i].questionId == q)
              && Lookup(o.judgeCall.value.answers, q)
                   == ValueOf(Recency.Latest(rows, AnswerAt, AnswerQuestion, q))
              && Lookup(o.judgeCall.value.answers, q)
                   == ValueOf(Recency.Latest(o.db.answers, AnswerAt, AnswerSlotQuestion, ((req.sessionId, req.stepId), q)))
  {
    var o := Post(userId, body, judge, now, db);
    var req := ParseSubmit(body).value;
    var rows := StepAnswers(o.db.answers, req.sessionId, req.stepId);
    if o.judgeCall.Some? {
      assert o.judgeCall.value.answers == LatestByQuestion(Recency.SortDesc(rows, AnswerAt));
      JudgeMapOfRows(rows, q);
      Recency.LatestOfFilter(o.db.answers, AnswerAt, AnswerSlot, (req.sessionId, req.stepId), AnswerQuestion, q,
                             AnswerSlotQuestion, ((req.sessionId, req.stepId), q));
    }
  }

  /** The judge map built from the newest-first sort of some rows holds each question
      once, exactly the questions of the rows, each with its latest row's value. */
  lemma JudgeMapOfRows(rows: seq<AnswerRow>, q: string)
    ensures var m := LatestByQuestion(Recency.SortDesc(rows, AnswerAt));
            && DistinctQuestions(m)
            && (HasQuestion(m, q) <==> exists i :: 0 <= i < |rows| && rows[i].questionId == q)
            && Lookup(m, q) == ValueOf(Recency.Latest(rows, AnswerAt, AnswerQuestion, q))
  {
    var sorted := Recency.SortDesc(rows, AnswerAt);
    LatestByQuestionSpec(sorted, q);
    Recency.FirstOfSortIsLatest(rows, AnswerAt, AnswerQuestion, q);
    if exists i :: 0 <= i < |rows| && rows[i].questionId == q {
      var i :| 0 <= i < |rows| && rows[i].questionId == q;
      assert rows[i] in multiset(sorted);
      var j :| 0 <= j < |sorted| && sorted[j] == rows[i];
    }
    if exists j :: 0 <= j < |sorted| && sorted[j].questionId == q {
      var j :| 0 <= j < |sorted| && sorted[j].questionId == q;
      assert sorted[j] in multiset(rows);
      var i :| 0 <= i < |rows| && rows[i] == sorted[j];
    }
  }

  /** Whatever order the database returns equal-newest rows in, when the step's rows
      for a question carry distinct timestamps the judge gets the same value for it:
      the question's latest one. Rows of different questions may share a timestamp. */
  lemma JudgeAnswersOrderFree(rows: seq<AnswerRow>, stepRows: seq<AnswerRow>, q: string)
    requires Recency.SortedDesc(rows, AnswerAt)
    requires multiset(rows) == multiset(stepRows)
    requires Recency.DistinctStampsFor(stepRows, AnswerAt, AnswerQuestion, q)
    ensures Lookup(LatestByQuestion(rows), q) == ValueOf(Recency.Latest(stepRows, AnswerAt, AnswerQuestion, q))
  {
    LatestByQuestionSpec(rows, q);
    Recency.FirstOfAnyOrderIsLatest(rows, stepRows, AnswerAt, AnswerQuestion, q);
  }

  /** The hypothesis of JudgeAnswersOrderFree survives a submission that answers each
      question at most once, at a time later than every stored row, although all of
      its rows share one timestamp. */
  lemma SubmissionKeepsStampsDistinct(log: seq<AnswerRow>, sessionId: string, stepId: string, answers: seq<SubmitAnswer>, now: int, q: string)
    requires Recency.DistinctStampsFor(log, AnswerAt, AnswerQuestion, q)
    requires forall i :: 0 <= i < |log| ==> log[i].createdAt < now
    requires forall a, b :: 0 <= a < b < |answers| ==> answers[a].questionId != answers[b].questionId
    ensures Recency.DistinctStampsFor(log + NewAnswerRows(sessionId, stepId, answers, now), AnswerAt, AnswerQuestion, q)
  {
    var r := NewAnswerRows(sessionId, stepId, answers, now);
    var s := log + r;
    forall i, j | 0 <= i < j < |s| && AnswerQuestion(s[i]) == q && AnswerQuestion(s[j]) == q
      ensures AnswerAt(s[i]) != AnswerAt(s[j])
    {
      if j < |log| {
        assert s[i] == log[i] && s[j] == log[j];
      } else if i < |log| {
        assert s[i] == log[i] && s[j] == r[j - |log|];
      } else {
        assert false;
      }
    }
  }

  /** After a submission the step has exactly one feedback row: the new one, whose
      verdict is pass exactly when the evaluation passes and whose payload is the
      evaluation returned. Feedback of every other (session, step) is kept. */
  lemma OneFeedbackRow(userId: Option<string>, body: Option<Json.Value>, judge: JudgeOutcome, now: int, db: Db)
    requires Admits(userId, body, db) && HasConfig(body, db)
    ensures var o := Post(userId, body, judge, now, db);
            var req := ParseSubmit(body).value;
            && o.response.Submitted?
            && CountFor(o.db.feedback, req.sessionId, req.stepId) == 1
            && |o.db.feedback| > 0
            && (var last := o.db.feedback[|o.db.feedback| - 1];
                && FeedbackSlot(last) == (req.sessionId, req.stepId)
                && last.questionId.None?
                && (last.verdict == Pass <==> o.response.evaluation.stepPass)
                && last.payload == o.response.evaluation)
            && (forall i :: 0 <= i < |db.feedback| && FeedbackSlot(db.feedback[i]) != (req.sessionId, req.stepId) ==>
                  db.feedback[i] in o.db.feedback)
            && (forall i :: 0 <= i < |o.db.feedback| - 1 ==>
                  o.db.feedback[i] in db.feedback && FeedbackSlot(o.db.feedback[i]) != (req.sessionId, req.stepId))
  {
    var o := Post(userId, body, judge, now, db);
    var req := ParseSubmit(body).value;
    var kept := ClearFeedback(db.feedback, req.sessionId, req.stepId);
    var row := o.db.feedback[|o.db.feedback| - 1];
    assert o.db.feedback == kept + [row];
    CountForNone(kept, req.sessionId, req.stepId);
    CountForAppend(kept, [row], req.sessionId, req.stepId);
    assert [row][1..] == [];
  }

  /** The three advancement cases, and the step-not-configured case. A step that may
      be advanced (it passed, or is ungated, or has no rubric) completes the session
      at the last configured index keeping the submitted id, and moves to the next
      step's id at an earlier index with the status unchanged; a blocked step sets the
      pointer to the SUBMITTED step, whatever it pointed at; a step missing from the
      configuration leaves the session as it was. The response reports the row. */
  lemma AdvancementCases(userId: Option<string>, body: Option<Json.Value>, judge: JudgeOutcome, now: int, db: Db)
    requires Admits(userId, body, db) && HasConfig(body, db)
    ensures var o := Post(userId, body, judge, now, db);
            var req := ParseSubmit(body).value;
            var s := db.sessions[req.sessionId];
            var steps := ConfiguredSteps(body, db);
            var idx := FindStepIndex(steps, req.stepId);
            var gate := GateModeAt(steps, idx);
            var rubric := HasRubric(db.rubrics, s.wizardId, s.version, req.stepId);
            var canAdvance := o.response.evaluation.stepPass || gate == GateNone || !rubric;
            var s' := o.db.sessions[req.sessionId];
            && req.sessionId in o.db.sessions
            && o.response == Submitted(o.response.evaluation, s'.stepId, s'.status)
            && s'.id == s.id && s'.userId == s.userId && s'.wizardId == s.wizardId && s'.version == s.version
            && (canAdvance && 0 <= idx == |steps| - 1 ==> s'.stepId == req.stepId && s'.status == Complete)
            && (canAdvance && 0 <= idx < |steps| - 1 && Truthy(steps[idx + 1].id) ==>
                  s'.stepId == steps[idx + 1].id.value && s'.status == s.status)
            && (canAdvance && 0 <= idx < |steps| - 1 && !Truthy(steps[idx + 1].id) ==> s' == s)
            && (idx == -1 ==> s' == s && o.judgeCall.None?)
            && (!canAdvance ==> s'.stepId == req.stepId && s'.status == s.status)
            && (forall k :: k in db.sessions && k != req.sessionId ==> k in o.db.sessions && o.db.sessions[k] == db.sessions[k])
  {
  }

  /** A failing judged submission of a step that is gated and has a rubric stays on
      that step: the judge is consulted, its evaluation is returned, and the session
      keeps its status. */
  lemma GatedFailureStays(userId: Option<string>, body: Option<Json.Value>, ev: Evaluation, now: int, db: Db)
    requires Admits(userId, body, db) && HasConfig(body, db)
    requires var req := ParseSubmit(body).value;
             var s := db.sessions[req.sessionId];
             var steps := ConfiguredSteps(body, db);
             && FindStepIndex(steps, req.stepId) >= 0
             && GateModeAt(steps, FindStepIndex(steps, req.stepId)) != GateNone
             && HasRubric(db.rubrics, s.wizardId, s.version, req.stepId)
    requires !ev.stepPass
    ensures var o := Post(userId, body, Judged(ev), now, db);
            var req := ParseSubmit(body).value;
            && o.judgeCall.Some?
            && o.response == Submitted(ev, req.stepId, db.sessions[req.sessionId].status)
  {
    AdvancementCases(userId, body, Judged(ev), now, db);
    JudgeConsultedIff(userId, body, Judged(ev), now, db);
  }

  /** A passing judged submission of a step that is found and is not the last moves the
      session to the next configured step when that step has an id, keeping its status. */
  lemma PassMovesOn(userId: Option<string>, body: Option<Json.Value>, ev: Evaluation, now: int, db: Db)
    requires Admits(userId, body, db) && HasConfig(body, db)
    requires var req := ParseSubmit(body).value;
             var steps := ConfiguredSteps(body, db);
             var idx := FindStepIndex(steps, req.stepId);
             0 <= idx < |steps| - 1 && Truthy(steps[idx + 1].id)
    requires ev.stepPass
    ensures var o := Post(userId, body, Judged(ev), now, db);
            var req := ParseSubmit(body).value;
            var steps := ConfiguredSteps(body, db);
            var idx := FindStepIndex(steps, req.stepId);
            && o.response.Submitted?
            && o.response.stepId == steps[idx + 1].id.value
            && o.response.status == db.sessions[req.sessionId].status
  {
    AdvancementCases(userId, body, Judged(ev), now, db);
    JudgeConsultedIff(userId, body, Judged(ev), now, db);
  }

  // ---------------------------------------------------------------- on the seeded database

  /** A session of the seeded wizard version. */
  predicate SeededSession(db: Db, sessionId: string) {
    sessionId in db.sessions
    && db.sessions[sessionId].wizardId == Seed.SeedWizardId
    && db.sessions[sessionId].version == Seed.SeedVersion
  }

  /** On the seeded database, the handler resolves step `j` of version 1 to index `j`
      of eight, reads its gate mode, and finds a rubric exactly when the step is gated. */
  lemma SeededGating(db: Db, j: nat)
    requires Seed.NoSeededRubrics(db.rubrics)
    requires j < |WizardConfig.WizardConfigV1.steps|
    ensures var d := Seed.SeedDb(db);
            var steps := StepsOf(d.configs[ConfigKey(Seed.SeedWizardId, Seed.SeedVersion)].json);
            var step := WizardConfig.WizardConfigV1.steps[j];
            && |steps| == 8
            && FindStepIndex(steps, step.id) == j
            && (GateModeAt(steps, j) == GateNone <==> step.gate.NoGate?)
            && (GateModeAt(steps, j) == GateHard <==> step.gate.HardGate?)
            && (HasRubric(d.rubrics, Seed.SeedWizardId, Seed.SeedVersion, step.id) <==> !step.gate.NoGate?)
  {
    SeededStepFound(db, j);
    SeededRubricIffGated(db, j);
  }

  /** The stored steps of the seeded configuration: step `j` is found at index `j`
      and keeps its gate mode. */
  lemma SeededStepFound(db: Db, j: nat)
    requires j < |WizardConfig.WizardConfigV1.steps|
    ensures var steps := StepsOf(Seed.SeedDb(db).configs[ConfigKey(Seed.SeedWizardId, Seed.SeedVersion)].json);
            var step := WizardConfig.WizardConfigV1.steps[j];
            && |steps| == 8
            && FindStepIndex(steps, step.id) == j
            && (GateModeAt(steps, j) == GateNone <==> step.gate.NoGate?)
            && (GateModeAt(steps, j) == GateHard <==> step.gate.HardGate?)
  {
    var cfg := WizardConfig.WizardConfigV1;
    var steps := Seed.ConfigToJson(cfg).steps.value;
    assert StepsOf(Seed.SeedDb(db).configs[ConfigKey(Seed.SeedWizardId, Seed.SeedVersion)].json) == steps;
    var step := cfg.steps[j];
    WizardConfig.V1StepIds();
    var ids := WizardConfig.StepIds(cfg.steps);
    assert steps[j].id == Some(step.id);
    var r := FindStepIndex(steps, step.id);
    assert r != -1;
    assert ids[r] == ids[j];
  }

  /** On the seeded database a rubric exists for step `j` exactly when it is gated. */
  lemma SeededRubricIffGated(db: Db, j: nat)
    requires Seed.NoSeededRubrics(db.rubrics)
    requires j < |WizardConfig.WizardConfigV1.steps|
    ensures var step := WizardConfig.WizardConfigV1.steps[j];
            HasRubric(Seed.SeedDb(db).rubrics, Seed.SeedWizardId, Seed.SeedVersion, step.id) <==> !step.gate.NoGate?
  {
    var cfg := WizardConfig.WizardConfigV1;
    var step := cfg.steps[j];
    Seed.SeededRubricLookup(db, step.id);
    if !step.gate.NoGate? {
      Seed.GatedStepsHaveRubrics();
      assert step in cfg.steps;
    }
    if exists i :: 0 <= i < |Seed.Rubrics| && Seed.Rubrics[i].stepId == step.id {
      var i :| 0 <= i < |Seed.Rubrics| && Seed.Rubrics[i].stepId == step.id;
      Seed.EntryMatches(i);
      WizardConfig.V1StepIds();
      var ids := WizardConfig.StepIds(cfg.steps);
      assert ids[i + 1] == ids[j];
    }
  }

  /** Submitting the last step of version 1 completes the session, whatever step the
      session points at and whatever its status: the submitted step id is never
      compared with the stored one. */
  lemma LastStepCompletesFromAnywhere(userId: Option<string>, body: Option<Json.Value>, judge: JudgeOutcome, now: int, db: Db)
    requires Seed.NoSeededRubrics(db.rubrics)
    requires Admits(userId, body, Seed.SeedDb(db))
    requires SeededSession(db, ParseSubmit(body).value.sessionId)
    requires ParseSubmit(body).value.stepId == "s7_review"
    ensures var o := Post(userId, body, judge, now, Seed.SeedDb(db));
            && o.judgeCall.None?
            && o.response == Submitted(Evaluation(true, [], []), "s7_review", Complete)
  {
    SeededGating(db, 7);
    AdvancementCases(userId, body, judge, now, Seed.SeedDb(db));
    JudgeConsultedIff(userId, body, judge, now, Seed.SeedDb(db));
  }

  /** A session already marked complete is still accepted: a failing submission of a
      hard-gated step of version 1 points it back at that step and leaves it complete. */
  lemma CompletedSessionMovedBack(userId: Option<string>, body: Option<Json.Value>, ev: Evaluation, now: int, db: Db)
    requires Seed.NoSeededRubrics(db.rubrics)
    requires Admits(userId, body, Seed.SeedDb(db))
    requires SeededSession(db, ParseSubmit(body).value.sessionId)
    requires db.sessions[ParseSubmit(body).value.sessionId].status == Complete
    requires ParseSubmit(body).value.stepId == "s1_outcomes"
    requires !ev.stepPass
    ensures var o := Post(userId, body, Judged(ev), now, Seed.SeedDb(db));
            && o.judgeCall.Some?
            && o.response == Submitted(ev, "s1_outcomes", Complete)
  {
    SeededGating(db, 1);
    GatedFailureStays(userId, body, ev, now, Seed.SeedDb(db));
  }

  /** A soft gate with a rubric blocks just as a hard one does: a failing submission
      of the soft-gated learner-profile step of version 1 stays on that step. */
  lemma SoftGateBlocks(userId: Option<string>, body: Option<Json.Value>, ev: Evaluation, now: int, db: Db)
    requires Seed.NoSeededRubrics(db.rubrics)
    requires Admits(userId, body, Seed.SeedDb(db))
    requires SeededSession(db, ParseSubmit(body).value.sessionId)
    requires ParseSubmit(body).value.stepId == "s3_learners"
    requires !ev.stepPass
    ensures var o := Post(userId, body, Judged(ev), now, Seed.SeedDb(db));
            var s := db.sessions[ParseSubmit(body).value.sessionId];
            o.response == Submitted(ev, "s3_learners", s.status)
  {
    SeededGating(db, 3);
    GatedFailureStays(userId, body, ev, now, Seed.SeedDb(db));
  }

  /** A passing submission of a gated step of version 1 other than the last moves the
      session to the next step of version 1. */
  lemma PassAdvancesToNextStep(userId: Option<string>, body: Option<Json.Value>, ev: Evaluation, now: int, db: Db, j: nat)
    requires Seed.NoSeededRubrics(db.rubrics)
    requires Admits(userId, body, Seed.SeedDb(db))
    requires SeededSession(db, ParseSubmit(body).value.sessionId)
    requires j + 1 < |WizardConfig.WizardConfigV1.steps|
    requires ParseSubmit(body).value.stepId == WizardConfig.WizardConfigV1.steps[j].id
    requires ev.stepPass
    ensures var o := Post(userId, body, Judged(ev), now, Seed.SeedDb(db));
            var s := db.sessions[ParseSubmit(body).value.sessionId];
            o.response.Submitted?
            && o.response.stepId == WizardConfig.WizardConfigV1.steps[j + 1].id
            && o.response.status == s.status
  {
    SeededGating(db, j);
    WizardConfig.V1StepIds();
    PassMovesOn(userId, body, ev, now, Seed.SeedDb(db));
  }
}

=== FILE: text.dfy ===
/**
 * String operations of the JavaScript runtime that the modelled code relies on:
 * `String.prototype.trim` and `toLowerCase`.
 */
module Text {

  /** The characters `String.prototype.trim` removes: the ECMAScript WhiteSpace and
      LineTerminator productions (TAB, VT, FF, SP, NBSP, ZWNBSP, category Zs, LF, CR, LS, PS). */
  predicate IsJsWhitespace(c: char) {
    || c == '\t' || c == '\n' || c == '\U{000B}' || c == '\U{000C}' || c == '\r'
    || c == ' ' || c == '\U{00A0}' || c == '\U{1680}'
    || ('\U{2000}' <= c <= '\U{200A}')
    || c == '\U{2028}' || c == '\U{2029}' || c == '\U{202F}' || c == '\U{205F}'
    || c == '\U{3000}' || c == '\U{FEFF}'
  }

  /** The line terminators, which the regular-expression `.` does not match. */
  predicate IsLineTerminator(c: char) {
    c == '\n' || c == '\r' || c == '\U{2028}' || c == '\U{2029}'
  }

  predicate AllWhitespace(s: string) {
    forall k :: 0 <= k < |s| ==> IsJsWhitespace(s[k])
  }

  /** No whitespace at either end. */
  predicate Trimmed(s: string) {
    |s| == 0 || (!IsJsWhitespace(s[0]) && !IsJsWhitespace(s[|s| - 1]))
  }

  function TrimStart(s: string): (r: string)
    ensures |r| <= |s| && r == s[|s| - |r|..]
    ensures AllWhitespace(s[..|s| - |r|])
    ensures |r| == 0 || !IsJsWhitespace(r[0])
  {
    if |s| > 0 && IsJsWhitespace(s[0]) then
      var r := TrimStart(s[1..]);
      TrimStartStep(s, r);
      r
    else s
  }

  /** One step of TrimStart: a suffix of `s[1..]` with only whitespace before it is
      such a suffix of `s` when `s[0]` is whitespace. */
  lemma TrimStartStep(s: string, r: string)
    requires |s| > 0 && IsJsWhitespace(s[0])
    requires |r| <= |s| - 1 && r == s[1..][|s| - 1 - |r|..]
    requires AllWhitespace(s[1..][..|s| - 1 - |r|])
    ensures r == s[|s| - |r|..]
    ensures AllWhitespace(s[..|s| - |r|])
  {
    var n := |s| - |r|;
    assert s[1..][n - 1..] == s[n..];
    forall k | 0 <= k < n ensures IsJsWhitespace(s[..n][k]) {
      if k > 0 {
        assert s[..n][k] == s[1..][..n - 1][k - 1];
      }
    }
  }

  function TrimEnd(s: string): (r: string)
    ensures |r| <= |s| && r == s[..|r|]
    ensures AllWhitespace(s[|r|..])
    ensures |r| == 0 || !IsJsWhitespace(r[|r| - 1])
  {
    if |s| > 0 && IsJsWhitespace(s[|s| - 1]) then
      var r := TrimEnd(s[..|s| - 1]);
      assert s[|r|..] == s[..|s| - 1][|r|..] + [s[|s| - 1]];
      WhitespaceSnoc(s[..|s| - 1][|r|..], s[|s| - 1]);
      r
    else s
  }

  lemma WhitespaceSnoc(t: string, c: char)
    requires AllWhitespace(t) && IsJsWhitespace(c)
    ensures AllWhitespace(t + [c])
  {
    forall k | 0 <= k < |t| + 1 ensures IsJsWhitespace((t + [c])[k]) {
      if k < |t| {
        assert (t + [c])[k] == t[k];
      }
    }
  }

  /** `String.prototype.trim`: whitespace removed from both ends. What it cuts away
      is stated by TrimCutsWhitespace. */
  function Trim(s: string): (r: string)
    ensures Trimmed(r)
    ensures |r| <= |s|
  {
    TrimEnd(TrimStart(s))
  }

  /** Where the part that trim keeps begins: the number of leading whitespace characters. */
  function TrimOffset(s: string): int {
    |s| - |TrimStart(s)|
  }

  /** Trim keeps a slice of the input and removes only whitespace around it. */
  lemma {:induction false} TrimCutsWhitespace(s: string)
    ensures var i := TrimOffset(s); var r := Trim(s);
            && 0 <= i <= |s| - |r| && s[i..i + |r|] == r
            && AllWhitespace(s[..i]) && AllWhitespace(s[i + |r|..])
  {
    TrimCutsSlice(s);
    TrimCutsTail(s);
  }

  lemma {:induction false} TrimCutsSlice(s: string)
    ensures var i := TrimOffset(s); var r := Trim(s);
            0 <= i <= |s| - |r| && s[i..i + |r|] == r
  {
    var a := TrimStart(s);
    SliceOfSlice(s, |s| - |a|, |TrimEnd(a)|);
  }

  /** Taking `m` elements of the suffix from `i` is the slice from `i` to `i + m`. */
  lemma SliceOfSlice(s: string, i: nat, m: nat)
    requires i + m <= |s|
    ensures s[i..][..m] == s[i..i + m]
  {
  }

  lemma {:induction false} TrimCutsTail(s: string)
    ensures var i := TrimOffset(s); var r := Trim(s);
            0 <= i <= |s| - |r| && AllWhitespace(s[i + |r|..])
  {
  }

  /** A string of whitespace only trims to nothing from the start. */
  lemma {:induction false} TrimStartOfWhitespace(s: string)
    requires AllWhitespace(s)
    ensures TrimStart(s) == []
  {
    if |s| > 0 {
      assert AllWhitespace(s[1..]) by {
        forall k | 0 <= k < |s| - 1 ensures IsJsWhitespace(s[1..][k]) {
          assert s[1..][k] == s[k + 1];
        }
      }
      TrimStartOfWhitespace(s[1..]);
    }
  }

  lemma {:induction false} TrimStartAfterWhitespace(p: string, s: string)
    requires AllWhitespace(p)
    ensures TrimStart(p + s) == TrimStart(s)
  {
    if |p| > 0 {
      assert (p + s)[1..] == p[1..] + s;
      TrimStartAfterWhitespace(p[1..], s);
    } else {
      assert p + s == s;
    }
  }

  lemma {:induction false} TrimEndBeforeWhitespace(s: string, q: string)
    requires AllWhitespace(q)
    ensures TrimEnd(s + q) == TrimEnd(s)
  {
    if |q| > 0 {
      assert (s + q)[..|s + q| - 1] == s + q[..|q| - 1];
      TrimEndBeforeWhitespace(s, q[..|q| - 1]);
    } else {
      assert s + q == s;
    }
  }

  lemma AllWhitespaceCons(s: string)
    requires |s| > 0 && IsJsWhitespace(s[0])
    ensures AllWhitespace(s) <==> AllWhitespace(s[1..])
  {
    if AllWhitespace(s[1..]) {
      forall k | 0 < k < |s| ensures IsJsWhitespace(s[k]) {
        assert s[k] == s[1..][k - 1];
      }
    }
    if AllWhitespace(s) {
      forall k | 0 <= k < |s| - 1 ensures IsJsWhitespace(s[1..][k]) {
        assert s[1..][k] == s[k + 1];
      }
    }
  }

  /** Appending whitespace only moves into TrimStart's result when something is left. */
  lemma {:induction false} TrimStartAppend(s: string, q: string)
    ensures TrimStart(s + q) == (if AllWhitespace(s) then TrimStart(q) else TrimStart(s) + q)
  {
    if |s| == 0 {
      assert s + q == q;
    } else if IsJsWhitespace(s[0]) {
      assert (s + q)[1..] == s[1..] + q;
      TrimStartAppend(s[1..], q);
      AllWhitespaceCons(s);
    } else {
      assert !AllWhitespace(s);
    }
  }

  /** Surrounding whitespace does not change the result of trim. */
  lemma {:induction false} TrimIgnoresPadding(p: string, s: string, q: string)
    requires AllWhitespace(p) && AllWhitespace(q)
    ensures Trim(p + s + q) == Trim(s)
  {
    TrimStartOfPadded(p, s, q);
    TrimIgnoresTrailing(s, q);
  }

  /** Leading whitespace does not change TrimStart. */
  lemma {:induction false} TrimStartOfPadded(p: string, s: string, q: string)
    requires AllWhitespace(p)
    ensures TrimStart(p + s + q) == TrimStart(s + q)
  {
    ConcatAssoc(p, s, q);
    TrimStartAfterWhitespace(p, s + q);
  }

  /** Concatenation is associative. */
  lemma ConcatAssoc(p: string, s: string, q: string)
    ensures p + s + q == p + (s + q)
  {
  }

  /** Trailing whitespace does not change the result of trim. */
  lemma {:induction false} TrimIgnoresTrailing(s: string, q: string)
    requires AllWhitespace(q)
    ensures Trim(s + q) == Trim(s)
  {
    TrimStartAppend(s, q);
    if AllWhitespace(s) {
      TrimStartOfWhitespace(s);
      TrimStartOfWhitespace(q);
    } else {
      TrimEndBeforeWhitespace(TrimStart(s), q);
    }
  }

  function LowerChar(c: char): char {
    if 'A' <= c <= 'Z' then (c as int + 32) as char else c
  }

  function UpperChar(c: char): char {
    if 'a' <= c <= 'z' then (c as int - 32) as char else c
  }

  /** `String.prototype.toLowerCase`, restricted to the ASCII letters. */
  function ToLower(s: string): (r: string)
    ensures |r| == |s|
    ensures forall k :: 0 <= k < |s| ==> r[k] == LowerChar(s[k])
  {
    seq(|s|, k requires 0 <= k < |s| => LowerChar(s[k]))
  }

  /** `String.prototype.toUpperCase`, restricted to the ASCII letters. */
  function ToUpper(s: string): (r: string)
    ensures |r| == |s|
    ensures forall k :: 0 <= k < |s| ==> r[k] == UpperChar(s[k])
  {
    seq(|s|, k requires 0 <= k < |s| => UpperChar(s[k]))
  }

  /** Upper-casing first does not change what lower-casing yields. */
  lemma LowerOfUpper(s: string)
    ensures ToLower(ToUpper(s)) == ToLower(s)
  {
  }

  /** Case changes never turn a letter into whitespace, so trim and upper-case commute. */
  lemma {:induction false} TrimOfUpper(s: string)
    ensures Trim(ToUpper(s)) == ToUpper(Trim(s))
  {
    TrimStartOfUpper(s);
    TrimEndOfUpper(TrimStart(s));
  }

  lemma {:induction false} TrimStartOfUpper(s: string)
    ensures TrimStart(ToUpper(s)) == ToUpper(TrimStart(s))
  {
    if |s| > 0 {
      UpperKeepsWhitespace(s[0]);
      var t := ToUpper(s);
      assert t[0] == UpperChar(s[0]);
      if IsJsWhitespace(s[0]) {
        UpperTail(s);
        TrimStartOfUpper(s[1..]);
      }
    }
  }

  lemma UpperTail(s: string)
    requires |s| > 0
    ensures ToUpper(s)[1..] == ToUpper(s[1..])
  {
  }

  lemma UpperHead(s: string)
    requires |s| > 0
    ensures ToUpper(s)[..|s| - 1] == ToUpper(s[..|s| - 1])
  {
  }

  /** Case changes map whitespace to whitespace and nothing else to it. */
  lemma UpperKeepsWhitespace(c: char)
    ensures IsJsWhitespace(UpperChar(c)) <==> IsJsWhitespace(c)
  {
  }

  lemma {:induction false} TrimEndOfUpper(s: string)
    ensures TrimEnd(ToUpper(s)) == ToUpper(TrimEnd(s))
  {
    if |s| > 0 {
      UpperKeepsWhitespace(s[|s| - 1]);
      var t := ToUpper(s);
      assert t[|s| - 1] == UpperChar(s[|s| - 1]);
      if IsJsWhitespace(s[|s| - 1]) {
        UpperHead(s);
        TrimEndOfUpper(s[..|s| - 1]);
      }
    }
  }

  /** Likewise trim and lower-case commute. */
  lemma {:induction false} TrimOfLower(s: string)
    ensures Trim(ToLower(s)) == ToLower(Trim(s))
  {
    TrimStartOfLower(s);
    TrimEndOfLower(TrimStart(s));
  }

  lemma {:induction false} TrimStartOfLower(s: string)
    ensures TrimStart(ToLower(s)) == ToLower(TrimStart(s))
  {
    if |s| > 0 {
      LowerKeepsWhitespace(s[0]);
      var t := ToLower(s);
      assert t[0] == LowerChar(s[0]);
      if IsJsWhitespace(s[0]) {
        LowerTail(s);
        TrimStartOfLower(s[1..]);
      }
    }
  }

  lemma LowerTail(s: string)
    requires |s| > 0
    ensures ToLower(s)[1..] == ToLower(s[1..])
  {
  }

  lemma LowerHead(s: string)
    requires |s| > 0
    ensures ToLower(s)[..|s| - 1] == ToLower(s[..|s| - 1])
  {
  }

  /** Case changes map whitespace to whitespace and nothing else to it. */
  lemma LowerKeepsWhitespace(c: char)
    ensures IsJsWhitespace(LowerChar(c)) <==> IsJsWhitespace(c)
  {
  }

  lemma {:induction false} TrimEndOfLower(s: string)
    ensures TrimEnd(ToLower(s)) == ToLower(TrimEnd(s))
  {
    if |s| > 0 {
      LowerKeepsWhitespace(s[|s| - 1]);
      var t := ToLower(s);
      assert t[|s| - 1] == LowerChar(s[|s| - 1]);
      if IsJsWhitespace(s[|s| - 1]) {
        LowerHead(s);
        TrimEndOfLower(s[..|s| - 1]);
      }
    }
  }

  /** Lower-casing keeps a trimmed string trimmed and leaves no upper-case letter. */
  lemma LowerKeepsTrimmed(t: string)
    requires Trimmed(t)
    ensures Trimmed(ToLower(t))
    ensures forall k :: 0 <= k < |t| ==> !('A' <= ToLower(t)[k] <= 'Z')
  {
    if |t| > 0 {
      assert ToLower(t)[0] == LowerChar(t[0]);
      assert ToLower(t)[|t| - 1] == LowerChar(t[|t| - 1]);
    }
  }

  /** Lower-casing twice is lower-casing once. */
  lemma LowerIdempotent(s: string)
    ensures ToLower(ToLower(s)) == ToLower(s)
  {
  }

  /** Characters a string must not contain. */
  predicate Avoids(s: string, banned: set<char>) {
    forall k :: 0 <= k < |s| ==> s[k] !in banned
  }

  /** Trimming only removes characters. */
  lemma TrimKeepsAvoids(s: string, banned: set<char>)
    requires Avoids(s, banned)
    ensures Avoids(Trim(s), banned)
  {
    TrimStartKeepsAvoids(s, banned);
    TrimEndKeepsAvoids(TrimStart(s), banned);
  }

  lemma TrimStartKeepsAvoids(s: string, banned: set<char>)
    requires Avoids(s, banned)
    ensures Avoids(TrimStart(s), banned)
  {
    var a := TrimStart(s);
    forall k | 0 <= k < |a| ensures a[k] !in banned {
      assert a[k] == s[|s| - |a| + k];
    }
  }

  lemma TrimEndKeepsAvoids(s: string, banned: set<char>)
    requires Avoids(s, banned)
    ensures Avoids(TrimEnd(s), banned)
  {
    var a := TrimEnd(s);
    forall k | 0 <= k < |a| ensures a[k] !in banned {
      assert a[k] == s[k];
    }
  }
}

=== FILE: upload.dfy ===
/**
 * The upload-URL route: the ownership check, the file-name sanitiser and the
 * object-key layout. Presigning is foreign; the route's result here is the key
 * and content type it would presign.
 */
module Upload {

  import opened Wrappers
  import Json
  import Numeral
  import opened Store

  /** The characters `safeName` keeps: `\w` (ASCII letters, digits, '_'), '.', '-',
      '(', ')' and space. */
  predicate Allowed(c: char) {
    || ('A' <= c <= 'Z') || ('a' <= c <= 'z') || ('0' <= c <= '9')
    || c == '_' || c == '.' || c == '-' || c == '(' || c == ')' || c == ' '
  }

  predicate AllAllowed(s: string) {
    forall k :: 0 <= k < |s| ==> Allowed(s[k])
  }

  predicate NoneAllowed(s: string) {
    forall k :: 0 <= k < |s| ==> !Allowed(s[k])
  }

  /** `replace(/[^\w.\-() ]+/g, "_")`, scanning left to right: `inRun` says whether
      the previous character was a disallowed one, so that each maximal run of
      disallowed characters yields a single underscore. */
  function Replace(s: string, inRun: bool): (r: string)
    ensures |r| <= |s|
  {
    if |s| == 0 then ""
    else if Allowed(s[0]) then [s[0]] + Replace(s[1..], false)
    else if inRun then Replace(s[1..], true)
    else "_" + Replace(s[1..], true)
  }

  function ReplaceRuns(s: string): (r: string)
    ensures |r| <= |s|
  {
    Replace(s, false)
  }

  /** Only allowed characters come out of the replacement. */
  lemma {:induction false} ReplaceAllowed(s: string, inRun: bool)
    ensures AllAllowed(Replace(s, inRun))
  {
    if |s| > 0 {
      var inRun' := !Allowed(s[0]);
      ReplaceAllowed(s[1..], inRun');
      var head := if Allowed(s[0]) then [s[0]] else if inRun then "" else "_";
      var tail := Replace(s[1..], inRun');
      assert Replace(s, inRun) == head + tail;
      forall k | 0 <= k < |head + tail| ensures Allowed((head + tail)[k]) {
        if k >= |head| {
          assert (head + tail)[k] == tail[k - |head|];
        }
      }
    }
  }

  lemma ReplaceRunsAllowed(s: string)
    ensures AllAllowed(ReplaceRuns(s))
  {
    ReplaceAllowed(s, false);
  }

  /** The sanitised file name: runs replaced, then cut to 120 characters. */
  function SafeName(filename: string): (r: string)
    ensures |r| == if |ReplaceRuns(filename)| <= 120 then |ReplaceRuns(filename)| else 120
    ensures AllAllowed(r)
    ensures r == ReplaceRuns(filename)[..|r|]
  {
    var s := ReplaceRuns(filename);
    ReplaceRunsAllowed(filename);
    if |s| <= 120 then s else s[..120]
  }

  /** A name made only of allowed characters is not changed by the replacement. */
  lemma {:induction false} ReplaceIdentity(s: string, inRun: bool)
    requires AllAllowed(s)
    ensures Replace(s, inRun) == s
  {
    if |s| > 0 {
      assert AllAllowed(s[1..]) by {
        forall k | 0 <= k < |s[1..]| ensures Allowed(s[1..][k]) { assert s[1..][k] == s[k + 1]; }
      }
      ReplaceIdentity(s[1..], false);
      assert s == [s[0]] + s[1..];
    }
  }

  lemma ReplaceRunsIdentity(s: string)
    requires AllAllowed(s)
    ensures ReplaceRuns(s) == s
  {
    ReplaceIdentity(s, false);
  }

  /** ...so such a name of at most 120 characters is returned unchanged. */
  lemma SafeNameIdentity(s: string)
    requires AllAllowed(s) && |s| <= 120
    ensures SafeName(s) == s
  {
    ReplaceRunsIdentity(s);
  }

  /** Whether the scan is inside a run after reading `a`, having started in `inRun`. */
  function InRunAfter(a: string, inRun: bool): bool {
    if |a| == 0 then inRun else !Allowed(a[|a| - 1])
  }

  /** The scan is compositional: the output for `a + t` is the output for `a`
      followed by the output for `t`, read in the state `a` left behind. */
  lemma {:induction false} ReplaceAppend(a: string, t: string, inRun: bool)
    ensures Replace(a + t, inRun) == Replace(a, inRun) + Replace(t, InRunAfter(a, inRun))
  {
    if |a| == 0 {
      assert a + t == t;
    } else {
      var inRun' := !Allowed(a[0]);
      assert (a + t)[0] == a[0];
      assert (a + t)[1..] == a[1..] + t;
      ReplaceAppend(a[1..], t, inRun');
      assert InRunAfter(a[1..], inRun') == InRunAfter(a, inRun) by {
        if |a| > 1 { assert a[1..][|a[1..]| - 1] == a[|a| - 1]; }
      }
      var head := if Allowed(a[0]) then [a[0]] else if inRun then "" else "_";
      var x := Replace(a[1..], inRun');
      var y := Replace(t, InRunAfter(a, inRun));
      assert Replace(a + t, inRun) == head + (x + y);
      assert Replace(a, inRun) == head + x;
      assert head + (x + y) == (head + x) + y;
    }
  }

  /** A non-empty run of disallowed characters contributes one underscore, or none
      when the scan was already inside a run. */
  lemma {:induction false} ReplaceOfRun(b: string, inRun: bool)
    requires |b| > 0 && NoneAllowed(b)
    ensures Replace(b, inRun) == if inRun then "" else "_"
  {
    if |b| > 1 {
      assert NoneAllowed(b[1..]) by {
        forall k | 0 <= k < |b[1..]| ensures !Allowed(b[1..][k]) { assert b[1..][k] == b[k + 1]; }
      }
      ReplaceOfRun(b[1..], true);
    }
  }

  /** The replacement works piece by piece: a maximal run of disallowed characters
      (preceded by an allowed character or nothing, followed by one or nothing)
      contributes exactly one underscore, and the text around it is replaced on its own. */
  lemma ReplaceRunsSplit(a: string, b: string, c: string)
    requires |b| > 0 && NoneAllowed(b)
    requires |a| == 0 || Allowed(a[|a| - 1])
    requires |c| == 0 || Allowed(c[0])
    ensures ReplaceRuns(a + b + c) == ReplaceRuns(a) + "_" + ReplaceRuns(c)
  {
    ReplaceAppend(a + b, c, false);
    ReplaceAppend(a, b, false);
    ReplaceOfRun(b, false);
    assert InRunAfter(a + b, false) by {
      assert (a + b)[|a + b| - 1] == b[|b| - 1];
    }
    assert Replace(c, true) == Replace(c, false) by {
      if |c| > 0 { assert Allowed(c[0]); }
    }
  }

  /** `uploads/<session>/<step>/<question>/<ms>_<safeName>`. */
  function ObjectKey(sessionId: string, stepId: string, questionId: string, nowMs: int, safeName: string): string {
    "uploads/" + sessionId + "/" + stepId + "/" + questionId + "/" + Numeral.IntToString(nowMs) + "_" + safeName
  }

  /** The key starts with the fixed prefix and the request's path segments and ends
      with the sanitised name. */
  lemma ObjectKeyLayout(sessionId: string, stepId: string, questionId: string, nowMs: int, safeName: string)
    ensures var key := ObjectKey(sessionId, stepId, questionId, nowMs, safeName);
            var dir := "uploads/" + sessionId + "/" + stepId + "/" + questionId + "/";
            && key[..|dir|] == dir
            && key[|dir|..] == Numeral.IntToString(nowMs) + "_" + safeName
            && key[|key| - |safeName|..] == safeName
  {
    var key := ObjectKey(sessionId, stepId, questionId, nowMs, safeName);
    var dir := "uploads/" + sessionId + "/" + stepId + "/" + questionId + "/";
    assert key == dir + (Numeral.IntToString(nowMs) + "_" + safeName);
  }

  datatype UploadRequest = UploadRequest(
    sessionId: string, stepId: string, questionId: string, filename: string, contentType: string)

  /** The body schema: `sessionId` of at least 10 characters, `stepId` and
      `questionId` non-empty, `filename` and `contentType` of 1 to 200 characters. */
  function ParseUpload(body: Option<Json.Value>): (r: Option<UploadRequest>)
    ensures r.Some? <==>
              && body.Some? && body.value.Obj?
              && Json.StringField(body.value.fields, "sessionId", 10).Some?
              && Json.StringField(body.value.fields, "stepId", 1).Some?
              && Json.StringField(body.value.fields, "questionId", 1).Some?
              && Json.BoundedStringField(body.value.fields, "filename", 1, 200).Some?
              && Json.BoundedStringField(body.value.fields, "contentType", 1, 200).Some?
    ensures r.Some? ==>
              var f := body.value.fields;
              r.value == UploadRequest(f["sessionId"].s, f["stepId"].s, f["questionId"].s,
                                       f["filename"].s, f["contentType"].s)
    ensures r.Some? ==> |r.value.sessionId| >= 10 && |r.value.stepId| >= 1 && |r.value.questionId| >= 1
                        && 1 <= |r.value.filename| <= 200 && 1 <= |r.value.contentType| <= 200
  {
    match body
    case Some(Obj(f)) =>
      var sid := Json.StringField(f, "sessionId", 10);
      var step := Json.StringField(f, "stepId", 1);
      var q := Json.StringField(f, "questionId", 1);
      var name := Json.BoundedStringField(f, "filename", 1, 200);
      var ct := Json.BoundedStringField(f, "contentType", 1, 200);
      if sid.Some? && step.Some? && q.Some? && name.Some? && ct.Some? then
        Some(UploadRequest(sid.value, step.value, q.value, name.value, ct.value))
      else None
    case _ => None
  }

  datatype UploadResponse =
    | Unauthorized
    | InvalidRequest
    | NotFound
    | Presign(key: string, contentType: string)

  function HttpStatus(r: UploadResponse): int {
    match r
    case Unauthorized => 401
    case InvalidRequest => 400
    case NotFound => 404
    case Presign(_, _) => 200
  }

  /** The route's POST handler; `cookieUserId` is the outcome of the session-cookie
      check and `nowMs` the clock reading. Nothing is written in any case. */
  function Post(cookieUserId: Option<string>, body: Option<Json.Value>, nowMs: int, sessions: map<string, SessionRec>): (r: UploadResponse)
    ensures r == Unauthorized <==> cookieUserId.None?
    ensures r == InvalidRequest <==> cookieUserId.Some? && ParseUpload(body).None?
    ensures r == NotFound <==>
              cookieUserId.Some? && ParseUpload(body).Some?
              && !(ParseUpload(body).value.sessionId in sessions
                   && sessions[ParseUpload(body).value.sessionId].userId == cookieUserId.value)
    ensures r.Presign? ==>
              var req := ParseUpload(body).value;
              && r.key == ObjectKey(req.sessionId, req.stepId, req.questionId, nowMs, SafeName(req.filename))
              && r.contentType == req.contentType
  {
    match cookieUserId
    case None => Unauthorized
    case Some(uid) =>
      match ParseUpload(body)
      case None => InvalidRequest
      case Some(req) =>
        if !(req.sessionId in sessions && sessions[req.sessionId].userId == uid) then NotFound
        else Presign(ObjectKey(req.sessionId, req.stepId, req.questionId, nowMs, SafeName(req.filename)), req.contentType)
  }
}

=== FILE: uri.dfy ===
/**
 * `encodeURIComponent`: every character outside the unreserved set is replaced by
 * the percent-escapes of its UTF-8 bytes, upper-case hexadecimal.
 */
module Uri {

  /** The characters `encodeURIComponent` leaves as they are. */
  predicate Unreserved(c: char) {
    || ('A' <= c <= 'Z') || ('a' <= c <= 'z') || ('0' <= c <= '9')
    || c == '-' || c == '_' || c == '.' || c == '!' || c == '~' || c == '*' || c == '\'' || c == '(' || c == ')'
  }

  predicate AllUnreserved(s: string) {
    forall k :: 0 <= k < |s| ==> Unreserved(s[k])
  }

  /** The UTF-8 encoding of one Unicode scalar value. */
  function Utf8(c: char): (r: seq<int>)
    ensures 1 <= |r| <= 4
    ensures forall k :: 0 <= k < |r| ==> 0 <= r[k] < 256
    ensures (c as int) < 0x80 <==> |r| == 1
    ensures (c as int) < 0x80 ==> r == [c as int]
  {
    var n := c as int;
    if n < 0x80 then [n]
    else if n < 0x800 then [0xC0 + n / 64, 0x80 + n % 64]
    else if n < 0x10000 then [0xE0 + n / 4096, 0x80 + (n / 64) % 64, 0x80 + n % 64]
    else [0xF0 + n / 262144, 0x80 + (n / 4096) % 64, 0x80 + (n / 64) % 64, 0x80 + n % 64]
  }

  function HexDigit(d: int): (r: char)
    requires 0 <= d < 16
    ensures Unreserved(r)
  {
    "0123456789ABCDEF"[d]
  }

  /** "%XY" for one byte. */
  function Percent(b: int): (r: string)
    requires 0 <= b < 256
    ensures |r| == 3 && r[0] == '%' && Unreserved(r[1]) && Unreserved(r[2])
  {
    ['%', HexDigit(b / 16), HexDigit(b % 16)]
  }

  function PercentAll(bytes: seq<int>): (r: string)
    requires forall k :: 0 <= k < |bytes| ==> 0 <= bytes[k] < 256
    ensures |r| == 3 * |bytes|
    ensures forall k :: 0 <= k < |r| ==> r[k] == '%' || Unreserved(r[k])
  {
    if |bytes| == 0 then ""
    else Percent(bytes[0]) + PercentAll(bytes[1..])
  }

  function EncodeChar(c: char): (r: string)
    ensures Unreserved(c) ==> r == [c]
    ensures !Unreserved(c) ==> |r| >= 3 && r[0] == '%'
    ensures forall k :: 0 <= k < |r| ==> r[k] == '%' || Unreserved(r[k])
  {
    if Unreserved(c) then [c] else PercentAll(Utf8(c))
  }

  /** `encodeURIComponent`. */
  function EncodeUriComponent(s: string): (r: string)
    ensures |r| >= |s|
    ensures forall k :: 0 <= k < |r| ==> r[k] == '%' || Unreserved(r[k])
  {
    if |s| == 0 then ""
    else EncodeChar(s[0]) + EncodeUriComponent(s[1..])
  }

  /** A string of unreserved characters (a hexadecimal token, say) is left unchanged. */
  lemma {:induction false} EncodeUnreservedIdentity(s: string)
    requires AllUnreserved(s)
    ensures EncodeUriComponent(s) == s
  {
    if |s| > 0 {
      assert AllUnreserved(s[1..]) by {
        forall k | 0 <= k < |s[1..]| ensures Unreserved(s[1..][k]) {
          assert s[1..][k] == s[k + 1];
        }
      }
      EncodeUnreservedIdentity(s[1..]);
      assert s == [s[0]] + s[1..];
    }
  }

  function HexValue(c: char): int {
    if '0' <= c <= '9' then c as int - '0' as int
    else if 'A' <= c <= 'F' then c as int - 'A' as int + 10
    else -1
  }

  lemma HexRoundTrip(d: int)
    requires 0 <= d < 16
    ensures HexValue(HexDigit(d)) == d
  {
  }

  predicate IsAscii(s: string) {
    forall k :: 0 <= k < |s| ==> (s[k] as int) < 0x80
  }

  /** Percent-decoding of single-byte escapes: each "%XY" becomes the character with
      that code, every other character stands for itself. */
  function DecodeAscii(s: string): string
  {
    if |s| >= 3 && s[0] == '%' && 0 <= HexValue(s[1]) && 0 <= HexValue(s[2]) then
      [(HexValue(s[1]) * 16 + HexValue(s[2])) as char] + DecodeAscii(s[3..])
    else if |s| > 0 then [s[0]] + DecodeAscii(s[1..])
    else ""
  }

  /** For ASCII text the encoding is undone by percent-decoding. */
  lemma {:induction false} DecodeEncodeAscii(s: string)
    requires IsAscii(s)
    ensures DecodeAscii(EncodeUriComponent(s)) == s
  {
    if |s| > 0 {
      var c := s[0];
      var rest := EncodeUriComponent(s[1..]);
      assert IsAscii(s[1..]) by {
        forall k | 0 <= k < |s[1..]| ensures (s[1..][k] as int) < 0x80 {
          assert s[1..][k] == s[k + 1];
        }
      }
      DecodeEncodeAscii(s[1..]);
      DecodeEncodedChar(c, rest);
      assert s == [c] + s[1..];
    }
  }

  /** Decoding reads one encoded ASCII character back and resumes after it. */
  lemma DecodeEncodedChar(c: char, rest: string)
    requires (c as int) < 0x80
    ensures DecodeAscii(EncodeChar(c) + rest) == [c] + DecodeAscii(rest)
  {
    if Unreserved(c) {
      DecodeUnreserved(c, rest);
    } else {
      EscapeOfAscii(c);
      DecodeEscape(c as int, rest);
    }
  }

  lemma DecodeUnreserved(c: char, rest: string)
    requires Unreserved(c)
    ensures DecodeAscii([c] + rest) == [c] + DecodeAscii(rest)
  {
    assert ([c] + rest)[1..] == rest;
  }

  /** A reserved ASCII character is encoded as the one escape of its code. */
  lemma EscapeOfAscii(c: char)
    requires (c as int) < 0x80 && !Unreserved(c)
    ensures EncodeChar(c) == Percent(c as int)
  {
    var n := c as int;
    assert Utf8(c) == [n];
    assert PercentAll([n]) == Percent(n) + PercentAll([]);
  }

  /** "%XY" for a byte below 0x80 decodes to the character with that code. */
  lemma DecodeEscape(n: int, rest: string)
    requires 0 <= n < 0x80
    requires !Unreserved(n as char)
    ensures DecodeAscii(Percent(n) + rest) == [n as char] + DecodeAscii(rest)
  {
    HexRoundTrip(n / 16);
    HexRoundTrip(n % 16);
    var e := Percent(n) + rest;
    assert e[3..] == rest;
    assert e[1] == HexDigit(n / 16) && e[2] == HexDigit(n % 16);
    assert HexValue(e[1]) * 16 + HexValue(e[2]) == n;
  }
}

=== FILE: wizard_config.dfy ===
/**
 * The static wizard definition: step, gate and question types, and the one
 * published instance, the "Course Map Wizard" version 1. The invariants the
 * gating engine and the seeded rubrics depend on are stated as predicates and
 * proved of the instance.
 */
module WizardConfig {

  import opened Wrappers

  datatype ResourceKind = Image | Video | Link | Embed

  datatype Resource = Resource(kind: ResourceKind, url: string, caption: Option<string>)

  datatype SelectOption = SelectOption(value: string, labelText: string)

  /** The input kinds a question, a repeat-group field or a matrix column can take. */
  datatype InputType =
    | ShortText
    | LongText
    | SingleSelect(options: seq<SelectOption>)
    | Url
    | File(accept: Option<seq<string>>)

  /** A repeat-group field or a matrix column. An absent `required` reads as false. */
  datatype Field = Field(id: string, labelText: string, required: bool, input: InputType)

  datatype QuestionType =
    | Input(input: InputType)
    | RepeatGroup(minItems: Option<int>, maxItems: Option<int>, fields: seq<Field>)
    | Matrix(rowsFromAnswer: string, rowLabelField: string, columns: seq<Field>)

  /** A question; `labelText` is its `label`. An absent `required` reads as false, as `!q.required` does. */
  datatype Question = Question(id: string, labelText: string, required: bool, questionType: QuestionType)

  /** The gate of a step. A hard gate always names its rubric; a soft gate may. */
  datatype StepGate =
    | NoGate
    | SoftGate(softRubricId: Option<string>)
    | HardGate(hardRubricId: string)

  datatype StepContent = StepContent(introMd: Option<string>, whyMd: Option<string>, resources: Option<seq<Resource>>)

  datatype WizardStep = WizardStep(id: string, title: string, gate: StepGate, content: StepContent, questions: seq<Question>)

  datatype WizardConfig = WizardConfig(wizardId: string, version: int, title: string, steps: seq<WizardStep>)

  /** The `mode` string a gate is stored with. */
  function GateModeName(g: StepGate): (r: string)
    ensures r == "none" <==> g.NoGate?
    ensures r == "soft" <==> g.SoftGate?
    ensures r == "hard" <==> g.HardGate?
  {
    match g
    case NoGate => "none"
    case SoftGate(_) => "soft"
    case HardGate(_) => "hard"
  }

  /** The rubric a gate names, if any. */
  function RubricIdOf(g: StepGate): Option<string> {
    match g
    case NoGate => None
    case SoftGate(r) => r
    case HardGate(r) => Some(r)
  }

  predicate Distinct<T(==)>(s: seq<T>) {
    forall i, j :: 0 <= i < j < |s| ==> s[i] != s[j]
  }

  /** The names `name` gives the elements of `s`, in order. The step, question and field
      ids and the option values are all such lists. */
  function Names<T>(s: seq<T>, name: T -> string): (r: seq<string>)
    ensures |r| == |s| && forall i :: 0 <= i < |s| ==> r[i] == name(s[i])
  {
    seq(|s|, i requires 0 <= i < |s| => name(s[i]))
  }

  function StepId(st: WizardStep): string { st.id }
  function QuestionId(q: Question): string { q.id }
  function FieldId(f: Field): string { f.id }
  function OptionValue(o: SelectOption): string { o.value }

  function StepIds(steps: seq<WizardStep>): seq<string> { Names(steps, StepId) }
  function QuestionIds(qs: seq<Question>): seq<string> { Names(qs, QuestionId) }
  function FieldIds(fs: seq<Field>): seq<string> { Names(fs, FieldId) }
  function OptionValues(os: seq<SelectOption>): seq<string> { Names(os, OptionValue) }

  /** A single-select input offers each value once. */
  predicate InputOptionsDistinct(t: InputType) {
    t.SingleSelect? ==> Distinct(OptionValues(t.options))
  }

  /** Every single-select, at question level or inside a repeat group, offers each
      value once. */
  predicate QuestionOptionsDistinct(q: Question) {
    match q.questionType
    case Input(t) => InputOptionsDistinct(t)
    case RepeatGroup(_, _, fields) => forall f :: f in fields ==> InputOptionsDistinct(f.input)
    case Matrix(_, _, columns) => forall c :: c in columns ==> InputOptionsDistinct(c.input)
  }

  /** A repeat group's item bounds, when both are given, are ordered. */
  predicate RepeatBoundsOrdered(q: Question) {
    (q.questionType.RepeatGroup? && q.questionType.minItems.Some? && q.questionType.maxItems.Some?)
    ==> 0 <= q.questionType.minItems.value <= q.questionType.maxItems.value
  }

  /** Matrix columns are text inputs only. */
  predicate MatrixColumnsAreText(q: Question) {
    q.questionType.Matrix? ==>
      forall c :: c in q.questionType.columns ==> c.input.ShortText? || c.input.LongText?
  }

  /** A matrix reference "stepId.questionId" names, in a step listed before `i`, a
      repeat group one of whose fields is the row-label field. */
  predicate MatrixSourceResolves(steps: seq<WizardStep>, i: nat, q: Question)
    requires i < |steps|
  {
    q.questionType.Matrix? ==>
      exists j, g :: 0 <= j < i && 0 <= g < |steps[j].questions|
        && q.questionType.rowsFromAnswer == steps[j].id + "." + steps[j].questions[g].id
        && steps[j].questions[g].questionType.RepeatGroup?
        && q.questionType.rowLabelField in FieldIds(steps[j].questions[g].questionType.fields)
  }

  /** The invariants of one question of step `i`. */
  predicate QuestionWellFormed(steps: seq<WizardStep>, i: nat, q: Question)
    requires i < |steps|
  {
    RepeatBoundsOrdered(q) && QuestionOptionsDistinct(q) && MatrixColumnsAreText(q)
    && MatrixSourceResolves(steps, i, q)
  }

  /** Step `i` asks each question id once, and each of its questions is well formed. */
  predicate StepWellFormed(steps: seq<WizardStep>, i: nat)
    requires i < |steps|
  {
    && Distinct(QuestionIds(steps[i].questions))
    && forall q :: q in steps[i].questions ==> QuestionWellFormed(steps, i, q)
  }

  /** The invariants of a published wizard definition. */
  predicate WellFormed(cfg: WizardConfig) {
    && |cfg.steps| > 0
    && Distinct(StepIds(cfg.steps))
    && forall i :: 0 <= i < |cfg.steps| ==> StepWellFormed(cfg.steps, i)
  }

  /** The step id new sessions are created on. */
  const FirstStepId: string := "s0_context"

  const WizardConfigV1: WizardConfig := WizardConfig(
    "course_map_v1", 1, "Course Map Wizard",
    [ StepS0Context, StepS1Outcomes, StepS2Evidence, StepS3Learners,
      StepS4Materials, StepS5Modules, StepS6Practice, StepS7Review ])

  const StepS0Context: WizardStep := WizardStep(
    "s0_context", "Course context", NoGate,
    StepContent(
      Some("Capture basic context so later feedback is grounded."),
      Some("Instructional design decisions depend on audience, constraints, and delivery context."),
      Some([Resource(Link, "https://en.wikipedia.org/wiki/Instructional_design", Some("Instructional design (overview)"))])),
    [ Question("course_title", "Course title (working title)", true, Input(ShortText)),
      Question("audience", "Who is this course for?", true, Input(LongText)),
      Question("delivery_modality", "Delivery modality", true, Input(SingleSelect([
        SelectOption("async", "Asynchronous online"),
        SelectOption("sync", "Synchronous online"),
        SelectOption("blended", "Blended"),
        SelectOption("in_person", "In-person"),
        SelectOption("unknown", "Not sure yet")]))),
      Question("constraints", "Key constraints (tools, policies, time limits, accessibility, compliance)", false, Input(LongText)) ])

  const StepS1Outcomes: WizardStep := WizardStep(
    "s1_outcomes", "Learning outcomes", HardGate("r_outcomes_v1"),
    StepContent(
      Some("Define what learners will be able to **do** after the course."),
      Some("Outcomes drive assessments and content. If outcomes are vague, everything downstream becomes guesswork."),
      Some([Resource(Video, "https://www.youtube.com/watch?v=7nqCG4iZCjY", Some("Bloom’s Taxonomy (quick overview)"))])),
    [ Question("outcomes_list", "Add 3–6 learning outcomes", true,
        RepeatGroup(Some(3), Some(6), [Field("outcome_text", "Outcome", true, ShortText)])),
      Question("success_definition",
        "What does success look like in the real world for someone who completes this course?", false, Input(LongText)) ])

  const StepS2Evidence: WizardStep := WizardStep(
    "s2_evidence", "Evidence of learning (assessments)", HardGate("r_evidence_v1"),
    StepContent(
      Some("For each outcome, define how you’d know a learner can do it."),
      Some("If you can’t assess it, you can’t be confident it was learned."),
      Some([Resource(Image, "https://upload.wikimedia.org/wikipedia/commons/0/0b/Constructive_alignment.png", Some("Constructive alignment concept"))])),
    [ Question("evidence_map", "Outcome → evidence", true,
        Matrix("s1_outcomes.outcomes_list", "outcome_text", [
          Field("evidence", "How could a learner demonstrate this outcome?", true, LongText),
          Field("criteria", "What would you look for to judge it’s correct/good?", false, ShortText)])) ])

  const StepS3Learners: WizardStep := WizardStep(
    "s3_learners", "Learner profile and prerequisites", SoftGate(Some("r_learners_v1")),
    StepContent(
      Some("Describe what learners already know and what might trip them up."),
      Some("This prevents building content that’s too advanced—or too basic."),
      None),
    [ Question("prereqs", "What should learners already know or be able to do before starting?", false, Input(LongText)),
      Question("common_mistakes", "Common misconceptions or mistakes learners might make", false, Input(LongText)),
      Question("accessibility_notes", "Accessibility or accommodation considerations", false, Input(LongText)) ])

  const StepS4Materials: WizardStep := WizardStep(
    "s4_materials", "Materials and content inventory", SoftGate(Some("r_materials_v1")),
    StepContent(
      Some("List or upload materials learners will need (or materials you already have)."),
      Some("This helps the instructional designer reuse good content and identify gaps early."),
      None),
    [ Question("materials_list", "Materials (links, docs, videos, datasets, policies)", false,
        RepeatGroup(Some(0), Some(30), [
          Field("material_type", "Type", true, SingleSelect([
            SelectOption("link", "Link"),
            SelectOption("doc", "Document"),
            SelectOption("slides", "Slides"),
            SelectOption("video", "Video"),
            SelectOption("dataset", "Dataset"),
            SelectOption("other", "Other")])),
          Field("description", "What is it and why is it useful?", true, ShortText),
          Field("url", "URL (if applicable)", false, Url),
          Field("file", "Upload (if applicable)", false, File(Some([".pdf", ".docx", ".pptx", ".txt", ".csv", ".xlsx"]))),
          Field("requiredness", "Required for learners?", true, SingleSelect([
            SelectOption("required", "Required"),
            SelectOption("optional", "Optional"),
            SelectOption("reference", "Reference")]))])),
      Question("no_materials_reason", "If you have no materials yet, why?", false, Input(ShortText)) ])

  const StepS5Modules: WizardStep := WizardStep(
    "s5_modules", "Module and lesson map", HardGate("r_modules_v1"),
    StepContent(
      Some("Organize outcomes into a coherent set of modules/lessons."),
      Some("Chunking makes learning manageable and ensures coverage of all outcomes."),
      None),
    [ Question("module_draft", "Propose a module outline (rough is fine)", true, Input(LongText)) ])

  const StepS6Practice: WizardStep := WizardStep(
    "s6_practice", "Practice and learning activities", SoftGate(Some("r_practice_v1")),
    StepContent(
      Some("List how learners will practice the skills before final assessments."),
      Some("Practice is where most learning happens; content alone isn’t enough."),
      None),
    [ Question("activities",
        "What practice activities could support the outcomes? (labs, scenarios, discussions, drafts, etc.)", false, Input(LongText)) ])

  const StepS7Review: WizardStep := WizardStep(
    "s7_review", "Review and export", NoGate,
    StepContent(
      Some("Review the course map draft. Export for an instructional designer."),
      Some("You’ll leave with a clear, actionable course map and a list of open questions."),
      None),
    [])

  /** Step ids of version 1 are pairwise distinct, and it starts on the step new
      sessions are created on. */
  lemma V1StepIds()
    ensures StepIds(WizardConfigV1.steps)
              == ["s0_context", "s1_outcomes", "s2_evidence", "s3_learners",
                  "s4_materials", "s5_modules", "s6_practice", "s7_review"]
    ensures Distinct(StepIds(WizardConfigV1.steps))
    ensures WizardConfigV1.steps[0].id == FirstStepId
  {
  }

  /** Every gated step of version 1 names a non-empty rubric id; the last step is
      ungated and asks nothing. */
  lemma V1Gates()
    ensures forall s :: s in WizardConfigV1.steps && !s.gate.NoGate? ==>
              RubricIdOf(s.gate).Some? && RubricIdOf(s.gate).value != ""
    ensures var last := WizardConfigV1.steps[|WizardConfigV1.steps| - 1];
            last.gate.NoGate? && |last.questions| == 0
  {
  }

  /** Version 1 satisfies every invariant of a published wizard definition. */
  lemma V1WellFormed()
    ensures WellFormed(WizardConfigV1)
  {
    V1StepIds();
    var steps := WizardConfigV1.steps;
    assert StepWellFormed(steps, 0) by { V1Step0(); }
    assert StepWellFormed(steps, 1) by { V1Step1(); }
    assert StepWellFormed(steps, 2) by { V1Step2(); }
    assert StepWellFormed(steps, 3);
    assert StepWellFormed(steps, 4) by { V1Step4(); }
    assert StepWellFormed(steps, 5);
    assert StepWellFormed(steps, 6);
    assert StepWellFormed(steps, 7);
  }

  lemma V1Step0()
    ensures StepWellFormed(WizardConfigV1.steps, 0)
  {
    var q := StepS0Context.questions[2];
    assert Distinct(OptionValues(q.questionType.input.options));
  }

  lemma V1Step1()
    ensures StepWellFormed(WizardConfigV1.steps, 1)
  {
  }

  lemma V1Step2()
    ensures StepWellFormed(WizardConfigV1.steps, 2)
  {
    var steps := WizardConfigV1.steps;
    assert steps[2] == StepS2Evidence;
    var q := StepS2Evidence.questions[0];
    assert StepS2Evidence.questions == [q];
    V1EvidenceSource();
    assert QuestionWellFormed(steps, 2, q);
  }

  /** The evidence matrix takes its rows from the outcomes group of step 1. */
  lemma V1EvidenceSource()
    ensures MatrixSourceResolves(WizardConfigV1.steps, 2, StepS2Evidence.questions[0])
  {
    var steps := WizardConfigV1.steps;
    assert steps[1] == StepS1Outcomes;
    var group := StepS1Outcomes.questions[0];
    assert group.id == "outcomes_list" && group.questionType.RepeatGroup?;
    assert FieldIds(group.questionType.fields) == ["outcome_text"];
    var q := StepS2Evidence.questions[0];
    var dotted := "s1_outcomes" + "." + "outcomes_list";
    assert dotted == "s1_outcomes.outcomes_list";
    assert q.questionType.rowsFromAnswer == steps[1].id + "." + steps[1].questions[0].id;
  }

  lemma V1Step4()
    ensures StepWellFormed(WizardConfigV1.steps, 4)
  {
    var fields := StepS4Materials.questions[0].questionType.fields;
    assert Distinct(OptionValues(fields[0].input.options));
    assert Distinct(OptionValues(fields[4].input.options));
  }
}

=== FILE: wizard_view.dfy ===
/**
 * What the wizard page derives from a session's saved rows and the loaded
 * configuration: the latest saved answer per question, the latest feedback of a
 * step, the step shown, the draft initialisation, and the Prev/Next targets.
 */
module WizardView {

  import opened Wrappers
  import Json
  import opened Store
  import opened JsObject
  import Recency
  import Draft
  import Submit

  /** The newest-first rows of one step, as the page sorts them. */
  function StepRowsNewestFirst(rows: seq<AnswerRow>, stepId: string): seq<AnswerRow> {
    Recency.SortDesc(Recency.KeepKey(rows, AnswerStep, stepId), AnswerAt)
  }

  // ---------------------------------------------------------------- latest answers, as written

  /** The loop of `latestAnswersForStep` as written: a row is skipped when its question
      id is empty or when `out[qid] !== undefined`, which also holds for a name
      `Object.prototype` provides. */
  function CollectAsWritten(rows: seq<AnswerRow>, out: Draft.Answers): Draft.Answers
  {
    if |rows| == 0 then out
    else
      var qid := rows[0].questionId;
      if qid == "" || !Get(out, qid).Undefined? then CollectAsWritten(rows[1..], out)
      else CollectAsWritten(rows[1..], out[qid := rows[0].value])
  }

  function LatestAnswersForStepAsWritten(rows: seq<AnswerRow>, stepId: string): Draft.Answers {
    CollectAsWritten(StepRowsNewestFirst(rows, stepId), map[])
  }

  /** As written, a question named like an `Object.prototype` member never gets its
      saved answer back, however many rows it has. */
  lemma {:induction false} AsWrittenDropsProtoKeys(rows: seq<AnswerRow>, out: Draft.Answers, q: string)
    requires q in ProtoKeys && q !in out
    ensures q !in CollectAsWritten(rows, out)
  {
    if |rows| > 0 {
      var qid := rows[0].questionId;
      if qid == "" || !Get(out, qid).Undefined? {
        AsWrittenDropsProtoKeys(rows[1..], out, q);
      } else {
        assert qid != q;
        AsWrittenDropsProtoKeys(rows[1..], out[qid := rows[0].value], q);
      }
    }
  }

  /** The input that shows it: one saved answer to a question "toString". */
  lemma AsWrittenLosesToString()
    ensures var rows := [AnswerRow("session-0001", "s1_outcomes", "toString", Json.Str("x"), 1)];
            && "toString" !in LatestAnswersForStepAsWritten(rows, "s1_outcomes")
            && LatestAnswersForStep(rows, "s1_outcomes") == map["toString" := Json.Str("x")]
  {
    var rows := [AnswerRow("session-0001", "s1_outcomes", "toString", Json.Str("x"), 1)];
    AsWrittenDropsProtoKeys(StepRowsNewestFirst(rows, "s1_outcomes"), map[], "toString");
    assert Recency.KeepKey(rows, AnswerStep, "s1_outcomes") == rows by {
      assert rows[1..] == [];
    }
    var sorted := StepRowsNewestFirst(rows, "s1_outcomes");
    assert sorted == rows by {
      assert rows[1..] == [];
    }
    assert Collect(rows[1..], map["toString" := Json.Str("x")]) == map["toString" := Json.Str("x")] by {
      assert rows[1..] == [];
    }
  }

  // ---------------------------------------------------------------- latest answers, corrected

  /** The loop with the evidently intended test, "no own entry yet". */
  function Collect(rows: seq<AnswerRow>, out: Draft.Answers): Draft.Answers
  {
    if |rows| == 0 then out
    else
      var qid := rows[0].questionId;
      if qid == "" || qid in out then Collect(rows[1..], out)
      else Collect(rows[1..], out[qid := rows[0].value])
  }

  /** `latestAnswersForStep`, corrected: the latest saved value per question of one step. */
  function LatestAnswersForStep(rows: seq<AnswerRow>, stepId: string): Draft.Answers {
    Collect(StepRowsNewestFirst(rows, stepId), map[])
  }

  /** The loop keeps what it has and adds, for each other non-empty question id, the
      value of its first row. */
  lemma {:induction false} CollectSpec(rows: seq<AnswerRow>, out: Draft.Answers, q: string)
    ensures q in Collect(rows, out) <==> q in out || (q != "" && Recency.FirstWithKey(rows, AnswerQuestion, q).Some?)
    ensures q in Collect(rows, out) ==>
              Collect(rows, out)[q]
                == if q in out then out[q] else Recency.FirstWithKey(rows, AnswerQuestion, q).value.value
  {
    if |rows| > 0 {
      var qid := rows[0].questionId;
      if qid == "" || qid in out {
        CollectSpec(rows[1..], out, q);
      } else {
        CollectSpec(rows[1..], out[qid := rows[0].value], q);
      }
    }
  }

  /** What the page shows for a question: nothing for the empty id; otherwise a value
      exactly when the step has a row for the question, and then the value of the
      latest such row (the earliest listed among equally new ones), which is also the
      latest of all rows for that step and question in the order given. Rows of other
      steps play no part. */
  lemma LatestAnswersMeaning(rows: seq<AnswerRow>, stepId: string, q: string)
    ensures var m := LatestAnswersForStep(rows, stepId);
            var stepRows := Recency.KeepKey(rows, AnswerStep, stepId);
            && (q == "" ==> q !in m)
            && (q != "" ==> (q in m <==> exists i :: 0 <= i < |rows| && rows[i].stepId == stepId && rows[i].questionId == q))
            && (q in m ==> Some(m[q]) == Submit.ValueOf(Recency.Latest(stepRows, AnswerAt, AnswerQuestion, q)))
            && (q in m ==> Some(m[q]) == Submit.ValueOf(Recency.Latest(rows, AnswerAt, AnswerStepQuestion, (stepId, q))))
  {
    LatestAnswersFromLatest(rows, stepId, q);
    StepHasRow(rows, stepId, q);
    Recency.LatestOfFilter(rows, AnswerAt, AnswerStep, stepId, AnswerQuestion, q, AnswerStepQuestion, (stepId, q));
  }

  /** The page keeps, for a non-empty id, the value of the latest row of the step. */
  lemma LatestAnswersFromLatest(rows: seq<AnswerRow>, stepId: string, q: string)
    ensures var m := LatestAnswersForStep(rows, stepId);
            var latest := Recency.Latest(Recency.KeepKey(rows, AnswerStep, stepId), AnswerAt, AnswerQuestion, q);
            && (q in m <==> q != "" && latest.Some?)
            && (q in m ==> m[q] == latest.value.value)
  {
    var stepRows := Recency.KeepKey(rows, AnswerStep, stepId);
    CollectSpec(Recency.SortDesc(stepRows, AnswerAt), map[], q);
    Recency.FirstOfSortIsLatest(stepRows, AnswerAt, AnswerQuestion, q);
  }

  /** The step has a latest row for a question exactly when some row of the step
      answers it. */
  lemma StepHasRow(rows: seq<AnswerRow>, stepId: string, q: string)
    ensures Recency.Latest(Recency.KeepKey(rows, AnswerStep, stepId), AnswerAt, AnswerQuestion, q).Some?
            <==> exists i :: 0 <= i < |rows| && rows[i].stepId == stepId && rows[i].questionId == q
  {
    var stepRows := Recency.KeepKey(rows, AnswerStep, stepId);
    Recency.LatestIndexSpec(stepRows, AnswerAt, AnswerQuestion, q);
    if exists i :: 0 <= i < |rows| && rows[i].stepId == stepId && rows[i].questionId == q {
      var i :| 0 <= i < |rows| && rows[i].stepId == stepId && rows[i].questionId == q;
      assert AnswerStep(rows[i]) == stepId;
      var j :| 0 <= j < |stepRows| && stepRows[j] == rows[i];
      assert AnswerQuestion(stepRows[j]) == q;
    }
    if Recency.LatestIndex(stepRows, AnswerAt, AnswerQuestion, q).Some? {
      var m := Recency.LatestIndex(stepRows, AnswerAt, AnswerQuestion, q).value;
      assert stepRows[m] in rows;
      var i :| 0 <= i < |rows| && rows[i] == stepRows[m];
      assert rows[i].stepId == stepId && rows[i].questionId == q;
    }
  }

  /** Correcting the test changes nothing for question ids that are not
      `Object.prototype` names. */
  lemma {:induction false} CollectAgreesOffProto(rows: seq<AnswerRow>, out: Draft.Answers, q: string)
    requires forall k :: k in out ==> k !in ProtoKeys
    requires q !in ProtoKeys
    ensures q in CollectAsWritten(rows, out) <==> q in Collect(rows, out)
    ensures q in Collect(rows, out) ==> CollectAsWritten(rows, out)[q] == Collect(rows, out)[q]
    decreases |rows|, 0
  {
    if |rows| > 0 {
      var qid := rows[0].questionId;
      if qid == "" || qid in out {
        CollectAgreesOffProto(rows[1..], out, q);
      } else if qid in ProtoKeys {
        assert !Get(out, qid).Undefined?;
        CollectAgreesOffProtoSplit(rows[1..], out, qid, rows[0].value, q);
      } else {
        CollectAgreesOffProto(rows[1..], out[qid := rows[0].value], q);
      }
    }
  }

  /** After the written loop skips a prototype name that the corrected loop records,
      the two still agree on every other name. */
  lemma {:induction false} CollectAgreesOffProtoSplit(rows: seq<AnswerRow>, out: Draft.Answers, p: string, v: Json.Value, q: string)
    requires forall k :: k in out ==> k !in ProtoKeys
    requires p in ProtoKeys && q !in ProtoKeys
    ensures q in CollectAsWritten(rows, out) <==> q in Collect(rows, out[p := v])
    ensures q in Collect(rows, out[p := v]) ==> CollectAsWritten(rows, out)[q] == Collect(rows, out[p := v])[q]
    decreases |rows|, 1
  {
    CollectAgreesOffProto(rows, out, q);
    CollectSpec(rows, out, q);
    CollectSpec(rows, out[p := v], q);
  }

  /** The page as written shows the corrected values for every question id that is
      not an `Object.prototype` name. */
  lemma AsWrittenAgreesOffProto(rows: seq<AnswerRow>, stepId: string, q: string)
    requires q !in ProtoKeys
    ensures var w := LatestAnswersForStepAsWritten(rows, stepId);
            var c := LatestAnswersForStep(rows, stepId);
            && (q in w <==> q in c)
            && (q in c ==> w[q] == c[q])
  {
    CollectAgreesOffProto(StepRowsNewestFirst(rows, stepId), map[], q);
  }

  // ---------------------------------------------------------------- agreement with the server

  /** Keeping a step's rows of a log that holds one session only keeps the same rows
      as keeping that session's rows of the step. */
  lemma {:induction false} StepRowsOfOneSession(rows: seq<AnswerRow>, sessionId: string, stepId: string)
    requires forall i :: 0 <= i < |rows| ==> rows[i].sessionId == sessionId
    ensures Recency.KeepKey(rows, AnswerStep, stepId) == Submit.StepAnswers(rows, sessionId, stepId)
  {
    if |rows| > 0 {
      assert forall i :: 0 <= i < |rows[1..]| ==> rows[1..][i].sessionId == sessionId by {
        forall i | 0 <= i < |rows[1..]| ensures rows[1..][i].sessionId == sessionId { assert rows[1..][i] == rows[i + 1]; }
      }
      StepRowsOfOneSession(rows[1..], sessionId, stepId);
    }
  }

  /** The corrected page and the judge see the same answers. For the rows of one
      session whose step rows for the question carry distinct timestamps, whatever
      newest-first order the database returns them in, the judge's list (built by
      the submit handler) holds the question exactly when the corrected page shows a
      value for it, and with that value. */
  lemma CorrectedAgreesWithJudge(rows: seq<AnswerRow>, sessionId: string, stepId: string, dbOrder: seq<AnswerRow>, q: string)
    requires forall i :: 0 <= i < |rows| ==> rows[i].sessionId == sessionId
    requires forall i :: 0 <= i < |rows| ==> rows[i].questionId != ""
    requires Recency.SortedDesc(dbOrder, AnswerAt)
    requires multiset(dbOrder) == multiset(Submit.StepAnswers(rows, sessionId, stepId))
    requires Recency.DistinctStampsFor(Submit.StepAnswers(rows, sessionId, stepId), AnswerAt, AnswerQuestion, q)
    ensures var page := LatestAnswersForStep(rows, stepId);
            var judge := Submit.LatestByQuestion(dbOrder);
            && (q in page <==> Submit.HasQuestion(judge, q))
            && (q in page ==> Submit.Lookup(judge, q) == Some(page[q]))
  {
    var stepRows := Submit.StepAnswers(rows, sessionId, stepId);
    StepRowsOfOneSession(rows, sessionId, stepId);
    LatestAnswersMeaning(rows, stepId, q);
    Submit.LatestByQuestionSpec(dbOrder, q);
    Recency.FirstOfAnyOrderIsLatest(dbOrder, stepRows, AnswerAt, AnswerQuestion, q);
    Recency.LatestIndexSpec(stepRows, AnswerAt, AnswerQuestion, q);
    if q == "" {
      forall i | 0 <= i < |dbOrder| ensures dbOrder[i].questionId != "" {
        assert dbOrder[i] in multiset(stepRows);
        assert dbOrder[i] in stepRows;
        assert dbOrder[i] in rows;
      }
    }
  }

  /** The page as written and the judge, under the same hypotheses: they agree on
      every question id that is not an `Object.prototype` name; for such a name the
      page shows nothing, while the judge receives it exactly when the step has a
      row for it. */
  lemma ClientAgreesWithJudge(rows: seq<AnswerRow>, sessionId: string, stepId: string, dbOrder: seq<AnswerRow>, q: string)
    requires forall i :: 0 <= i < |rows| ==> rows[i].sessionId == sessionId
    requires forall i :: 0 <= i < |rows| ==> rows[i].questionId != ""
    requires Recency.SortedDesc(dbOrder, AnswerAt)
    requires multiset(dbOrder) == multiset(Submit.StepAnswers(rows, sessionId, stepId))
    requires Recency.DistinctStampsFor(Submit.StepAnswers(rows, sessionId, stepId), AnswerAt, AnswerQuestion, q)
    ensures var page := LatestAnswersForStepAsWritten(rows, stepId);
            var judge := Submit.LatestByQuestion(dbOrder);
            && (q !in ProtoKeys ==> (q in page <==> Submit.HasQuestion(judge, q)))
            && (q !in ProtoKeys && q in page ==> Submit.Lookup(judge, q) == Some(page[q]))
            && (q in ProtoKeys ==> q !in page)
            && (q in ProtoKeys ==>
                  (Submit.HasQuestion(judge, q) <==> exists i :: 0 <= i < |rows| && rows[i].stepId == stepId && rows[i].questionId == q))
  {
    CorrectedAgreesWithJudge(rows, sessionId, stepId, dbOrder, q);
    AsWrittenAgainstJudge(rows, stepId, Submit.LatestByQuestion(dbOrder), q);
  }

  /** Whatever list agrees with the corrected page agrees with the page as written
      off prototype names; on a prototype name the page as written shows nothing and
      the list holds the name exactly when the step has a row for it. */
  lemma AsWrittenAgainstJudge(rows: seq<AnswerRow>, stepId: string, judge: seq<Submit.QA>, q: string)
    requires q in LatestAnswersForStep(rows, stepId) <==> Submit.HasQuestion(judge, q)
    requires q in LatestAnswersForStep(rows, stepId) ==> Submit.Lookup(judge, q) == Some(LatestAnswersForStep(rows, stepId)[q])
    ensures var page := LatestAnswersForStepAsWritten(rows, stepId);
            && (q !in ProtoKeys ==> (q in page <==> Submit.HasQuestion(judge, q)))
            && (q !in ProtoKeys && q in page ==> Submit.Lookup(judge, q) == Some(page[q]))
            && (q in ProtoKeys ==> q !in page)
            && (q in ProtoKeys ==>
                  (Submit.HasQuestion(judge, q) <==> exists i :: 0 <= i < |rows| && rows[i].stepId == stepId && rows[i].questionId == q))
  {
    if q in ProtoKeys {
      ProtoKeysNonEmpty(q);
      AsWrittenDropsProtoKeys(StepRowsNewestFirst(rows, stepId), map[], q);
      LatestAnswersMeaning(rows, stepId, q);
    } else {
      AsWrittenAgreesOffProto(rows, stepId, q);
    }
  }

  // ---------------------------------------------------------------- latest feedback

  /** `latestFeedbackPayloadForStep`: the payload of the first row of the step's
      newest-first feedback, or null (None) when the step has none. */
  function LatestFeedbackPayloadForStep(feedback: seq<FeedbackRow>, stepId: string): Option<Evaluation> {
    var sorted := Recency.SortDesc(Recency.KeepKey(feedback, FeedbackStep, stepId), FeedbackAt);
    if |sorted| == 0 then None else Some(sorted[0].payload)
  }

  /** No payload exactly when the step has no feedback row; otherwise the payload of
      the latest row of the step. */
  lemma LatestFeedbackMeaning(feedback: seq<FeedbackRow>, stepId: string)
    ensures var r := LatestFeedbackPayloadForStep(feedback, stepId);
            var l := Recency.Latest(feedback, FeedbackAt, FeedbackStep, stepId);
            && (r.None? <==> forall i :: 0 <= i < |feedback| ==> feedback[i].stepId != stepId)
            && l.Some? == r.Some?
            && (r.Some? ==> r.value == l.value.payload)
  {
    var kept := Recency.KeepKey(feedback, FeedbackStep, stepId);
    var sorted := Recency.SortDesc(kept, FeedbackAt);
    Recency.FirstOfSortIsLatest(kept, FeedbackAt, FeedbackStep, stepId);
    Recency.LatestOfKeepKey(feedback, FeedbackAt, FeedbackStep, stepId);
    Recency.LatestIndexSpec(feedback, FeedbackAt, FeedbackStep, stepId);
    if |sorted| > 0 {
      assert sorted[0] in multiset(kept);
      assert FeedbackStep(sorted[0]) == stepId;
    } else {
      assert |kept| == 0;
    }
  }

  // ---------------------------------------------------------------- the step shown

  /** `findIndex`: the first position holding `id`, or -1. */
  function FindIndex(ids: seq<string>, id: string): (r: int)
    ensures -1 <= r < |ids|
    ensures r >= 0 ==> ids[r] == id && forall k :: 0 <= k < r ==> ids[k] != id
    ensures r == -1 <==> id !in ids
  {
    if |ids| == 0 then -1
    else if ids[0] == id then 0
    else
      var r := FindIndex(ids[1..], id);
      if r == -1 then -1 else r + 1
  }

  /** The `stepIndex` memo: 0 when there is no active step id (null or ""), or it is not
      a step of the configuration; otherwise its position. */
  function StepIndex(ids: seq<string>, active: Option<string>): (r: nat)
    ensures |ids| > 0 ==> r < |ids|
    ensures active.Some? && active.value != "" && active.value in ids ==>
              ids[r] == active.value && forall k :: 0 <= k < r ==> ids[k] != active.value
    ensures active.None? || active.value == "" || active.value !in ids ==> r == 0
  {
    if active.None? || active.value == "" then 0
    else
      var idx := FindIndex(ids, active.value);
      if idx >= 0 then idx else 0
  }

  /** The step id the page works on: `steps[stepIndex]?.id`, absent for no steps. */
  function CurrentStepId(ids: seq<string>, active: Option<string>): Option<string> {
    var i := StepIndex(ids, active);
    if i < |ids| then Some(ids[i]) else None
  }

  /** The buttons' enabled states. */
  predicate CanPrev(ids: seq<string>, active: Option<string>) { StepIndex(ids, active) > 0 }
  predicate CanNext(ids: seq<string>, active: Option<string>) { StepIndex(ids, active) < |ids| - 1 }

  /** The step id Prev selects: `steps[max(0, i - 1)]?.id ?? stepId`. */
  function PrevTarget(ids: seq<string>, active: Option<string>): Option<string> {
    var i := StepIndex(ids, active);
    var j := if i - 1 < 0 then 0 else i - 1;
    if j < |ids| then Some(ids[j]) else CurrentStepId(ids, active)
  }

  /** The step id Next selects: `steps[min(len - 1, i + 1)]?.id ?? stepId`. */
  function NextTarget(ids: seq<string>, active: Option<string>): Option<string> {
    var i := StepIndex(ids, active);
    var j := if |ids| - 1 < i + 1 then |ids| - 1 else i + 1;
    if 0 <= j < |ids| then Some(ids[j]) else CurrentStepId(ids, active)
  }

  /** With distinct step ids, Prev moves the shown step one back and Next one forward,
      each stopping at its end, where its button is disabled. */
  lemma PrevNextMoveByOne(ids: seq<string>, active: Option<string>)
    requires |ids| > 0
    requires forall a, b :: 0 <= a < b < |ids| ==> ids[a] != ids[b]
    requires forall a :: 0 <= a < |ids| ==> ids[a] != ""
    ensures var i := StepIndex(ids, active);
            && StepIndex(ids, PrevTarget(ids, active)) == (if i == 0 then 0 else i - 1)
            && StepIndex(ids, NextTarget(ids, active)) == (if i == |ids| - 1 then i else i + 1)
            && (CanPrev(ids, active) <==> i != 0)
            && (CanNext(ids, active) <==> i != |ids| - 1)
  {
    var i := StepIndex(ids, active);
    var p := if i == 0 then 0 else i - 1;
    var n := if i == |ids| - 1 then i else i + 1;
    assert PrevTarget(ids, active) == Some(ids[p]);
    assert NextTarget(ids, active) == Some(ids[n]);
    IndexOfDistinct(ids, p);
    IndexOfDistinct(ids, n);
  }

  /** Among distinct ids, an id (when non-empty) is found at its own position. */
  lemma IndexOfDistinct(ids: seq<string>, j: nat)
    requires j < |ids|
    requires forall a, b :: 0 <= a < b < |ids| ==> ids[a] != ids[b]
    ensures ids[j] != "" ==> StepIndex(ids, Some(ids[j])) == j
  {
  }

  // ---------------------------------------------------------------- the drafts

  /** Draft initialisation: when the step has no draft yet (`prev[stepId]` is
      undefined), its draft becomes the latest saved answers; an existing draft, even
      an empty one, is kept. A step id naming an `Object.prototype` member reads as
      present, so it is never initialised. The saved answers are read with the loop
      as written, which drops question ids naming `Object.prototype` members. */
  function InitDraft(drafts: Draft.Drafts, stepId: Option<string>, rows: seq<AnswerRow>): (r: Draft.Drafts)
    ensures stepId.None? || stepId.value == "" || !Get(drafts, stepId.value).Undefined? ==> r == drafts
    ensures stepId.Some? && stepId.value != "" && Get(drafts, stepId.value).Undefined? ==>
              r == drafts[stepId.value := LatestAnswersForStepAsWritten(rows, stepId.value)]
  {
    if stepId.None? || stepId.value == "" then drafts
    else if Get(drafts, stepId.value).Undefined? then drafts[stepId.value := LatestAnswersForStepAsWritten(rows, stepId.value)]
    else drafts
  }

  /** Initialising again changes nothing, even after new rows arrive, and it never
      touches another step's draft. */
  lemma InitDraftIdempotent(drafts: Draft.Drafts, stepId: Option<string>, rows: seq<AnswerRow>, later: seq<AnswerRow>, s: string)
    ensures InitDraft(InitDraft(drafts, stepId, rows), stepId, later) == InitDraft(drafts, stepId, rows)
    ensures s in drafts ==> s in InitDraft(drafts, stepId, rows) && InitDraft(drafts, stepId, rows)[s] == drafts[s]
    ensures (stepId.None? || s != stepId.value) ==> (s in InitDraft(drafts, stepId, rows) <==> s in drafts)
  {
  }

  /** A step opened for the first time shows its saved answers: afterwards its
      draft holds a value for a non-empty question id that is not an
      `Object.prototype` name exactly when the step has a saved row for it, and then
      the latest one's; a question id naming an `Object.prototype` member gets no
      value, whatever rows it has. */
  lemma InitDraftShowsSaved(drafts: Draft.Drafts, stepId: string, rows: seq<AnswerRow>, q: string)
    requires stepId != "" && Get(drafts, stepId).Undefined?
    ensures var d := InitDraft(drafts, Some(stepId), rows);
            && stepId in d
            && (q in ProtoKeys ==> q !in d[stepId])
            && (q != "" && q !in ProtoKeys ==>
                  (q in d[stepId] <==> exists i :: 0 <= i < |rows| && rows[i].stepId == stepId && rows[i].questionId == q))
            && (q in d[stepId] ==>
                  Some(d[stepId][q]) == Submit.ValueOf(Recency.Latest(Recency.KeepKey(rows, AnswerStep, stepId), AnswerAt, AnswerQuestion, q)))
            && (q in d[stepId] ==>
                  Some(d[stepId][q]) == Submit.ValueOf(Recency.Latest(rows, AnswerAt, AnswerStepQuestion, (stepId, q))))
  {
    LatestAnswersMeaning(rows, stepId, q);
    if q in ProtoKeys {
      AsWrittenDropsProtoKeys(StepRowsNewestFirst(rows, stepId), map[], q);
    } else {
      AsWrittenAgreesOffProto(rows, stepId, q);
    }
  }

  /** The page's `setAnswer`: nothing happens without a current step id. */
  function SetAnswer(drafts: Draft.Drafts, stepId: Option<string>, questionId: string, value: Json.Value): (r: Draft.Drafts)
    ensures stepId.None? || stepId.value == "" ==> r == drafts
    ensures stepId.Some? && stepId.value != "" ==> r == Draft.SetAnswer(drafts, stepId.value, questionId, value)
    ensures stepId.Some? && stepId.value != "" ==>
              Draft.StepAnswers(r, stepId.value) == Draft.StepAnswers(drafts, stepId.value)[questionId := value]
    ensures forall s :: (stepId.None? || s != stepId.value) ==> Draft.StepAnswers(r, s) == Draft.StepAnswers(drafts, s)
  {
    if stepId.None? || stepId.value == "" then drafts else Draft.SetAnswer(drafts, stepId.value, questionId, value)
  }
}

=== FILE: wrappers.dfy ===
/** Optional values: the model's stand-in for JavaScript's `undefined` and `null`. */
module Wrappers {

  datatype Option<+T> = None | Some(value: T) {

    /** Returns the value held in Some, or `default` for None (JavaScript's `??`). */
    function GetOr(default: T): T {
      match this
      case Some(v) => v
      case None => default
    }
  }
}
